=== FILE: README.md ===
# Logbook report workflow in Dafny

Logbook is a desktop application for production logbook reports. An author
creates a report, either from the Excel template (`{{name}}` placeholders)
or from a generated entry form, and submits it with a digital signature
("{emp_code} - {designation}"). A unit leader approves it or sends it back.
An administrator gives the final approval. The approval e-mail goes out at
once, or is queued and sent later by a background processor. The final PDF
is the filled template, converted by LibreOffice, with a "Digital
Signatures" table drawn on its last page.

This project models the core of that workflow as pure functions over an
immutable `Store`:

- `store.dfy` (`Store`): the tables of `installer/db/database.py`: users,
  reports, report fields, approval logs and the e-mail queue, with their
  queries and updates.
- `auth.dfy` (`Auth`): registration, login and role tests
  (`utils/auth.py`). The password hash is a parameter (`Hasher`).
- `notify.dfy` (`Notify`): in-app notifications (`utils/notifications.py`).
- `signatures.dfy` (`Signatures`): how `generate_report_pdf` chooses one
  signing log per actor and builds the signature rows.
- `sheet.dfy` (`Sheet`): the template scan, fill and preview of
  `utils/excel_handler.py`, with the column-letter round trip and the
  sample template's cells as test vectors.
- `overlay.dfy` (`Overlay`): `utils/pdf_excel_tools.py`: the fit-to-page
  conversion, the layout of the signature overlay, and the merge onto the
  last page.
- `pdf.dfy` (`Pdf`): the `generate_report_pdf` pipeline. `pdf/pdf_generator.py`
  and `installer/pdf/pdf_generator.py` are the same file; rows cite the
  first.
- `delivery.dfy` (`Delivery`): the connectivity probe and one cycle of the
  queue processor in `main.py`.
- `views.dfy` (`Views`): what the dashboards compute. This covers field
  grouping, form checks, table filters, counters, captions, PDF file-name
  lookup, the reviewers' lists and which buttons show.
- `accounts.dfy` (`Accounts`): the admin's user management dialogs.
- `workflow.dfy` (`Workflow`): every workflow action of the dashboards and
  the remote e-mail endpoint. Each action is a `Plan`: the database writes
  it issues, in order, and its reply. `ApplyAll` commits the writes one by
  one, since each database call of the source is its own transaction. A
  crash between two commits is a prefix of the writes.
- `common.dfy` (`Common`): `Option`, sequence helpers, string helpers.

The dialog answers, the clock, file-system lookups, the network probe, the
mail sender and database failures are all parameters.

## Model

| member | source | states |
|---|---|---|
| Store.GetUserById | installer/db/database.py:67-73 | the row with that id, or `None` exactly when no row has it |
| Store.GetUserByUsername | installer/db/database.py:59-65 | the row with that username, or `None` exactly when no row has it |
| Store.GetUserName | installer/db/database.py:75-80 | the user's name, "Unknown" for a missing user |
| Store.AddUser | installer/db/database.py:24-38 | a duplicate username fails and changes nothing; otherwise one row is appended under the next id and nothing else changes |
| Store.DeleteUser | installer/db/database.py:40-57 | answers true iff the id existed; afterwards the users are the old ones minus that id |
| Store.UpdateUser | installer/db/database.py:90-125 | an empty patch is false and changes nothing; success iff the user exists and no rename clashes (UNIQUE); only that row is patched |
| Store.CreateReport | installer/db/database.py:214-224 | one new `draft` report at version 1, owned and last modified by its author, under the next id |
| Store.UpdateReportStatus | installer/db/database.py:226-250 | true iff the report exists; only its status and last-modified columns change, `version` included in what stays |
| Store.AddReportData | installer/db/database.py:252-278 | upsert: afterwards a row for (report, name) exists and every such row holds the value; other rows are unchanged; at most one row is added |
| Store.AddReportDataValid | installer/db/database.py:252-278 | the upsert keeps the table invariants, at most one row per (report, field name) included |
| Store.AddReportDataThenRead | installer/db/database.py:252-307 | reading the field map back after a write gives the written value |
| Store.FieldMapAgrees | installer/db/database.py:300-307 | the fields dict has a name iff some row of the report carries it, with that row's value |
| Store.AddApprovalLog | installer/db/database.py:375-383 | one log row appended under the next id; nothing else changes |
| Store.JoinedLogs | installer/db/database.py:309-318 | exactly the report's log rows whose actor exists, each with the actor's name |
| Store.GetReport | installer/db/database.py:280-321 | `None` iff the report or its owner is missing; otherwise that report, its owner's username as creator name, its whole field map, and its joined logs as a permutation sorted by timestamp ascending |
| Store.LeaderLogsFacts | installer/db/database.py:385-398 | the leader-approval candidates are exactly the report's `approve_leader` logs, in timestamp order |
| Store.GetLeaderApproval | installer/db/database.py:385-398 | the most recent `approve_leader` log of the report; `None` iff there is none |
| Store.ListingHas | installer/db/database.py:323-346 | the owner JOIN drops only reports whose owner is missing |
| Store.GetReportsByStatus | installer/db/database.py:323-346 | only stored reports in that status, and of that owner when one is given |
| Store.GetReportsByStatusComplete | installer/db/database.py:323-346 | every report in the status whose owner exists is listed |
| Store.GetUserReports | installer/db/database.py:348-360 | only stored reports of that owner |
| Store.GetUserReportsComplete | installer/db/database.py:348-360 | every report of an existing owner is listed |
| Store.AddEmailQueue | installer/db/database.py:417-426 | one `pending` job appended under the next id; nothing else changes |
| Store.GetPendingEmailQueue | installer/db/database.py:428-434 | exactly the pending jobs |
| Store.UpdateEmailQueueStatus | installer/db/database.py:436-446 | only that job changes: its status, and its error message only when a non-empty one is given |
| Auth.RegisterUser | utils/auth.py:26-34 | succeeds iff the username is free, storing the hash of the password; a failure changes nothing |
| Auth.Login | utils/auth.py:36-49 | the public record of the user iff the password verifies against the stored hash |
| Auth.RegisterThenLogin | utils/auth.py:16-49 | whoever registers can log in with the same password and gets back what they registered |
| Auth.RolesExclusive | utils/auth.py:51-62 | at most one role test holds, and none for a missing user |
| Notify.SendReportNotification | utils/notifications.py:17-59 | one unread notice appended under the next id; a database failure answers false and changes nothing |
| Notify.GetUserNotifications | utils/notifications.py:61-101 | exactly the user's notices (the unread ones unless `include_read`), nothing without the table |
| Notify.SendKeepsAscending | utils/notifications.py:17-59 | AUTOINCREMENT ids stay ascending in table order |
| Notify.NewestFirst | utils/notifications.py:83-92 | the list comes newest first: ids strictly decrease |
| Notify.MarkNotificationAsRead | utils/notifications.py:103-128 | only the notice with that id becomes read; true even for an unknown id, false without the table |
| Notify.SendThenFetch | utils/notifications.py:17-101 | a notice just sent is the first its user sees |
| Notify.MarkThenFetch | utils/notifications.py:61-128 | a notice marked read no longer shows among the unread ones |
| Signatures.RoleOf | pdf/pdf_generator.py:43-47 | exactly `submit`, `approve_leader` and `approve_admin` have a role |
| Signatures.GetPut | pdf/pdf_generator.py:50-60 | the dictionary write keeps the read-after-write law |
| Signatures.CollectGet | pdf/pdf_generator.py:50-57 | each dictionary holds, under each key, the last selected log with that key |
| Signatures.LastWhereAdminKey | pdf/pdf_generator.py:51-54 | keying admin logs by "admin:" plus the name selects the same log as keying by the name |
| Signatures.MergeGet | pdf/pdf_generator.py:58-60 | after the merge a name maps to its admin approval if any, else to its other log |
| Signatures.SignersChosen | pdf/pdf_generator.py:48-60 | the dictionary holds under each name the actor's last `approve_admin` log, else their last `submit` or `approve_leader` log |
| Signatures.SignatureLogs | pdf/pdf_generator.py:62 | the signer logs, sorted by timestamp, as a permutation of the dictionary's values |
| Signatures.SignatureLogsIff | pdf/pdf_generator.py:48-62 | a log is in the sorted list iff it is the one chosen for its actor |
| Signatures.ChosenFacts | pdf/pdf_generator.py:48-60 | the chosen log is the actor's own and has a role; it is an admin approval iff the actor has one; nobody without a role log signs |
| Signatures.ChosenIsLatest | pdf/pdf_generator.py:48-62 | with timestamp-ascending logs, the chosen log is the actor's most recent of its kind |
| Signatures.SignatureLogsDistinct | pdf/pdf_generator.py:48-62 | no actor appears twice in the list |
| Signatures.EmpCode | pdf/pdf_generator.py:66-67 | the actor's employee code, "" for a missing user |
| Signatures.BuildSignatures | pdf/pdf_generator.py:63-81 | one row per sorted signer log, in order |
| Signatures.RowsChosen | pdf/pdf_generator.py:63-81 | every row is its signer's chosen log under a role-map label; "Approved By" iff it is an admin approval |
| Signatures.RowsComplete | pdf/pdf_generator.py:48-81 | every actor with a role log signs |
| Signatures.RowsDistinct | pdf/pdf_generator.py:48-81 | no name signs twice |
| Signatures.RowsAscending | pdf/pdf_generator.py:62-81 | rows come in ascending timestamp order |
| Signatures.ApprovedNames | pdf/pdf_generator.py:48-81 | the "Approved By" rows name exactly the admin approvers |
| Signatures.ApprovedCount | pdf/pdf_generator.py:48-81 | k distinct admin approvers give exactly k "Approved By" rows |
| Signatures.SignatureTable | pdf/pdf_generator.py:42-82 | the whole signature table: labels, chosen logs, completeness, distinct names, ascending order and the approver count together |
| Sheet.TextCell | utils/excel_handler.py:86 | a string assigned to a cell is a formula without a cached result iff it has two or more characters and starts with "=" |
| Sheet.DataOnly | utils/excel_handler.py:18 | the `data_only=True` load shows a formula's cached result, or nothing without one; other cells as they are |
| Sheet.LoadsAgree | utils/excel_handler.py:18-78 | the scan's and the fill's loads read the same text except at formulas; a formula without a cached result is empty to scan and preview and its source to the fill |
| Sheet.FieldType | utils/excel_handler.py:36-41 | every field is a date, number or text field |
| Sheet.ColumnLetterRoundTrip | utils/excel_handler.py:48 | `get_column_letter` is inverted by `column_index_from_string` |
| Sheet.ColumnNumberRoundTrip | utils/excel_handler.py:48 | every column name is the letter of its own number |
| Sheet.GetTemplateFields | utils/excel_handler.py:15-54 | a template that cannot be loaded has no fields |
| Sheet.ScanCellsComplete | utils/excel_handler.py:28-34 | the column loop visits every placeholder cell of a row |
| Sheet.ScanRowsOrdered | utils/excel_handler.py:25-34 | the scan yields cells in row-major order |
| Sheet.TemplateFieldsExact | utils/excel_handler.py:25-49 | the fields are exactly the placeholder cells, each described by its own cell (name, type, row, column, letter), in row-major order |
| Sheet.FieldFound | utils/excel_handler.py:25-49 | every placeholder cell yields a field |
| Sheet.FillCells | utils/excel_handler.py:75-86 | the sheet keeps its shape and every cell is filled on its own |
| Sheet.SignatureBlock | utils/excel_handler.py:89-100 | a blank row, the heading, then one (role:, name, timestamp) row per signature in order |
| Sheet.CreateReportFromTemplate | utils/excel_handler.py:57-107 | no dict, no template, a failed save or a fill that raises give `False` |
| Sheet.FillKeepsOrReplaces | utils/excel_handler.py:75-86 | a placeholder of the plain load with a text entry takes that text; every other template cell is kept |
| Sheet.FillChangesOnlyScannedFields | utils/excel_handler.py:15-86 | a changed cell is a placeholder of the plain load named in the data; if it is not a formula, the scan reports it under that name |
| Sheet.BlockRowAt | utils/excel_handler.py:93-100 | signature `i` lands three rows plus `i` below the rows above the block, as role:, name, timestamp |
| Sheet.SignatureBlockPlacement | utils/excel_handler.py:89-100 | the signature heading is two rows below the template's last row, then the rows in list order |
| Sheet.FillWithoutMatchesIsIdentity | utils/excel_handler.py:75-100 | with no known placeholder and no signatures the saved sheet is the template |
| Sheet.GetTemplatePreview | utils/excel_handler.py:110-126 | the first `min(max_rows, max_row)` rows, each `max_column` texts, empty cells as "" |
| Sheet.PreviewShowsPlaceholders | utils/excel_handler.py:117-122 | a scanned placeholder within the previewed rows shows its placeholder text |
| Sheet.SimpleCellName | utils/excel_handler.py:31-34 | a `{{name}}` cell declares the field `name` |
| Sheet.DateCellVector | utils/create_sample_template.py:39 | the sample's `{{date}}` cell is the date field "date" |
| Sheet.PlannedCellVector | utils/create_sample_template.py:68 | the sample's planned cell is the field "planned_product_a" |
| Sheet.VarianceCellName | utils/create_sample_template.py:70 | read as text, the variance formula is one placeholder whose name keeps "=" and the minus sign |
| Sheet.VarianceCellVector | utils/create_sample_template.py:63-73 | for "Product A" the variance cell is stored as a formula without a cached result: the scan sees no placeholder there, the fill sees the name "=actual_product_a - planned_product_a", and data without that key leaves it as it was |
| Sheet.FormulaFilledUnscanned | utils/excel_handler.py:15-86 | a sheet of just that formula has no template fields, yet a fill keyed by the formula's name rewrites it |
| Sheet.VarianceSheetUnscanned | utils/excel_handler.py:15-54 | the scan finds no field in the one-cell variance sheet |
| Sheet.VarianceSheetFilled | utils/excel_handler.py:57-107 | the fill replaces the one-cell variance sheet's formula by the keyed value |
| Overlay.FitToPage | utils/pdf_excel_tools.py:19-21 | every worksheet is set to one page wide and tall; cells unchanged |
| Overlay.ExtensionDot | utils/pdf_excel_tools.py:30 | `splitext` splits at the last dot unless only dots precede it |
| Overlay.StemOfExtension | utils/pdf_excel_tools.py:30 | a name with a plain extension loses exactly that extension |
| Overlay.ConvertExcelToPdf | utils/pdf_excel_tools.py:9-42 | success iff the workbook loads, saves and LibreOffice's output exists; the saved workbook is fit to page; the PDF ends up at the output path |
| Overlay.DrawOverlay | utils/pdf_excel_tools.py:53-73 | the title "Digital Signatures" at x 50, one line above the headers "Role", "Name", "Emp Code", "Date/Time" at x 50, 150, 300, 450 and y 50 + 12 per signature; one row of (role, name, code, time) per signature, level and under the headers, the last at y 50, each above the next |
| Overlay.OverlayLineSpacing | utils/pdf_excel_tools.py:59-69 | consecutive lines are exactly 12 points apart |
| Overlay.MergeOntoLastPage | utils/pdf_excel_tools.py:76-83 | every page is copied in order; only the last one gets the overlay |
| Overlay.AppendSignatures | utils/pdf_excel_tools.py:44-86 | the document keeps its pages and gains the signature overlay on its last page |
| Pdf.ArtifactPath | pdf/pdf_generator.py:85 | the report's own path when non-empty, else the `excel_file_path` field, if any |
| Pdf.FillData | pdf/pdf_generator.py:82 | every field as text plus the signature rows under "signatures" |
| Pdf.TempPdfAwaited | pdf/pdf_generator.py:107-111 | the conversion waits for `report_<id>.pdf` next to the temporary workbook |
| Pdf.Convert | pdf/pdf_generator.py:107-111 | converted iff the conversion succeeds, otherwise the conversion error |
| Pdf.FromWorkbook | pdf/pdf_generator.py:89-105 | the user's copy when it exists and copies; otherwise the filled template, with the fallback or fill error message |
| Pdf.ProbeAsWritten | pdf/pdf_generator.py:87-89 | a missing path raises; otherwise found iff non-empty and existing |
| Pdf.Probe | pdf/pdf_generator.py:89 | found iff a non-empty path exists; agrees with the code wherever the code does not raise |
| Pdf.PrepareAsWritten | pdf/pdf_generator.py:23-111 | a missing report is "Report not found"; a report without a recorded path always fails with the `TypeError` text |
| Pdf.Prepare | pdf/pdf_generator.py:23-111 | "Report not found" iff the report is missing; the user's workbook exactly when recorded, existing and copied; else the template filled with fields and signatures |
| Pdf.PrepareAgrees | pdf/pdf_generator.py:85-111 | wherever a path is recorded, the corrected pipeline equals the code |
| Pdf.NoArtifactNeverFillsAsWritten | pdf/pdf_generator.py:85-89 | without a recorded path the code always fails, while the corrected pipeline fills the template |
| Pdf.Finish | pdf/pdf_generator.py:107-126 | a stop is the failure message; a conversion is the output path with the pages, the last one carrying the signature overlay |
| Pdf.GenerateReportPdfAsWritten | pdf/pdf_generator.py:23-126 | as written: fails iff the as-written preparation stops, so always with the `TypeError` text when no path is recorded; otherwise the output path and the pages with the overlay on the last |
| Pdf.GenerateReportPdf | pdf/pdf_generator.py:23-126 | on the corrected preparation: fails iff it stops, with its message; otherwise the output path, the chosen source, the signature rows, and the pages with the overlay on the last |
| Pdf.FailureMessages | pdf/pdf_generator.py:23-126 | the corrected pipeline fails only with its four messages |
| Delivery.IsOnline | main.py:170-175 | online iff the probe connects |
| Delivery.Settle | main.py:308-315 | delivered is `sent`, refused is `error` with the message, raised leaves the job as it was |
| Delivery.SettleIdempotent | main.py:308-315 | recording an outcome twice is recording it once |
| Delivery.Record | main.py:308-318 | only the attempted job changes, as `Settle` says |
| Delivery.DrainCycle | main.py:292-320 | offline, nothing; online, exactly the pending jobs are attempted in order and each job ends as one attempt leaves it |
| Delivery.SettledStaysSettled | main.py:295 | a job that is not pending is never attempted again, so an error is never retried |
| Delivery.PendingAfterCycle | main.py:295-318 | after a cycle a job is pending iff it was and its attempt raised |
| Accounts.AdminAddUser | ui/admin_dashboard.py:1176-1204 | saved iff username, password and e-mail are filled and the name is free; then the user is found by name |
| Accounts.EditPatch | ui/admin_dashboard.py:1219-1229 | an empty password box leaves the stored hash alone |
| Accounts.AdminEditUser | ui/admin_dashboard.py:1206-1240 | saved iff username and e-mail are filled, the user exists and no rename clashes; otherwise unchanged |
| Accounts.EditKeepsPassword | ui/admin_dashboard.py:1206-1240 | with the password box empty the user logs in under the new name with the old password |
| Accounts.AdminDeleteUser | ui/admin_dashboard.py:1242-1270 | never one's own account nor "admin"; deleted iff offered, confirmed and existing |
| Accounts.DeleteSparesAdmins | ui/admin_dashboard.py:1242-1251 | a deletion keeps the acting admin and the default admin account |
| Views.CategoryOf | ui/unit_leader_dashboard.py:145-169 | one of four categories; "General Information" iff no keyword matches |
| Views.GroupFieldsByCategory | ui/unit_leader_dashboard.py:145-169 | each category's list is exactly its fields in stored order; each field's category is present |
| Views.EachFieldOneCategory | ui/unit_leader_dashboard.py:145-169 | every field lands in the group of its own category and no other |
| Views.GroupFieldsIntoSections | ui/report_form.py:140-165 | non-empty sections, each exactly its fields; "General Information" first when it has any |
| Views.WidgetOfTemplateField | ui/report_form.py:167-191 | date picker iff the name mentions "date"; a 0..999999 spin box iff "number" or "quantity" otherwise; multi-line only for notes or long names |
| Views.FormValue | ui/report_form.py:193-212 | the collected value of a name, `None` iff none was collected |
| Views.MissingFields | ui/report_form.py:251-252 | exactly the required names (date or supervisor) with no value |
| Views.NothingMissing | ui/report_form.py:251-257 | with nothing missing, every required field holds text |
| Views.UserTable | ui/user_dashboard.py:626-645 | exactly the rows passing the status filter and the case-insensitive title search |
| Views.UserTableUnfiltered | ui/user_dashboard.py:626-645 | "all" with an empty search lists every row in order |
| Views.SearchIgnoresCase | ui/user_dashboard.py:626-645 | searches differing only in case give the same table |
| Views.DashboardStats | ui/user_dashboard.py:699-707 | the four counters partition the reports with a known status |
| Views.StatsAddUp | ui/user_dashboard.py:699-707 | with known statuses the counters add up to the number of reports |
| Views.StatusCaptions | ui/user_dashboard.py:749-758 | the five statuses get five different captions; others are capitalised |
| Views.SplitJoinLines | ui/user_dashboard.py:783-785 | splitting the "\n" join at newlines gives the lines back when none holds a newline |
| Views.SubmitLines | ui/user_dashboard.py:781-785 | every line is the "Prepared By" line of a submit log, every submit log has its line, none iff there is no submit log |
| Views.SignatureText | ui/user_dashboard.py:780-787 | "Not signed" iff there is no submit log; otherwise the "\n" join of the submit logs' "Prepared By" lines, each contained |
| Views.SignatureTextLines | ui/user_dashboard.py:780-787 | with newline-free names and timestamps, the text's lines are exactly the submit logs' lines in log order |
| Views.ReportFileName | ui/user_dashboard.py:191-193 | "report_{id}_" followed by the template's file name |
| Views.FirstPdf | ui/admin_dashboard.py:1128-1138 | the first accepted file of the listing; `None` iff there is none |
| Views.FindPdf | ui/admin_dashboard.py:1128-1138 | the approved folder first, then all reports; `None` iff neither has a PDF of the report |
| Views.PdfNameSelectsItsReport | ui/admin_dashboard.py:1128-1138 | a generated name is accepted for report b iff it is b's |
| Views.ApprovedPdfFound | ui/admin_dashboard.py:1474 | a PDF just written into the approved folder is found there |
| Views.ListStatusesSound | ui/unit_leader_dashboard.py:472-479 | the merged lists hold only stored reports in the listed statuses |
| Views.ListStatusesComplete | ui/unit_leader_dashboard.py:472-479 | every report in a listed status whose owner exists is listed |
| Views.ReviewTable | ui/unit_leader_dashboard.py:472-479 | rows match the status filter and the search; "all" never shows drafts |
| Views.ReviewTableComplete | ui/unit_leader_dashboard.py:472-479 | every report in review whose owner exists shows under "all" |
| Views.LeaderPending | ui/unit_leader_dashboard.py:387-390 | only submitted or sent-back stored reports |
| Views.LeaderPendingOrder | ui/unit_leader_dashboard.py:387-390 | every submitted report comes before every sent-back one |
| Views.LeaderPendingComplete | ui/unit_leader_dashboard.py:387-390 | every submitted or sent-back report whose owner exists is listed |
| Views.ReviewButtons | ui/unit_leader_dashboard.py:525-537 | leader and admin buttons never show for the same report; the admin dialog's test fails for all five statuses |
| Views.AdminPending | ui/admin_dashboard.py:912 | only stored leader-approved reports |
| Views.GetAdminUsers | ui/unit_leader_dashboard.py:669-678 | user 1 iff it exists and is an admin, nobody else |
| Workflow.ApplyAllLogs | installer/db/database.py:375-383 | the approval log only grows: old rows stay and new rows follow in order with consecutive ids |
| Workflow.ApplyAllQueue | installer/db/database.py:417-426 | the queue only grows, by one job per enqueue |
| Workflow.ApplyAllReports | installer/db/database.py:226-250 | existing reports keep all but status and last-modified columns, so `version` never moves; each ends with its last written status |
| Workflow.ApplyAllStatuses | installer/db/database.py:214-250 | new reports start at version 1 as drafts; every status is an old one or one the writes allow |
| Workflow.FieldsReadBack | ui/report_form.py:259-270 | the form's values are readable after the writes that follow them |
| Workflow.SignatureNeverBlank | ui/admin_dashboard.py:1448-1451 | the signature always holds "-", so the blank-signature branch is dead |
| Workflow.SignAndSubmit | ui/user_dashboard.py:951-985 | done iff the signer has code and designation and confirms; then exactly the submit and log writes |
| Workflow.EditorSubmit | ui/user_dashboard.py:265-305 | done iff a report and an existing Excel file are held and the signer can sign and confirms |
| Workflow.DashboardSubmit | ui/user_dashboard.py:951-985 | done iff the report is found and the signer can sign and confirms; a missing report is refused |
| Workflow.RecordedWorkbook | ui/user_dashboard.py:884-889 | the recorded workbook is the `excel_file_path` field when present and non-empty |
| Workflow.EditReportAsWritten | ui/user_dashboard.py:872-941 | as written: never a write; a missing report or a status outside draft, submitted and needs_revision is refused; without a recorded workbook on disk an empty template list is refused and any other list crashes with the `TypeError` of line 920 |
| Workflow.EditReport | ui/user_dashboard.py:872-941 | as intended: the same refusals; the only write records the copy of the list's first template, made iff no recorded workbook is on disk, the list is non-empty and the copy succeeds; done iff a workbook was opened; never a crash |
| Workflow.EditReportCrashesAsWritten | ui/user_dashboard.py:908-929 | wherever the intended edit records a copy the code crashes with no writes; wherever the code does not crash the two agree |
| Workflow.EditReportCopiesOnce | ui/user_dashboard.py:884-929 | in the intended edit, after the copy is recorded the report names it as its workbook, and the next edit copies nothing |
| Workflow.EditorOpen | ui/user_dashboard.py:174-226 | no title is refused; otherwise a draft is created unless one is held; never a status or log write |
| Workflow.EditorSaveDraft | ui/user_dashboard.py:249-263 | done iff a report and existing file are held; then exactly one `draft` status write |
| Workflow.FormSave | ui/report_form.py:214-236 | done iff the stripped title is not blank; then a new report and one field write per value |
| Workflow.FormSubmit | ui/report_form.py:238-278 | done iff a title is given and no required field is missing; the warning lists exactly the missing fields |
| Workflow.LeaderApprove | ui/unit_leader_dashboard.py:595-633 | on confirmation exactly `approved_leader` and one `approve_leader` log, from any status |
| Workflow.LeaderSendBack | ui/unit_leader_dashboard.py:635-667 | done iff comments are non-empty (whitespace accepted); then `needs_revision` and a `send_back` log with the comments |
| Workflow.AdminLogComment | ui/admin_dashboard.py:1443-1452 | the comment ends with "Digital Signature: " and the signature, after the comments and a newline when given |
| Workflow.AuthorNotice | ui/admin_dashboard.py:1523-1530 | one notice to the author iff `user_id` is truthy |
| Workflow.ApprovalNotices | ui/admin_dashboard.py:1518-1541 | only notices; unless the report is `leader_approved`, only the author's |
| Workflow.AdminApprove | ui/admin_dashboard.py:1342-1553 | done iff the report is found and the dialog accepted; then the status, the signed log, then notices |
| Workflow.AdminSendBack | ui/admin_dashboard.py:1555-1641 | a missing report is refused; blank comments write nothing; done means status then log with the comments |
| Workflow.FinalPdfName | email_module/email_action_api.py:50 | the final PDF name is a file of that report ending "final.pdf" |
| Workflow.RemoteApprove | email_module/email_action_api.py:21-68 | 400 iff an argument is missing, and then no writes; otherwise the status and log writes come first |
| Workflow.RemoteSendBack | email_module/email_action_api.py:70-77 | 400 iff an argument is missing; otherwise only `needs_revision`, no log |
| Workflow.StatusThenLog | installer/db/database.py:226-250 | a status write then a log write: the report's status and one log row change, nothing else |
| Workflow.SubmitOutcome | ui/user_dashboard.py:980-983 | a signed submission leaves the report `submitted`, still editable, with one signed `submit` row |
| Workflow.SubmitInterrupted | ui/user_dashboard.py:980-983 | interrupted between commits, the report is `submitted` without its `submit` row |
| Workflow.FormSubmitWritesOutcome | ui/report_form.py:259-270 | one `submitted` report at version 1, one "Initial submission" row, every collected value stored |
| Workflow.FormSubmitOutcome | ui/report_form.py:238-278 | a successful submission stores every required field non-empty under the stripped title |
| Workflow.FormSaveOutcome | ui/report_form.py:214-236 | a draft save creates one `draft` report with every collected value, and no log |
| Workflow.LeaderApproveOutcome | ui/unit_leader_dashboard.py:595-633 | the report is locked for its author and enters the admin's review list |
| Workflow.LeaderSendBackOutcome | ui/unit_leader_dashboard.py:635-667 | the report is editable again and the comments are logged as given |
| Workflow.AdminApproveOutcome | ui/admin_dashboard.py:1443-1452 | the report is `approved_admin`, locked, and the log holds comments and signature |
| Workflow.AdminSendBackOutcome | ui/admin_dashboard.py:1612-1641 | with non-blank comments the send-back always succeeds; the failure branch is dead |
| Workflow.RemoteApproveReply | email_module/email_action_api.py:26-68 | 404 iff the report is missing; success unless missing or the construction of the sender at line 54 raised, online or offline |
| Workflow.RemoteApproveRaisedOffline | email_module/email_action_api.py:54-68 | a found report whose sender cannot be built gets a 500 "PDF or Email error" with the status and log written and nothing queued, even offline |
| Workflow.RemoteApproveOutcome | email_module/email_action_api.py:28-66 | the writes happen for any status and even for a missing report; a job is queued iff found, the sender was built, and offline or refused |
| Workflow.RemoteSendBackOutcome | email_module/email_action_api.py:70-77 | the report is editable again; log and queue unchanged |
| Workflow.EditorSaveDraftOutcome | ui/user_dashboard.py:249-263 | the held report returns to `draft` from any status, a final approval included |
| Workflow.StepWritesKnown | installer/db/database.py:226-250 | no action writes a status other than the five the dashboards know |
| Workflow.RunAllKeeps | installer/db/database.py:214-250 | any run keeps every status known and every version at 1 |
| Workflow.NoReviewStatusReachable | ui/admin_dashboard.py:243 | from an empty database no report is ever `pending_approval` or `leader_approved`, so the dialog's review buttons never show |
| Workflow.LeaderNoticeNeverSent | ui/admin_dashboard.py:1532-1540 | after any actions from a store whose statuses are the five known ones, a final approval notifies only the author |
| Workflow.KnownReportNotLeaderApproved | ui/admin_dashboard.py:1532 | a report with a known status is never `leader_approved`, the status the leader notice tests for |
| Workflow.LeaderNoticePremisesMet | installer/db/database.py:214-321 | a database holding the default admin and one draft of theirs meets those premises |
| Workflow.RunAppendOnly | installer/db/database.py:214-446 | one action only appends to log and queue, keeps users, and changes existing reports only in status and last-modified columns |

## Left out

- The Qt widgets, dialogs and message boxes. Their answers (confirmation,
  text input, cancel) are parameters of each action.
- Sending e-mail (SMTP, `email_sender.py`). The sender's outcome is the
  parameter `SendResult`. In `/api/report/approve`, `Raised` stands for the
  `EmailSender()` construction raising; the send itself reports a failure
  as a value, `Refused`. The e-mails to leaders and admins that accompany
  submission and leader approval are not modelled.
- LibreOffice, reportlab, PyPDF2 and openpyxl I/O. Loaded workbooks, file
  existence, copy and save results and the converted pages are parameters.
  Only the active sheet is modelled.
- Threads, the 60-second sleep and the processor's outer exception handler.
  `DrainCycle` models one iteration.
- The Flask request parsing of the endpoint. Arguments arrive as parsed
  `Option<Id>`s; non-numeric ids are not modelled.
- Timezone conversion, `created_at` columns and debug logging. Timestamps
  are opaque stamps compared lexicographically.
- Temporary-file cleanup and the directory creation of the PDF pipeline.
- Template CRUD (installer/db/database.py:128-211). The template list that
  `get_active_template` returns is the parameter `templates` of
  `Workflow.EditReport`.
- The exception hook's log file and `sys.exit(1)` (main.py:30-67). An
  uncaught exception is the reply `Crashed`; the exit is not modelled.
- `Workflow.Step` runs the intended `edit_report` (`Workflow.EditReport`),
  as it runs the intended PDF pipeline.
- `save_changes` of the report editor (ui/user_dashboard.py:228-247). It only
  re-saves the workbook file.
- Opening a workbook in the desktop's spreadsheet program (`os.startfile`,
  `open`, `xdg-open`). Whether it fails is the parameter `openError` of
  `Workflow.EditReport`. `Workflow.EditorOpen` does not model it: it answers
  `Done` where ui/user_dashboard.py:211-226 warns "Failed to open Excel
  file". That warning comes after all of its writes, so no write differs.
- PDF generation inside the admin's final approval. It writes no database
  rows, so the approval's writes do not depend on it.
- Notification database failures inside actions. Each notice is a
  `SendNotice` write.
- The order `ORDER BY created_at DESC` of listings is modelled as reverse
  insertion order.
- Store.GetReportsByStatus: does not state the newest-first order, only
  membership and completeness.
- Store.GetUserReports: does not state the newest-first order, only
  membership (`Store.GetUserReports`) and completeness
  (`Store.GetUserReportsComplete`).
- Views.ReviewTable: does not state the order of the merged status lists.
- `os.path.basename` is modelled with '/' as the only separator.
- Views.UserTable: the case-insensitive title search folds ASCII letters
  only (`Common.Lower`); Python's `str.lower()` also folds other Unicode
  letters.
- Views.SearchIgnoresCase: searches that differ only in the case of
  non-ASCII letters are not shown to give the same table, for the same
  reason.
- Views.StatusCaptions: an unknown status is capitalised for ASCII letters
  only (`Common.Capitalize`), unlike Python's `str.capitalize()`.
- Sheet.FillChangesOnlyScannedFields: at a formula cell the scan reads the
  cached result and the fill reads the formula, so a changed formula cell
  need not be a scanned field (`Sheet.FormulaFilledUnscanned`).
- Saving through openpyxl drops formulas' cached results; the filled sheet
  keeps each untouched cell as it was loaded.
- Retries: failed deliveries are marked `error` and never picked up again
  (`Delivery.SettledStaysSettled`).
- The remote approve endpoint writes the status and log before looking the
  report up. A missing report therefore gets the writes plus a 404. The
  model keeps this (`Workflow.RemoteApproveOutcome`).

## Findings

| source | as written | input that shows it | evidently intended | confidence | as-written member | corrected member |
|---|---|---|---|---|---|---|
| pdf/pdf_generator.py:85-89 | `os.path.exists(None)` on line 87 raises `TypeError` when no workbook path is recorded. The outer handler returns `(False, str(e))`; on POSIX that text is "stat: path should be string, bytes, os.PathLike or integer, not NoneType", and it differs by platform. | a report created from the entry form: no `excel_file_path` column value and no field of that name | a missing path means there is no user workbook, and the template is filled instead | not executed | Pdf.NoArtifactNeverFillsAsWritten | Pdf.PrepareAgrees |
| ui/user_dashboard.py:908-920 | `get_active_template()` returns the list of all template rows (installer/db/database.py:183-211), and line 920 reads `active_template['file_path']` on it. That raises `TypeError` before the `try` of line 924, so the copy and the `excel_file_path` write never happen, and the exception hook exits the application. | the Edit button on an editable report with no recorded workbook, once any template exists | the first (active) template is copied and its path recorded | not executed | Workflow.EditReportCrashesAsWritten | Workflow.EditReportCopiesOnce |

=== FILE: accounts.dfy ===
/**
 The admin's user management (ui/admin_dashboard.py:1044, 1176-1270): the
 form checks in front of `register_user` and `update_user`, and the guards
 in front of `delete_user`. A dialog the admin cancels is `None`.
 */
module Accounts {
  import opened Common
  import opened Store
  import Auth

  /** The text boxes of the user dialog. */
  datatype UserForm = UserForm(username: string, password: string, role: string, email: string,
                               empCode: string, designation: string)

  datatype Reply = Cancelled | Rejected(message: string) | Saved | NotSaved

  const ADD_REQUIRES := "Username, password and email are required."
  const EDIT_REQUIRES := "Username and email are required."
  const OWN_ACCOUNT := "You cannot delete your own account."
  const DEFAULT_ADMIN := "The default admin account cannot be deleted."
  const DEFAULT_ADMIN_NAME := "admin"

  /** `add_user`: all of username, password and e-mail must be filled in;
      `Saved` iff the account was created. */
  function AdminAddUser(s: Store, h: Auth.Hasher, form: Option<UserForm>): (r: (Store, Reply))
    ensures r.1 == Saved <==>
      form.Some? && form.value.username != "" && form.value.password != "" && form.value.email != "" &&
      GetUserByUsername(s, form.value.username).None?
    ensures r.1 != Saved ==> r.0 == s
    ensures r.1 == Saved ==> GetUserByUsername(r.0, form.value.username).Some?
    ensures form.Some? && (form.value.username == "" || form.value.password == "" || form.value.email == "") ==>
      r.1 == Rejected(ADD_REQUIRES)
  {
    match form
    case None => (s, Cancelled)
    case Some(f) =>
      if f.username == "" || f.password == "" || f.email == "" then (s, Rejected(ADD_REQUIRES))
      else
        var (s', ok) := Auth.RegisterUser(s, h, f.username, f.password, f.role, f.email, f.empCode, f.designation);
        if ok then
          AddedIsFound(s, s', f.username);
          (s', Saved)
        else (s, NotSaved)
  }

  lemma AddedIsFound(s: Store, s': Store, name: string)
    requires GetUserByUsername(s, name).None?
    requires exists u :: s'.users == s.users + [u] && u.username == name
    ensures GetUserByUsername(s', name).Some?
  {
    var u :| s'.users == s.users + [u] && u.username == name;
    assert s'.users[|s.users|] == u;
  }

  /** The changes `edit_user` asks for: every text box is written as it
      stands, except that an empty password leaves the stored hash alone. */
  function EditPatch(h: Auth.Hasher, f: UserForm): (p: UserPatch)
    ensures !PatchIsEmpty(p)
    ensures p.passwordHash.None? <==> f.password == ""
  {
    UserPatch(Some(f.username), if f.password != "" then Some(h.hash(f.password)) else None,
              Some(f.role), Some(f.email), Some(f.empCode), Some(f.designation))
  }

  /** `edit_user`: username and e-mail must be filled in. */
  function AdminEditUser(s: Store, h: Auth.Hasher, id: Id, form: Option<UserForm>): (r: (Store, Reply))
    ensures r.1 == Saved <==>
      && form.Some? && form.value.username != "" && form.value.email != ""
      && GetUserById(s, id).Some? && !RenameClashes(s, id, EditPatch(h, form.value))
    ensures r.1 != Saved ==> r.0 == s
    ensures form.Some? && (form.value.username == "" || form.value.email == "") ==> r.1 == Rejected(EDIT_REQUIRES)
  {
    match form
    case None => (s, Cancelled)
    case Some(f) =>
      if f.username == "" || f.email == "" then (s, Rejected(EDIT_REQUIRES))
      else
        var (s', ok) := UpdateUser(s, id, EditPatch(h, f));
        (s', if ok then Saved else NotSaved)
  }

  /** Editing a user with the password box left empty keeps their password:
      they log in under the (possibly new) name with the old password, and
      see the edited details. */
  lemma EditKeepsPassword(s: Store, h: Auth.Hasher, id: Id, f: UserForm, password: string)
    requires Valid(s)
    requires f.password == ""
    requires GetUserById(s, id).Some? && h.verify(GetUserById(s, id).value.passwordHash, password)
    requires AdminEditUser(s, h, id, Some(f)).1 == Saved
    ensures Auth.Login(AdminEditUser(s, h, id, Some(f)).0, h, f.username, password) ==
      Some(Auth.Account(id, f.username, f.role, f.email, f.empCode, f.designation))
  {
    var s' := AdminEditUser(s, h, id, Some(f)).0;
    var p := EditPatch(h, f);
    var old_ := GetUserById(s, id).value;
    var k :| 0 <= k < |s.users| && s.users[k] == old_;
    assert s'.users[k] == Patched(old_, p);
    forall i | 0 <= i < |s'.users| && i != k ensures s'.users[i].username != f.username {
      assert s.users[i].id != id;
      assert !RenameClashes(s, id, p);
    }
    FirstWithName(s'.users, k, f.username);
  }

  /** The only row with a given name is the one a lookup by name finds. */
  lemma {:induction false} FirstWithName(us: seq<User>, k: nat, name: string)
    requires k < |us| && us[k].username == name
    requires forall i :: 0 <= i < |us| && i != k ==> us[i].username != name
    ensures UserWhere(us, (u: User) => u.username == name) == Some(us[k])
  {
    if k > 0 {
      FirstWithName(us[1..], k - 1, name);
    }
  }

  /** Whether the users table shows a Delete button for `target`. */
  predicate DeleteOffered(current: Id, target: User)
  {
    target.id != current && target.username != DEFAULT_ADMIN_NAME
  }

  /** `delete_user`: never the admin's own account, never the account named
      "admin", and only after confirmation. */
  function AdminDeleteUser(s: Store, current: Id, target: User, confirmed: bool): (r: (Store, Reply))
    ensures target.id == current ==> r == (s, Rejected(OWN_ACCOUNT))
    ensures target.id != current && target.username == DEFAULT_ADMIN_NAME ==> r == (s, Rejected(DEFAULT_ADMIN))
    ensures r.1.Rejected? <==> !DeleteOffered(current, target)
    ensures r.1 == Saved <==> DeleteOffered(current, target) && confirmed && GetUserById(s, target.id).Some?
    ensures r.1 != Saved ==> forall u :: u in r.0.users <==> u in s.users
  {
    if target.id == current then (s, Rejected(OWN_ACCOUNT))
    else if target.username == DEFAULT_ADMIN_NAME then (s, Rejected(DEFAULT_ADMIN))
    else if !confirmed then (s, Cancelled)
    else
      var (s', ok) := DeleteUser(s, target.id);
      (s', if ok then Saved else NotSaved)
  }

  /** When the target is a row of the table and ids are unique, a deletion
      keeps the acting admin and the default admin account. */
  lemma DeleteSparesAdmins(s: Store, current: Id, target: User, confirmed: bool)
    requires Valid(s) && target in s.users
    ensures var s' := AdminDeleteUser(s, current, target, confirmed).0;
      && (forall u :: u in s.users && u.id == current ==> u in s'.users)
      && (forall u :: u in s.users && u.username == DEFAULT_ADMIN_NAME ==> u in s'.users)
  {
    var s' := AdminDeleteUser(s, current, target, confirmed).0;
    forall u | u in s.users && u.username == DEFAULT_ADMIN_NAME ensures u in s'.users {
      if DeleteOffered(current, target) && confirmed {
        var i :| 0 <= i < |s.users| && s.users[i] == u;
        var j :| 0 <= j < |s.users| && s.users[j] == target;
        assert i != j;
        assert u.id != target.id;
      }
    }
  }
}

=== FILE: auth.dfy ===
/**
 Registration, login and role tests (utils/auth.py). bcrypt is a pair of
 functions: `hash` for storing and `verify(stored, provided)` for checking,
 and the only thing assumed of them is that a password verifies against
 its own hash (`Sound`).
 */
module Auth {
  import opened Common
  import opened Store

  datatype Hasher = Hasher(hash: string -> string, verify: (string, string) -> bool)

  ghost predicate Sound(h: Hasher)
  {
    forall p :: h.verify(h.hash(p), p)
  }

  const ADMIN := "admin"
  const UNIT_LEADER := "unit_leader"
  const USER := "user"

  /** A user record as `login` hands it out: everything but the hash. */
  datatype Account = Account(id: Id, username: string, role: string, email: string,
                             empCode: string, designation: string)

  function Public(u: User): Account
  {
    Account(u.id, u.username, u.role, u.email, u.empCode, u.designation)
  }

  /** `register_user`: store the hashed password; `True` iff the user was
      added, so a taken username gives `False` and changes nothing. */
  function RegisterUser(s: Store, h: Hasher, username: string, password: string, role: string,
                        email: string, empCode: string, designation: string): (r: (Store, bool))
    ensures r.1 <==> GetUserByUsername(s, username).None?
    ensures !r.1 ==> r.0 == s
    ensures r.1 ==> r.0.users == s.users + [User(s.nextUser, username, h.hash(password), role, email, empCode, designation)]
  {
    var (s', id) := AddUser(s, username, h.hash(password), role, email, empCode, designation);
    (s', id.Some?)
  }

  /** `login`: the public record of the user with that name, when the
      password verifies against the stored hash. */
  function Login(s: Store, h: Hasher, username: string, password: string): (r: Option<Account>)
    ensures GetUserByUsername(s, username).None? ==> r.None?
    ensures GetUserByUsername(s, username).Some? ==>
      var u := GetUserByUsername(s, username).value;
      (r.Some? <==> h.verify(u.passwordHash, password)) && (r.Some? ==> r.value == Public(u))
  {
    match GetUserByUsername(s, username)
    case None => None
    case Some(u) => if h.verify(u.passwordHash, password) then Some(Public(u)) else None
  }

  /** Whoever registers can log in straight away with the same password and
      gets back what they registered, without the hash. */
  lemma RegisterThenLogin(s: Store, h: Hasher, username: string, password: string, role: string,
                          email: string, empCode: string, designation: string)
    requires Sound(h)
    requires RegisterUser(s, h, username, password, role, email, empCode, designation).1
    ensures var s' := RegisterUser(s, h, username, password, role, email, empCode, designation).0;
      Login(s', h, username, password) == Some(Account(s.nextUser, username, role, email, empCode, designation))
  {
    var s' := RegisterUser(s, h, username, password, role, email, empCode, designation).0;
    var u := User(s.nextUser, username, h.hash(password), role, email, empCode, designation);
    assert s'.users == s.users + [u];
    assert GetUserByUsername(s, username).None?;
    UserWhereAppend(s.users, u, (v: User) => v.username == username);
    assert h.verify(h.hash(password), password);
  }

  /** A lookup that misses the old rows finds the appended one. */
  lemma {:induction false} UserWhereAppend(us: seq<User>, u: User, p: User -> bool)
    requires forall i :: 0 <= i < |us| ==> !p(us[i])
    requires p(u)
    ensures UserWhere(us + [u], p) == Some(u)
  {
    if |us| > 0 {
      assert (us + [u])[1..] == us[1..] + [u];
      UserWhereAppend(us[1..], u, p);
    } else {
      assert (us + [u])[0] == u;
    }
  }

  /** `user and user['role'] == ...`: a missing user has no role. */
  predicate HasRole(u: Option<Account>, role: string)
  {
    u.Some? && u.value.role == role
  }

  predicate IsAdmin(u: Option<Account>) { HasRole(u, ADMIN) }
  predicate IsUnitLeader(u: Option<Account>) { HasRole(u, UNIT_LEADER) }
  predicate IsRegularUser(u: Option<Account>) { HasRole(u, USER) }

  /** At most one of the three tests holds, and none for a missing user. */
  lemma RolesExclusive(u: Option<Account>)
    ensures !(IsAdmin(u) && IsUnitLeader(u)) && !(IsAdmin(u) && IsRegularUser(u)) && !(IsUnitLeader(u) && IsRegularUser(u))
    ensures u.None? ==> !IsAdmin(u) && !IsUnitLeader(u) && !IsRegularUser(u)
  {
  }
}

=== FILE: common.dfy ===
/**
 Shared vocabulary of the model: an optional value, the handful of Python
 string operations the system relies on (substring test, `lower`, `strip`,
 `replace(p, "")`, `capitalize`, `str(int)`), Python's ordering of strings,
 and a stable sort keyed by a string (Python's `sorted(..., key=...)`, and
 SQLite's `ORDER BY` on a TEXT column).
 */
module Common {

  datatype Option<T> = None | Some(value: T)

  // ---------------------------------------------------------------------------
  // Substrings

  predicate StartsWith(s: string, prefix: string)
  {
    |prefix| <= |s| && s[..|prefix|] == prefix
  }

  predicate EndsWith(s: string, suffix: string)
  {
    |suffix| <= |s| && s[|s| - |suffix|..] == suffix
  }

  /** A concatenation starts with its left part and ends with its right. */
  lemma ConcatEnds(a: string, b: string)
    ensures StartsWith(a + b, a) && EndsWith(a + b, b)
  {
    assert (a + b)[..|a|] == a;
    assert (a + b)[|a + b| - |b|..] == b;
  }

  /** The lists `f(k)` for each key of `ks`, one after the other. */
  function ConcatMap<K, T>(ks: seq<K>, f: K -> seq<T>): seq<T>
  {
    if |ks| == 0 then [] else f(ks[0]) + ConcatMap(ks[1..], f)
  }

  /** Every element of a `ConcatMap` comes from the list of one key. */
  lemma {:induction false} ConcatMapFrom<K, T>(ks: seq<K>, f: K -> seq<T>, x: T)
    requires x in ConcatMap(ks, f)
    ensures exists k :: 0 <= k < |ks| && x in f(ks[k])
  {
    var first := f(ks[0]);
    var rest := ConcatMap(ks[1..], f);
    assert ConcatMap(ks, f) == first + rest;
    if x !in first {
      ConcatMapFrom(ks[1..], f, x);
      var k :| 0 <= k < |ks[1..]| && x in f(ks[1..][k]);
      assert ks[1..][k] == ks[k + 1];
    }
  }

  /** Every element of the list of one key is in the `ConcatMap`. */
  lemma {:induction false} ConcatMapHas<K, T>(ks: seq<K>, f: K -> seq<T>, k: nat, x: T)
    requires k < |ks| && x in f(ks[k])
    ensures x in ConcatMap(ks, f)
    decreases k
  {
    assert ConcatMap(ks, f) == f(ks[0]) + ConcatMap(ks[1..], f);
    if k > 0 {
      assert ks[1..][k - 1] == ks[k];
      ConcatMapHas(ks[1..], f, k - 1, x);
    }
  }

  /** Python's `needle in hay` for strings. */
  predicate Contains(hay: string, needle: string)
    decreases |hay|
  {
    StartsWith(hay, needle) || (|hay| > 0 && Contains(hay[1..], needle))
  }

  lemma {:induction false} ContainsAt(hay: string, needle: string, i: nat)
    requires i + |needle| <= |hay| && hay[i..i + |needle|] == needle
    ensures Contains(hay, needle)
    decreases i
  {
    if i > 0 {
      assert hay[1..][i - 1..i - 1 + |needle|] == needle;
      ContainsAt(hay[1..], needle, i - 1);
    }
  }

  lemma {:induction false} ContainsWitness(hay: string, needle: string) returns (i: nat)
    requires Contains(hay, needle)
    ensures i + |needle| <= |hay| && hay[i..i + |needle|] == needle
    decreases |hay|
  {
    if StartsWith(hay, needle) {
      i := 0;
    } else {
      var j := ContainsWitness(hay[1..], needle);
      assert hay[1..][j..j + |needle|] == hay[j + 1..j + 1 + |needle|];
      i := j + 1;
    }
  }

  /** A text found in a suffix is found in the whole. */
  lemma ContainsInSuffix(a: string, b: string, needle: string)
    requires Contains(b, needle)
    ensures Contains(a + b, needle)
  {
    var i := ContainsWitness(b, needle);
    assert (a + b)[|a| + i..|a| + i + |needle|] == b[i..i + |needle|];
    ContainsAt(a + b, needle, |a| + i);
  }

  lemma ContainsOfConcat(a: string, needle: string, b: string)
    ensures Contains(a + needle + b, needle)
  {
    var s := a + needle + b;
    assert s[|a|..|a| + |needle|] == needle;
    ContainsAt(s, needle, |a|);
  }

  // ---------------------------------------------------------------------------
  // Case and whitespace (ASCII letters are folded; other characters are kept)

  function LowerChar(c: char): (r: char)
    ensures 'A' <= c <= 'Z' ==> 'a' <= r <= 'z'
    ensures !('A' <= c <= 'Z') ==> r == c
  {
    if 'A' <= c <= 'Z' then (c as int + 32) as char else c
  }

  function UpperChar(c: char): (r: char)
    ensures 'a' <= c <= 'z' ==> 'A' <= r <= 'Z'
    ensures !('a' <= c <= 'z') ==> r == c
  {
    if 'a' <= c <= 'z' then (c as int - 32) as char else c
  }

  /** Python's `str.lower()` restricted to ASCII letters. */
  function Lower(s: string): (r: string)
    ensures |r| == |s|
    ensures forall i :: 0 <= i < |s| ==> r[i] == LowerChar(s[i])
  {
    seq(|s|, i requires 0 <= i < |s| => LowerChar(s[i]))
  }

  /** Python's `str.capitalize()` restricted to ASCII letters. */
  function Capitalize(s: string): (r: string)
    ensures |r| == |s|
    ensures |s| > 0 ==> r[0] == UpperChar(s[0]) && r[1..] == Lower(s[1..])
  {
    if |s| == 0 then "" else [UpperChar(s[0])] + Lower(s[1..])
  }

  /** The characters for which Python's `str.isspace()` holds. */
  predicate IsSpace(c: char)
  {
    c == ' ' || ('\t' <= c <= '\r') || ('\U{1C}' <= c <= '\U{1F}') || c == '\U{85}' ||
    c == '\U{A0}' || c == '\U{1680}' || ('\U{2000}' <= c <= '\U{200A}') ||
    c == '\U{2028}' || c == '\U{2029}' || c == '\U{202F}' || c == '\U{205F}' || c == '\U{3000}'
  }

  function StripLeft(s: string): (r: string)
    ensures |r| <= |s| && r == s[|s| - |r|..]
    ensures |r| > 0 ==> !IsSpace(r[0])
    ensures forall i :: 0 <= i < |s| - |r| ==> IsSpace(s[i])
  {
    if |s| > 0 && IsSpace(s[0]) then StripLeft(s[1..]) else s
  }

  function StripRight(s: string): (r: string)
    ensures |r| <= |s| && r == s[..|r|]
    ensures |r| > 0 ==> !IsSpace(r[|r| - 1])
    ensures forall i :: |r| <= i < |s| ==> IsSpace(s[i])
  {
    if |s| > 0 && IsSpace(s[|s| - 1]) then StripRight(s[..|s| - 1]) else s
  }

  /** Python's `str.strip()`: leading and trailing whitespace removed. */
  function Strip(s: string): string
  {
    StripLeft(StripRight(s))
  }

  predicate AllSpace(s: string)
  {
    forall i :: 0 <= i < |s| ==> IsSpace(s[i])
  }

  /** `s.strip()` is empty exactly when `s` is all whitespace. */
  lemma StripEmptyIffAllSpace(s: string)
    ensures Strip(s) == "" <==> AllSpace(s)
  {
    var t := StripRight(s);
    if Strip(s) != "" {
      var r := Strip(s);
      assert r == t[|t| - |r|..];
      assert !IsSpace(r[0]) && r[0] == s[|t| - |r|];
    }
  }

  /** A string with no whitespace at either end is its own strip. */
  lemma StripUnpadded(s: string)
    requires |s| > 0 && !IsSpace(s[0]) && !IsSpace(s[|s| - 1])
    ensures Strip(s) == s
  {
  }

  // ---------------------------------------------------------------------------
  // Python's `s.replace(p, "")`: every non-overlapping occurrence of `p`,
  // scanning left to right, is deleted.

  function RemoveAll(s: string, p: string): (r: string)
    requires |p| > 0
    ensures |r| <= |s|
    decreases |s|
  {
    if |s| < |p| then s
    else if s[..|p|] == p then RemoveAll(s[|p|..], p)
    else [s[0]] + RemoveAll(s[1..], p)
  }

  /** Deleting a pattern from a string without it is the identity. */
  lemma {:induction false} RemoveAllAbsent(s: string, p: string)
    requires |p| > 0 && !Contains(s, p)
    ensures RemoveAll(s, p) == s
    decreases |s|
  {
    if |s| >= |p| {
      assert !StartsWith(s, p);
      RemoveAllAbsent(s[1..], p);
    }
  }

  /** A prefix without the pattern's first character passes through. */
  lemma {:induction false} RemoveAllSkip(a: string, s: string, p: string)
    requires |p| > 0 && p[0] !in a
    ensures RemoveAll(a + s, p) == a + RemoveAll(s, p)
    decreases |a|
  {
    if |a| > 0 {
      assert (a + s)[1..] == a[1..] + s;
      assert (a + s)[0] == a[0];
      RemoveAllSkip(a[1..], s, p);
      if |a + s| >= |p| {
        assert (a + s)[..|p|] != p by {
          assert (a + s)[..|p|][0] == a[0];
        }
      }
    } else {
      assert a + s == s;
    }
  }

  /** A leading occurrence of the pattern is deleted. */
  lemma RemoveAllDrop(s: string, p: string)
    requires |p| > 0
    ensures RemoveAll(p + s, p) == RemoveAll(s, p)
  {
    assert (p + s)[..|p|] == p;
    assert (p + s)[|p|..] == s;
  }

  /** Two occurrences of the pattern between pattern-free pieces both go. */
  lemma RemoveAllTwice(a: string, b: string, c: string, p: string)
    requires |p| > 0 && p[0] !in a && p[0] !in b && p[0] !in c
    ensures RemoveAll(a + (p + (b + (p + c))), p) == a + (b + c)
  {
    RemoveAllSkip(c, [], p);
    assert c + [] == c;
    RemoveAllDrop(c, p);
    RemoveAllSkip(b, p + c, p);
    RemoveAllDrop(b + (p + c), p);
    RemoveAllSkip(a, p + (b + (p + c)), p);
  }

  /** Deleting a two-character pattern whose characters are equal (`{{`, `}}`)
      leaves no occurrence of it behind. */
  lemma {:induction false} RemoveAllDoubleLeavesNone(s: string, c: char)
    ensures !Contains(RemoveAll(s, [c, c]), [c, c])
    ensures |RemoveAll(s, [c, c])| > 0 && RemoveAll(s, [c, c])[0] == c ==> |s| > 0 && s[0] == c
    decreases |s|
  {
    var p := [c, c];
    var r := RemoveAll(s, p);
    if |s| < 2 {
      if |s| == 1 {
        assert !StartsWith(r[1..], p);
      }
    } else if s[..2] == p {
      RemoveAllDoubleLeavesNone(s[2..], c);
    } else {
      RemoveAllDoubleLeavesNone(s[1..], c);
      var t := RemoveAll(s[1..], p);
      assert r == [s[0]] + t;
      assert |t| > 0 && t[0] == c ==> s[1] == c;
      assert s[..2] == [s[0], s[1]];
      assert !(s[0] == c && s[1] == c);
      assert r[1..] == t;
    }
  }

  // ---------------------------------------------------------------------------
  // Numbers as text: Python's `str(n)` for a natural number

  function DigitChar(d: nat): (c: char)
    requires d < 10
    ensures '0' <= c <= '9'
  {
    ('0' as int + d) as char
  }

  function NatToString(n: nat): (r: string)
    ensures |r| > 0
    ensures forall i :: 0 <= i < |r| ==> '0' <= r[i] <= '9'
  {
    if n < 10 then [DigitChar(n)] else NatToString(n / 10) + [DigitChar(n % 10)]
  }

  /** `int(s)` for a string of decimal digits. */
  function DigitsValue(s: string): nat
    requires forall i :: 0 <= i < |s| ==> '0' <= s[i] <= '9'
  {
    if |s| == 0 then 0 else DigitsValue(s[..|s| - 1]) * 10 + (s[|s| - 1] as int - '0' as int)
  }

  /** `int(str(n)) == n`. */
  lemma {:induction false} NatToStringRoundTrip(n: nat)
    ensures DigitsValue(NatToString(n)) == n
  {
    var s := NatToString(n);
    if n >= 10 {
      NatToStringRoundTrip(n / 10);
      assert s[..|s| - 1] == NatToString(n / 10);
    } else {
      assert s[..|s| - 1] == [];
    }
  }

  lemma NatToStringInjective(a: nat, b: nat)
    requires NatToString(a) == NatToString(b)
    ensures a == b
  {
    NatToStringRoundTrip(a);
    NatToStringRoundTrip(b);
  }

  // ---------------------------------------------------------------------------
  // Python's (and SQLite's) ordering of strings: lexicographic by code point

  predicate LexLe(a: string, b: string)
    decreases |a|
  {
    if |a| == 0 then true
    else if |b| == 0 then false
    else if a[0] < b[0] then true
    else if b[0] < a[0] then false
    else LexLe(a[1..], b[1..])
  }

  lemma {:induction false} LexLeTotal(a: string, b: string)
    ensures LexLe(a, b) || LexLe(b, a)
    decreases |a|
  {
    if |a| > 0 && |b| > 0 && a[0] == b[0] {
      LexLeTotal(a[1..], b[1..]);
    }
  }

  lemma {:induction false} LexLeTrans(a: string, b: string, c: string)
    requires LexLe(a, b) && LexLe(b, c)
    ensures LexLe(a, c)
    decreases |a|
  {
    if |a| > 0 && |b| > 0 && |c| > 0 && a[0] == b[0] && b[0] == c[0] {
      LexLeTrans(a[1..], b[1..], c[1..]);
    }
  }

  lemma LexLeRefl(a: string)
    ensures LexLe(a, a)
  {
    LexLeTotal(a, a);
  }

  // ---------------------------------------------------------------------------
  // Stable sort by a string key (insertion sort: an element is placed before
  // the first element whose key is not smaller, so equal keys keep their order)

  ghost predicate SortedBy<T>(s: seq<T>, key: T -> string)
  {
    forall i, j :: 0 <= i < j < |s| ==> LexLe(key(s[i]), key(s[j]))
  }

  function Insert<T>(x: T, s: seq<T>, key: T -> string): (r: seq<T>)
    ensures multiset(r) == multiset(s) + multiset{x}
    ensures |r| == |s| + 1
  {
    if |s| == 0 || LexLe(key(x), key(s[0])) then [x] + s
    else assert s == [s[0]] + s[1..]; [s[0]] + Insert(x, s[1..], key)
  }

  lemma {:induction false} InsertSorted<T>(x: T, s: seq<T>, key: T -> string)
    requires SortedBy(s, key)
    ensures SortedBy(Insert(x, s, key), key)
    decreases |s|
  {
    var r := Insert(x, s, key);
    if |s| == 0 {
    } else if LexLe(key(x), key(s[0])) {
      forall i, j | 0 <= i < j < |r| ensures LexLe(key(r[i]), key(r[j])) {
        if i == 0 && j > 1 {
          LexLeTrans(key(x), key(s[0]), key(s[j - 1]));
        }
      }
    } else {
      LexLeTotal(key(x), key(s[0]));
      assert SortedBy(s[1..], key);
      InsertSorted(x, s[1..], key);
      var t := Insert(x, s[1..], key);
      assert r == [s[0]] + t;
      forall j | 0 <= j < |t| ensures LexLe(key(s[0]), key(t[j])) {
        assert t[j] in multiset(t);
        assert t[j] in multiset(s[1..]) || t[j] == x;
        if t[j] != x {
          var k :| 1 <= k < |s| && s[k] == t[j];
        }
      }
    }
  }

  function SortBy<T>(s: seq<T>, key: T -> string): (r: seq<T>)
    ensures multiset(r) == multiset(s)
    ensures |r| == |s|
  {
    if |s| == 0 then [] else assert s == [s[0]] + s[1..]; Insert(s[0], SortBy(s[1..], key), key)
  }

  lemma {:induction false} SortBySorted<T>(s: seq<T>, key: T -> string)
    ensures SortedBy(SortBy(s, key), key)
  {
    if |s| > 0 {
      SortBySorted(s[1..], key);
      InsertSorted(s[0], SortBy(s[1..], key), key);
    }
  }

  /** Sorting an already ordered sequence changes nothing. */
  lemma {:induction false} SortByOfSorted<T>(s: seq<T>, key: T -> string)
    requires SortedBy(s, key)
    ensures SortBy(s, key) == s
  {
    if |s| > 0 {
      assert SortedBy(s[1..], key);
      SortByOfSorted(s[1..], key);
      if |s| > 1 {
        assert LexLe(key(s[0]), key(s[1]));
      }
    }
  }

  // ---------------------------------------------------------------------------
  // List comprehensions

  /** `[x for x in s if p(x)]`: the elements satisfying `p`, in their order. */
  function Filter<T>(s: seq<T>, p: T -> bool): (r: seq<T>)
    ensures |r| <= |s|
    ensures forall i :: 0 <= i < |r| ==> r[i] in s && p(r[i])
    ensures forall i :: 0 <= i < |s| && p(s[i]) ==> s[i] in r
  {
    if |s| == 0 then []
    else if p(s[0]) then [s[0]] + Filter(s[1..], p)
    else Filter(s[1..], p)
  }

  lemma {:induction false} FilterAppend<T>(a: seq<T>, b: seq<T>, p: T -> bool)
    ensures Filter(a + b, p) == Filter(a, p) + Filter(b, p)
  {
    if |a| > 0 {
      assert (a + b)[1..] == a[1..] + b;
      FilterAppend(a[1..], b, p);
    } else {
      assert a + b == b;
    }
  }

  /** A test every element passes keeps the whole list. */
  lemma {:induction false} FilterAll<T>(s: seq<T>, p: T -> bool)
    requires forall i :: 0 <= i < |s| ==> p(s[i])
    ensures Filter(s, p) == s
  {
    if |s| > 0 {
      FilterAll(s[1..], p);
    }
  }

  /** Two tests that agree on every element keep the same elements. */
  lemma {:induction false} FilterSame<T>(s: seq<T>, p: T -> bool, q: T -> bool)
    requires forall i :: 0 <= i < |s| ==> p(s[i]) == q(s[i])
    ensures Filter(s, p) == Filter(s, q)
  {
    if |s| > 0 {
      FilterSame(s[1..], p, q);
    }
  }

  /** `sum(1 for x in s if p(x))`. */
  function Count<T>(s: seq<T>, p: T -> bool): nat
  {
    |Filter(s, p)|
  }

  /** `list(reversed(s))`. */
  function Reverse<T>(s: seq<T>): (r: seq<T>)
    ensures |r| == |s|
    ensures forall i :: 0 <= i < |s| ==> r[i] == s[|s| - 1 - i]
  {
    if |s| == 0 then [] else Reverse(s[1..]) + [s[0]]
  }

  /** Keeping some elements of an ordered list keeps it ordered. */
  lemma {:induction false} FilterSorted<T>(s: seq<T>, p: T -> bool, key: T -> string)
    requires SortedBy(s, key)
    ensures SortedBy(Filter(s, p), key)
  {
    if |s| > 0 {
      assert SortedBy(s[1..], key);
      FilterSorted(s[1..], p, key);
      if p(s[0]) {
        var t := Filter(s[1..], p);
        forall j | 0 <= j < |t| ensures LexLe(key(s[0]), key(t[j])) {
          var k :| 0 <= k < |s[1..]| && s[1..][k] == t[j];
          assert s[k + 1] == t[j];
        }
      }
    }
  }

  /** The last element of an ordered list has the greatest key. */
  lemma LastIsGreatest<T>(s: seq<T>, key: T -> string, x: T)
    requires SortedBy(s, key) && x in s
    ensures LexLe(key(x), key(s[|s| - 1]))
  {
    var i :| 0 <= i < |s| && s[i] == x;
    if i == |s| - 1 {
      LexLeRefl(key(x));
    }
  }

  // ---------------------------------------------------------------------------
  // Duplicates

  ghost predicate NoDup<T>(s: seq<T>)
  {
    forall i, j :: 0 <= i < j < |s| ==> s[i] != s[j]
  }

  lemma {:induction false} NoDupCount<T>(s: seq<T>, x: T)
    requires NoDup(s)
    ensures multiset(s)[x] <= 1
  {
    if |s| > 0 {
      assert s == [s[0]] + s[1..];
      assert NoDup(s[1..]);
      NoDupCount(s[1..], x);
      if x == s[0] {
        assert x !in s[1..];
      }
    }
  }

  lemma DupCount<T>(s: seq<T>, i: nat, j: nat)
    requires i < j < |s| && s[i] == s[j]
    ensures multiset(s)[s[i]] >= 2
  {
    assert s == s[..i] + [s[i]] + s[i + 1..j] + [s[j]] + s[j + 1..];
  }

  /** A permutation of a list without duplicates has none either. */
  lemma NoDupPerm<T>(s: seq<T>, t: seq<T>)
    requires NoDup(s) && multiset(s) == multiset(t)
    ensures NoDup(t)
  {
    forall i, j | 0 <= i < j < |t| ensures t[i] != t[j] {
      if t[i] == t[j] {
        DupCount(t, i, j);
        NoDupCount(s, t[i]);
        assert false;
      }
    }
  }

  lemma {:induction false} FilterNoDup<T>(s: seq<T>, p: T -> bool)
    requires NoDup(s)
    ensures NoDup(Filter(s, p))
  {
    if |s| > 0 {
      assert NoDup(s[1..]);
      FilterNoDup(s[1..], p);
      if p(s[0]) {
        assert s[0] !in s[1..];
      }
    }
  }

  /** No two elements of `s` share a key. */
  ghost predicate DistinctBy<T, K>(s: seq<T>, key: T -> K)
  {
    forall i, j :: 0 <= i < j < |s| ==> key(s[i]) != key(s[j])
  }

  lemma {:induction false} FilterDistinctBy<T, K>(s: seq<T>, p: T -> bool, key: T -> K)
    requires DistinctBy(s, key)
    ensures DistinctBy(Filter(s, p), key)
  {
    if |s| > 0 {
      var tail := s[1..];
      assert DistinctBy(tail, key) by {
        forall i, j | 0 <= i < j < |tail| ensures key(tail[i]) != key(tail[j]) {
          assert tail[i] == s[i + 1] && tail[j] == s[j + 1];
        }
      }
      FilterDistinctBy(tail, p, key);
      var rest := Filter(tail, p);
      if p(s[0]) {
        var f := [s[0]] + rest;
        assert Filter(s, p) == f;
        forall i, j | 0 <= i < j < |f| ensures key(f[i]) != key(f[j]) {
          assert f[j] == rest[j - 1];
          if i == 0 {
            var m :| 0 <= m < |tail| && tail[m] == rest[j - 1];
            assert s[m + 1] == f[j];
          } else {
            assert f[i] == rest[i - 1];
          }
        }
      }
    }
  }

  /** The keys strictly decrease along `s`. */
  predicate Above(a: int, b: int)
  {
    a > b
  }

  ghost predicate DecreasingBy<T>(s: seq<T>, key: T -> int)
  {
    forall i, j :: 0 <= i < j < |s| ==> Above(key(s[i]), key(s[j]))
  }

  lemma {:induction false} FilterDecreasingBy<T>(s: seq<T>, p: T -> bool, key: T -> int)
    requires DecreasingBy(s, key)
    ensures DecreasingBy(Filter(s, p), key)
  {
    if |s| > 0 {
      var tail := s[1..];
      assert DecreasingBy(tail, key) by {
        forall i, j | 0 <= i < j < |tail| ensures Above(key(tail[i]), key(tail[j])) {
          assert tail[i] == s[i + 1] && tail[j] == s[j + 1];
        }
      }
      FilterDecreasingBy(tail, p, key);
      if p(s[0]) {
        TailBelowHead(s, key);
        HeadAboveRest(s, p, key);
      }
    }
  }

  lemma HeadAboveRest<T>(s: seq<T>, p: T -> bool, key: T -> int)
    requires |s| > 0 && p(s[0]) && DecreasingBy(Filter(s[1..], p), key)
    requires forall x :: x in s[1..] ==> Above(key(s[0]), key(x))
    ensures DecreasingBy(Filter(s, p), key)
  {
    var tail := s[1..];
    var rest := Filter(tail, p);
    var f := [s[0]] + rest;
    assert DecreasingBy(f, key) by {
      forall i, j | 0 <= i < j < |f| ensures Above(key(f[i]), key(f[j])) {
        assert f[j] == rest[j - 1];
        if i == 0 {
          assert rest[j - 1] in tail;
        } else {
          assert f[i] == rest[i - 1];
        }
      }
    }
    assert Filter(s, p) == f;
  }

  lemma TailBelowHead<T>(s: seq<T>, key: T -> int)
    requires |s| > 0 && DecreasingBy(s, key)
    ensures forall x :: x in s[1..] ==> Above(key(s[0]), key(x))
  {
    forall x | x in s[1..] ensures Above(key(s[0]), key(x)) {
      var m :| 0 <= m < |s[1..]| && s[1..][m] == x;
      assert s[m + 1] == x;
    }
  }
}

=== FILE: delivery.dfy ===
/**
 The offline e-mail queue's drain cycle (main.py): when the host is online,
 every `pending` job is sent once; a delivered job becomes `sent`, a
 refused one `error` with the refusal message, and one whose processing
 raises stays `pending` for the next cycle. Connectivity and the SMTP send
 are oracles.
 */
module Delivery {
  import opened Common
  import opened Store

  /** `_is_online` probes a TCP connection to 8.8.8.8 port 53 with a two
      second timeout; any `OSError` (a timeout included) means offline. */
  const PROBE_HOST := "8.8.8.8"
  const PROBE_PORT := 53
  const PROBE_TIMEOUT_SECONDS := 2

  datatype ProbeOutcome = Connected | OsError

  function IsOnline(p: ProbeOutcome): (online: bool)
    ensures online <==> p == Connected
  {
    p.Connected?
  }

  /** What `send_final_pdf_to_admin` does: `(True, _)`, `(False, msg)`, or it
      raises with a message. */
  datatype SendResult = Delivered | Refused(message: string) | Raised(message: string)

  /** The job after one attempt: the status update the cycle makes for it. */
  function Settle(j: Job, r: SendResult): (k: Job)
    ensures r.Delivered? ==> k.status == SENT && k.errorMessage == j.errorMessage
    ensures r.Refused? ==>
      k.status == ERROR && k.errorMessage == (if r.message != "" then Some(r.message) else j.errorMessage)
    ensures r.Raised? ==> k == j
    ensures k.(status := j.status, errorMessage := j.errorMessage) == j
  {
    match r
    case Delivered => JobUpdated(j, SENT, None)
    case Refused(m) => JobUpdated(j, ERROR, Some(m))
    case Raised(_) => j
  }

  /** Recording the same outcome twice is recording it once. */
  lemma SettleIdempotent(j: Job, r: SendResult)
    ensures Settle(Settle(j, r), r) == Settle(j, r)
  {
  }

  /** The `update_email_queue_status` call (if any) for one attempt. */
  function Record(s: Store, item: Job, r: SendResult): (s2: Store)
    ensures s2 == s.(queue := s2.queue) && |s2.queue| == |s.queue|
    ensures forall i :: 0 <= i < |s.queue| ==>
      s2.queue[i] == (if s.queue[i].id == item.id then Settle(s.queue[i], r) else s.queue[i])
  {
    match r
    case Delivered => UpdateEmailQueueStatus(s, item.id, SENT, None)
    case Refused(m) => UpdateEmailQueueStatus(s, item.id, ERROR, Some(m))
    case Raised(_) => s
  }

  /** What one cycle does to a queued job: only pending jobs are attempted. */
  function AfterCycle(j: Job, send: Job -> SendResult): Job
  {
    if IsPending(j) then Settle(j, send(j)) else j
  }

  predicate UniqueJobIds(q: seq<Job>)
  {
    forall i, j :: 0 <= i < j < |q| ==> q[i].id != q[j].id
  }

  /** The queue `q` once the jobs with ids in `done` have been attempted. */
  predicate Progress(s: Store, q: seq<Job>, done: set<Id>, send: Job -> SendResult)
  {
    |q| == |s.queue| &&
    forall i :: 0 <= i < |s.queue| ==>
      q[i] == (if s.queue[i].id in done then AfterCycle(s.queue[i], send) else s.queue[i])
  }

  lemma RecordProgress(s: Store, before: Store, item: Job, done: set<Id>, send: Job -> SendResult)
    requires UniqueJobIds(s.queue) && item in s.queue && IsPending(item)
    requires Progress(s, before.queue, done, send)
    ensures Progress(s, Record(before, item, send(item)).queue, done + {item.id}, send)
  {
    var after := Record(before, item, send(item));
    forall i | 0 <= i < |s.queue|
      ensures after.queue[i] == (if s.queue[i].id in done + {item.id} then AfterCycle(s.queue[i], send) else s.queue[i])
    {
      if s.queue[i].id == item.id {
        var m :| 0 <= m < |s.queue| && s.queue[m] == item;
        assert s.queue[i] == item;
        SettleIdempotent(item, send(item));
      }
    }
  }

  /** One iteration of the processor loop of lines 292-320. Offline, the
      queue is not even read; online, the pending jobs are fetched once and
      attempted in table order. `attempted` lists the jobs sent. */
  method DrainCycle(s: Store, online: bool, send: Job -> SendResult) returns (s': Store, attempted: seq<Job>)
    requires UniqueJobIds(s.queue)
    ensures !online ==> s' == s && attempted == []
    ensures online ==> attempted == GetPendingEmailQueue(s)
    ensures s' == s.(queue := s'.queue) && |s'.queue| == |s.queue|
    ensures online ==> forall i :: 0 <= i < |s.queue| ==> s'.queue[i] == AfterCycle(s.queue[i], send)
  {
    s' := s;
    attempted := [];
    if !online {
      return;
    }
    var items := GetPendingEmailQueue(s);
    ghost var done: set<Id> := {};
    var k := 0;
    while k < |items|
      invariant 0 <= k <= |items|
      invariant Midway(s, items, k, s', attempted, done, send)
    {
      var item := items[k];
      CycleStep(s, items, k, s', attempted, done, send);
      s' := Record(s', item, send(item));
      done := done + {item.id};
      attempted := attempted + [item];
      k := k + 1;
    }
    assert items[..k] == items;
    CycleComplete(s, s'.queue, done, send);
  }

  /** The loop state after attempting the first `k` pending jobs. */
  ghost predicate Midway(s: Store, items: seq<Job>, k: nat, s': Store, attempted: seq<Job>, done: set<Id>,
                         send: Job -> SendResult)
  {
    && k <= |items|
    && attempted == items[..k]
    && s' == s.(queue := s'.queue)
    && (forall m :: 0 <= m < k ==> items[m].id in done)
    && Progress(s, s'.queue, done, send)
  }

  lemma CycleStep(s: Store, items: seq<Job>, k: nat, s': Store, attempted: seq<Job>, done: set<Id>,
                  send: Job -> SendResult)
    requires UniqueJobIds(s.queue) && items == GetPendingEmailQueue(s) && k < |items|
    requires Midway(s, items, k, s', attempted, done, send)
    ensures Midway(s, items, k + 1, Record(s', items[k], send(items[k])), attempted + [items[k]],
                   done + {items[k].id}, send)
  {
    RecordProgress(s, s', items[k], done, send);
    assert items[..k + 1] == items[..k] + [items[k]];
  }

  /** Once every pending job has been attempted, the queue is the one a
      whole cycle leaves. */
  lemma CycleComplete(s: Store, q: seq<Job>, done: set<Id>, send: Job -> SendResult)
    requires Progress(s, q, done, send)
    requires forall m :: 0 <= m < |GetPendingEmailQueue(s)| ==> GetPendingEmailQueue(s)[m].id in done
    ensures forall i :: 0 <= i < |s.queue| ==> q[i] == AfterCycle(s.queue[i], send)
  {
    var items := GetPendingEmailQueue(s);
    forall i | 0 <= i < |s.queue| ensures q[i] == AfterCycle(s.queue[i], send) {
      if IsPending(s.queue[i]) {
        assert s.queue[i] in items;
      }
    }
  }

  /** A job that is not pending is never attempted again: every later cycle
      leaves it as it is, so an `error` job keeps its error for good. */
  lemma SettledStaysSettled(j: Job, send: Job -> SendResult)
    requires j.status != PENDING
    ensures AfterCycle(j, send) == j
  {
  }

  /** After a cycle a job is pending only if it was pending and its attempt
      raised. */
  lemma PendingAfterCycle(j: Job, send: Job -> SendResult)
    ensures IsPending(AfterCycle(j, send)) <==> IsPending(j) && send(j).Raised?
  {
  }
}

=== FILE: notify.dfy ===
/**
 The per-user notification inbox (utils/notifications.py). The table is
 created on the first send; until then fetching finds nothing and marking
 fails. A database error is the parameter `dbOk`.
 */
module Notify {
  import opened Common
  import opened Store

  /** `send_report_notification`: one unread notice for `user`, stored with
      the next id; `False` and no change when the database fails. The user
      id is not checked (SQLite does not enforce the foreign key). */
  function SendReportNotification(s: Store, user: Id, subject: string, message: string,
                                  at: Stamp, dbOk: bool): (r: (Store, bool))
    ensures r.1 == dbOk
    ensures !dbOk ==> r.0 == s
    ensures dbOk ==> r.0.noticeTable
    ensures dbOk ==> r.0.notices == s.notices + [Notice(s.nextNotice, user, subject, message, false, at)]
    ensures dbOk ==> r.0 == s.(noticeTable := true, notices := r.0.notices, nextNotice := s.nextNotice + 1)
  {
    if !dbOk then (s, false)
    else
      var n := Notice(s.nextNotice, user, subject, message, false, at);
      (s.(noticeTable := true, notices := s.notices + [n], nextNotice := s.nextNotice + 1), true)
  }

  /** The rows the query selects. */
  function Visible(user: Id, includeRead: bool): Notice -> bool
  {
    (n: Notice) => n.user == user && (includeRead || !n.isRead)
  }

  /** `get_user_notifications`: that user's notices, newest first, the read
      ones only with `include_read`; nothing without the table. Rows are
      created in time order, so newest first is reverse insertion order. */
  function GetUserNotifications(s: Store, user: Id, includeRead: bool): (r: seq<Notice>)
    ensures !s.noticeTable ==> r == []
    ensures forall i :: 0 <= i < |r| ==> r[i] in s.notices && r[i].user == user && (includeRead || !r[i].isRead)
    ensures s.noticeTable ==> forall n :: n in s.notices && n.user == user && (includeRead || !n.isRead) ==> n in r
  {
    if !s.noticeTable then []
    else
      var r := Filter(Reverse(s.notices), Visible(user, includeRead));
      assert forall n :: n in s.notices ==> n in Reverse(s.notices) by {
        forall n | n in s.notices ensures n in Reverse(s.notices) {
          var i :| 0 <= i < |s.notices| && s.notices[i] == n;
          assert Reverse(s.notices)[|s.notices| - 1 - i] == n;
        }
      }
      r
  }

  /** Notices carry increasing ids in table order, as AUTOINCREMENT hands
      them out. */
  predicate IdsAscending(ns: seq<Notice>)
  {
    forall i, j :: 0 <= i < j < |ns| ==> ns[i].id < ns[j].id
  }

  predicate IdsDescending(ns: seq<Notice>)
  {
    forall i, j :: 0 <= i < j < |ns| ==> ns[i].id > ns[j].id
  }

  function NoticeId(n: Notice): int
  {
    n.id
  }

  lemma FilterDescending(ns: seq<Notice>, p: Notice -> bool)
    requires IdsDescending(ns)
    ensures IdsDescending(Filter(ns, p))
  {
    assert DecreasingBy(ns, NoticeId);
    FilterDecreasingBy(ns, p, NoticeId);
    var f := Filter(ns, p);
    assert forall i, j :: 0 <= i < j < |f| ==> Above(NoticeId(f[i]), NoticeId(f[j]));
  }

  /** A send keeps the ids ascending. */
  lemma SendKeepsAscending(s: Store, user: Id, subject: string, message: string, at: Stamp, dbOk: bool)
    requires IdsAscending(s.notices) && forall i :: 0 <= i < |s.notices| ==> s.notices[i].id < s.nextNotice
    ensures var s' := SendReportNotification(s, user, subject, message, at, dbOk).0;
      IdsAscending(s'.notices) && forall i :: 0 <= i < |s'.notices| ==> s'.notices[i].id < s'.nextNotice
  {
  }

  /** The list comes newest first: ids strictly decrease along it. */
  lemma NewestFirst(s: Store, user: Id, includeRead: bool)
    requires IdsAscending(s.notices)
    ensures IdsDescending(GetUserNotifications(s, user, includeRead))
  {
    if s.noticeTable {
      var rev := Reverse(s.notices);
      assert IdsDescending(rev) by {
        forall i, j | 0 <= i < j < |rev| ensures rev[i].id > rev[j].id {
          assert rev[i] == s.notices[|s.notices| - 1 - i] && rev[j] == s.notices[|s.notices| - 1 - j];
        }
      }
      FilterDescending(rev, Visible(user, includeRead));
    }
  }

  /** `mark_notification_as_read`: the notice with that id becomes read and
      nothing else changes. The answer is `True` even for an unknown id;
      without the table the UPDATE fails and the answer is `False`. */
  function MarkNotificationAsRead(s: Store, id: Id, dbOk: bool): (r: (Store, bool))
    ensures r.1 <==> dbOk && s.noticeTable
    ensures !r.1 ==> r.0 == s
    ensures r.0 == s.(notices := r.0.notices) && |r.0.notices| == |s.notices|
    ensures forall i :: 0 <= i < |s.notices| ==>
      r.0.notices[i] == (if r.1 && s.notices[i].id == id then s.notices[i].(isRead := true) else s.notices[i])
  {
    if !dbOk || !s.noticeTable then (s, false)
    else
      var ns := seq(|s.notices|, i requires 0 <= i < |s.notices| =>
                      if s.notices[i].id == id then s.notices[i].(isRead := true) else s.notices[i]);
      (s.(notices := ns), true)
  }

  /** A notice just sent is the first one its user sees. */
  lemma SendThenFetch(s: Store, user: Id, subject: string, message: string, at: Stamp, includeRead: bool)
    ensures var s' := SendReportNotification(s, user, subject, message, at, true).0;
      var r := GetUserNotifications(s', user, includeRead);
      |r| > 0 && r[0] == Notice(s.nextNotice, user, subject, message, false, at)
  {
    var s' := SendReportNotification(s, user, subject, message, at, true).0;
    assert Reverse(s'.notices)[0] == Notice(s.nextNotice, user, subject, message, false, at);
  }

  /** Once marked, a notice no longer shows among the unread ones. */
  lemma MarkThenFetch(s: Store, id: Id, user: Id)
    requires s.noticeTable
    ensures var s' := MarkNotificationAsRead(s, id, true).0;
      forall n :: n in GetUserNotifications(s', user, false) ==> n.id != id
  {
    var s' := MarkNotificationAsRead(s, id, true).0;
    forall n | n in GetUserNotifications(s', user, false) ensures n.id != id {
      var i :| 0 <= i < |s'.notices| && s'.notices[i] == n;
    }
  }
}

=== FILE: overlay.dfy ===
/**
 The PDF helpers of utils/pdf_excel_tools.py: preparing a workbook for
 conversion and the success rule of the LibreOffice conversion, the layout
 of the "Digital Signatures" overlay, and merging that overlay onto the
 last page of the converted document.

 LibreOffice, openpyxl, reportlab and PyPDF2 are foreign code: whether the
 workbook loads, whether it saves, and which files exist afterwards are
 parameters; a page of the converted document is opaque apart from the
 overlays merged onto it.
 */
module Overlay {
  import opened Common
  import Signatures
  import Sheet

  // ---------------------------------------------------------------------------
  // `convert_excel_to_pdf` (pdf_excel_tools.py:9-42)

  /** A file location, as a directory and a file name. */
  datatype FilePath = FilePath(dir: string, name: string)

  datatype PageSetup = PageSetup(fitToWidth: Option<int>, fitToHeight: Option<int>)

  datatype Worksheet = Worksheet(cells: Sheet.Grid, setup: PageSetup)

  /** Every worksheet is scaled to one page wide and one page tall; nothing
      else about the workbook changes. */
  function FitToPage(wb: seq<Worksheet>): (r: seq<Worksheet>)
    ensures |r| == |wb|
    ensures forall i :: 0 <= i < |r| ==>
      r[i].cells == wb[i].cells && r[i].setup.fitToWidth == Some(1) && r[i].setup.fitToHeight == Some(1)
  {
    if |wb| == 0 then []
    else [Worksheet(wb[0].cells, PageSetup(Some(1), Some(1)))] + FitToPage(wb[1..])
  }

  /** The position of the dot that starts the extension of `name`, as
      `os.path.splitext` finds it: the last dot, unless only dots precede it. */
  function ExtensionDot(name: string): (r: Option<nat>)
    ensures r.Some? ==> r.value < |name| && name[r.value] == '.' && '.' !in name[r.value + 1..]
    ensures r.Some? ==> exists k :: 0 <= k < r.value && name[k] != '.'
    ensures r.None? ==> forall i :: 0 <= i < |name| && name[i] == '.' ==> forall k :: 0 <= k < i ==> name[k] == '.'
  {
    if |name| == 0 then None
    else if name[|name| - 1] == '.' then
      if exists k :: 0 <= k < |name| - 1 && name[k] != '.' then
        assert name[|name| - 1 + 1..] == [];
        Some(|name| - 1)
      else None
    else
      var d := ExtensionDot(name[..|name| - 1]);
      if d.Some? then
        assert name[d.value + 1..] == name[..|name| - 1][d.value + 1..] + [name[|name| - 1]];
        assert name[..|name| - 1][d.value] == name[d.value];
        var k :| 0 <= k < d.value && name[..|name| - 1][k] != '.';
        assert name[k] != '.';
        Some(d.value)
      else
        assert forall i :: 0 <= i < |name| - 1 ==> name[..|name| - 1][i] == name[i];
        None
  }

  /** `os.path.splitext(name)[0]`. */
  function Stem(name: string): string
  {
    match ExtensionDot(name)
    case None => name
    case Some(d) => name[..d]
  }

  /** A file name with a plain extension loses exactly that extension. */
  lemma StemOfExtension(base: string, ext: string)
    requires |base| > 0 && base[0] != '.'
    requires '.' !in ext
    ensures Stem(base + "." + ext) == base
  {
    var name := base + "." + ext;
    var d := ExtensionDot(name);
    assert name[|base|] == '.';
    assert name[0] != '.';
    if d.None? {
      assert false;
    }
    if d.value < |base| {
      assert false;
    } else if d.value > |base| {
      assert false;
    }
    assert name[..|base|] == base;
  }

  /** The file LibreOffice writes: the workbook's stem with `.pdf`, in the
      output's directory. */
  function GeneratedPdf(excel: FilePath, output: FilePath): FilePath
  {
    FilePath(output.dir, Stem(excel.name) + ".pdf")
  }

  /** The outcome of a conversion: whether it succeeded, the workbook as it
      was saved back (if the save happened), and where the PDF now is. */
  datatype Conversion = Conversion(ok: bool, saved: Option<seq<Worksheet>>, pdf: Option<FilePath>)

  /** `convert_excel_to_pdf`. `loaded` is the workbook openpyxl reads (or
      `None` when loading raises), `saveOk` whether saving it back works, and
      `fileExists` which files exist once LibreOffice has run. */
  function ConvertExcelToPdf(excel: FilePath, output: FilePath, loaded: Option<seq<Worksheet>>,
                             saveOk: bool, fileExists: FilePath -> bool): (r: Conversion)
    ensures r.ok <==> loaded.Some? && saveOk && fileExists(GeneratedPdf(excel, output))
    ensures r.ok ==> r.pdf == Some(output)
    ensures !r.ok ==> r.pdf.None?
    ensures r.saved.Some? <==> loaded.Some? && saveOk
    ensures r.saved.Some? ==>
      |r.saved.value| == |loaded.value| &&
      forall i :: 0 <= i < |r.saved.value| ==>
        r.saved.value[i].setup == PageSetup(Some(1), Some(1)) && r.saved.value[i].cells == loaded.value[i].cells
  {
    match loaded
    case None => Conversion(false, None, None)
    case Some(wb) =>
      if !saveOk then Conversion(false, None, None)
      else
        var fitted := FitToPage(wb);
        if fileExists(GeneratedPdf(excel, output)) then Conversion(true, Some(fitted), Some(output))
        else Conversion(false, Some(fitted), None)
  }

  // ---------------------------------------------------------------------------
  // `append_signatures_to_pdf` (pdf_excel_tools.py:44-86)

  const X_MARGIN: int := 50
  const Y_START: int := 50
  const LINE_HEIGHT: int := 12

  const TITLE := "Digital Signatures"

  datatype Font = HelveticaBold10 | HelveticaBold8 | Helvetica8

  /** One `drawString` call. */
  datatype Text = Text(x: int, y: int, font: Font, s: string)

  /** The overlay page: a title, four column headers and one line of four
      texts per signature, in list order. */
  datatype SignatureOverlay = SignatureOverlay(title: Text, headers: seq<Text>, rows: seq<seq<Text>>)

  /** The columns' x positions: role, name, employee code, date/time. */
  function ColumnX(k: nat): int
    requires k < 4
  {
    X_MARGIN + [0, 100, 250, 400][k]
  }

  function RowY(n: nat, i: nat): int
    requires i < n
  {
    Y_START + (n - i - 1) * LINE_HEIGHT
  }

  function HeaderY(n: nat): int
  {
    Y_START + n * LINE_HEIGHT
  }

  function TitleY(n: nat): int
  {
    Y_START + (n + 1) * LINE_HEIGHT
  }

  /** The four texts drawn for one signature at height `y`. */
  function SignatureLine(sig: Signatures.Signature, y: int): seq<Text>
  {
    [ Text(ColumnX(0), y, Helvetica8, sig.role),
      Text(ColumnX(1), y, Helvetica8, sig.name),
      Text(ColumnX(2), y, Helvetica8, sig.empCode),
      Text(ColumnX(3), y, Helvetica8, sig.timestamp) ]
  }

  function DrawOverlay(sigs: seq<Signatures.Signature>): (o: SignatureOverlay)
    ensures |o.headers| == 4 && |o.rows| == |sigs|
    // the texts of row i are signature i's role, name, code and time, in that order
    ensures forall i :: 0 <= i < |sigs| ==>
      |o.rows[i]| == 4 &&
      [o.rows[i][0].s, o.rows[i][1].s, o.rows[i][2].s, o.rows[i][3].s] ==
        [sigs[i].role, sigs[i].name, sigs[i].empCode, sigs[i].timestamp]
    // each row and the header line are level, in the same four columns
    ensures forall i, k :: 0 <= i < |sigs| && 0 <= k < 4 ==>
      o.rows[i][k].y == o.rows[i][0].y && o.rows[i][k].x == o.headers[k].x
    ensures forall k :: 0 <= k < 4 ==> o.headers[k].y == o.headers[0].y
    // the last signature sits on the bottom line, earlier ones above it
    ensures |sigs| > 0 ==> o.rows[|sigs| - 1][0].y == Y_START
    ensures forall i, j :: 0 <= i < j < |sigs| ==> o.rows[j][0].y < o.rows[i][0].y
    // the header is above every row and the title above the header
    ensures forall i :: 0 <= i < |sigs| ==> o.rows[i][0].y < o.headers[0].y
    ensures o.headers[0].y < o.title.y
    ensures o.title.x == X_MARGIN && o.title.s == TITLE
    // the header line: "Role", "Name", "Emp Code" and "Date/Time" at x = 50, 150, 300 and 450,
    // one line above the signatures (at 50 when there are none), with the title one line higher
    ensures [o.headers[0].s, o.headers[1].s, o.headers[2].s, o.headers[3].s] == ["Role", "Name", "Emp Code", "Date/Time"]
    ensures o.headers[0].x == 50 && o.headers[1].x == 150 && o.headers[2].x == 300 && o.headers[3].x == 450
    ensures o.headers[0].y == Y_START + |sigs| * LINE_HEIGHT
    ensures o.title.y == o.headers[0].y + LINE_HEIGHT
  {
    var n := |sigs|;
    SignatureOverlay(
      Text(X_MARGIN, TitleY(n), HelveticaBold10, TITLE),
      [ Text(ColumnX(0), HeaderY(n), HelveticaBold8, "Role"),
        Text(ColumnX(1), HeaderY(n), HelveticaBold8, "Name"),
        Text(ColumnX(2), HeaderY(n), HelveticaBold8, "Emp Code"),
        Text(ColumnX(3), HeaderY(n), HelveticaBold8, "Date/Time") ],
      seq(n, i requires 0 <= i < n => SignatureLine(sigs[i], RowY(n, i))))
  }

  /** Consecutive rows are exactly one line apart, so the overlay's rows
      fill the band from `Y_START` up to just under the header. */
  lemma OverlayLineSpacing(sigs: seq<Signatures.Signature>, i: nat)
    requires i + 1 < |sigs|
    ensures DrawOverlay(sigs).rows[i][0].y == DrawOverlay(sigs).rows[i + 1][0].y + LINE_HEIGHT
    ensures DrawOverlay(sigs).headers[0].y == DrawOverlay(sigs).rows[0][0].y + LINE_HEIGHT
  {
  }

  /** A page of the converted document, with the overlays merged onto it. */
  datatype Page = Page(content: nat, overlays: seq<SignatureOverlay>)

  function MergePage(p: Page, o: SignatureOverlay): Page
  {
    Page(p.content, p.overlays + [o])
  }

  /** The page loop of lines 76-83: every page is copied in order, and the
      overlay is merged onto the last one only. */
  method MergeOntoLastPage(pages: seq<Page>, o: SignatureOverlay) returns (out: seq<Page>)
    ensures |out| == |pages|
    ensures forall i :: 0 <= i < |pages| - 1 ==> out[i] == pages[i]
    ensures |pages| > 0 ==>
      out[|pages| - 1].content == pages[|pages| - 1].content &&
      out[|pages| - 1].overlays == pages[|pages| - 1].overlays + [o]
  {
    out := [];
    var idx := 0;
    while idx < |pages|
      invariant 0 <= idx <= |pages| && |out| == idx
      invariant forall i :: 0 <= i < idx && i != |pages| - 1 ==> out[i] == pages[i]
      invariant forall i :: 0 <= i < idx && i == |pages| - 1 ==> out[i] == MergePage(pages[i], o)
    {
      var page := pages[idx];
      if idx == |pages| - 1 {
        page := MergePage(page, o);
      }
      out := out + [page];
      idx := idx + 1;
    }
  }

  /** The signature document: the converted pages with the overlay of
      `sigs` on the last one. */
  method AppendSignatures(pages: seq<Page>, sigs: seq<Signatures.Signature>) returns (out: seq<Page>)
    ensures |out| == |pages|
    ensures forall i :: 0 <= i < |pages| - 1 ==> out[i] == pages[i]
    ensures |pages| > 0 ==> out[|pages| - 1].overlays == pages[|pages| - 1].overlays + [DrawOverlay(sigs)]
  {
    out := MergeOntoLastPage(pages, DrawOverlay(sigs));
  }
}

=== FILE: pdf.dfy ===
/**
 `PDFGenerator.generate_report_pdf` (pdf/pdf_generator.py, identical in
 installer/pdf/pdf_generator.py): read the report, derive its signature
 rows, obtain a workbook (the user's own copy, or the template filled with
 the report's fields), convert it, and overlay the signatures on the last
 page.

 The file system, the template, LibreOffice and the converted pages are an
 `Env` of oracles. The debug log file writes, the temporary file clean-up
 and the conversion of timestamps to local time are left out.
 */
module Pdf {
  import opened Common
  import opened Store
  import opened Signatures
  import Sheet
  import opened Overlay

  const REPORT_NOT_FOUND := "Report not found"
  const COPY_FALLBACK_FAILED := "Failed to create Excel report after copy error"
  const TEMPLATE_FILL_FAILED := "Failed to create Excel report from template"
  const CONVERSION_FAILED :=
    "Failed to convert Excel to PDF. Ensure LibreOffice is installed and 'soffice' is in your PATH."
  /** `str(e)` of the `TypeError` that `os.stat(None)` raises, as Python
      words it on POSIX systems; the text is platform-dependent. */
  const NONE_PATH_ERROR := "stat: path should be string, bytes, os.PathLike or integer, not NoneType"

  const ARTIFACT_FIELD := "excel_file_path"

  /** What the outside world answers. */
  datatype Env = Env(
    artifactExists: string -> bool,         // os.path.exists on the user's workbook
    copyOk: bool,                           // shutil.copy of that workbook succeeds
    template: Option<Sheet.Grid>,           // the template's active sheet, if it loads
    templateSaveOk: bool,                   // saving the filled template succeeds
    userBook: Option<seq<Worksheet>>,       // the copied user workbook, as openpyxl loads it
    bookSaveOk: bool,                       // saving the fitted workbook succeeds
    fileExists: FilePath -> bool,           // files present after LibreOffice ran
    pages: seq<Page>)                       // the pages LibreOffice produced

  /** Where the workbook to convert came from. */
  datatype Source = UserCopy(path: string) | TemplateFill(sheet: Sheet.Grid)

  /** The pipeline up to and including the conversion. */
  datatype Stage = Stop(message: string) | Converted(source: Source, sigs: seq<Signature>)

  datatype Outcome = Failed(message: string) | Generated(path: string, source: Source, sigs: seq<Signature>, document: seq<Page>)

  /** `report.get('excel_file_path') or fields_data.get('excel_file_path')`:
      the report's own column when it is non-empty, else the field, which may
      be missing. */
  function ArtifactPath(rv: ReportView): (p: Option<string>)
    ensures rv.report.artifactPath.Some? && rv.report.artifactPath.value != "" ==> p == rv.report.artifactPath
    ensures (rv.report.artifactPath.None? || rv.report.artifactPath.value == "") ==>
      (p.Some? <==> ARTIFACT_FIELD in rv.fields) && (p.Some? ==> p.value == rv.fields[ARTIFACT_FIELD])
  {
    if rv.report.artifactPath.Some? && rv.report.artifactPath.value != "" then rv.report.artifactPath
    else if ARTIFACT_FIELD in rv.fields then Some(rv.fields[ARTIFACT_FIELD])
    else None
  }

  /** The data handed to the template: every field as text, and the
      signature rows under "signatures" (replacing a field of that name). */
  function FillData(fields: map<string, string>, sigs: seq<Signature>): (d: Sheet.Payload)
    ensures d.Dict? && d.entries.Keys == fields.Keys + {Sheet.SIGNATURES_KEY}
    ensures d.entries[Sheet.SIGNATURES_KEY] == Sheet.SignatureList(sigs)
    ensures forall k :: k in fields && k != Sheet.SIGNATURES_KEY ==> d.entries[k] == Sheet.Text(fields[k])
  {
    Sheet.Dict((map k | k in fields :: Sheet.Text(fields[k]))[Sheet.SIGNATURES_KEY := Sheet.SignatureList(sigs)])
  }

  function TempExcel(tmp: string, rid: Id): FilePath
  {
    FilePath(tmp, "report_" + NatToString(rid) + ".xlsx")
  }

  function TempPdf(tmp: string, rid: Id): FilePath
  {
    FilePath(tmp, "report_" + NatToString(rid) + "_temp.pdf")
  }

  /** LibreOffice names its output after the temporary workbook, so the file
      the conversion waits for is `report_<id>.pdf` in the same directory. */
  lemma TempPdfAwaited(tmp: string, rid: Id)
    ensures GeneratedPdf(TempExcel(tmp, rid), TempPdf(tmp, rid)) == FilePath(tmp, "report_" + NatToString(rid) + ".pdf")
  {
    var base := "report_" + NatToString(rid);
    assert base[0] == 'r';
    assert "report_" + NatToString(rid) + ".xlsx" == base + "." + "xlsx";
    StemOfExtension(base, "xlsx");
  }

  /** The workbook the conversion loads. */
  function Workbook(src: Source, env: Env): Option<seq<Worksheet>>
  {
    match src
    case UserCopy(_) => env.userBook
    case TemplateFill(g) => Some([Worksheet(g, PageSetup(None, None))])
  }

  /** Lines 107-111, once a workbook is in place. */
  function Convert(src: Source, sigs: seq<Signature>, tmp: string, rid: Id, env: Env): (r: Stage)
    ensures r.Converted? <==> ConvertExcelToPdf(TempExcel(tmp, rid), TempPdf(tmp, rid), Workbook(src, env), env.bookSaveOk, env.fileExists).ok
    ensures r.Converted? ==> r == Converted(src, sigs)
    ensures r.Stop? ==> r.message == CONVERSION_FAILED
  {
    if ConvertExcelToPdf(TempExcel(tmp, rid), TempPdf(tmp, rid), Workbook(src, env), env.bookSaveOk, env.fileExists).ok
    then Converted(src, sigs)
    else Stop(CONVERSION_FAILED)
  }

  /** Lines 89-111 once it is known whether the user's workbook exists:
      copy it, falling back to the template when the copy fails; otherwise
      fill the template. */
  function FromWorkbook(found: bool, path: string, data: Sheet.Payload, sigs: seq<Signature>,
                        tmp: string, rid: Id, env: Env): (r: Stage)
    ensures found && env.copyOk ==> r == Convert(UserCopy(path), sigs, tmp, rid, env)
    ensures !(found && env.copyOk) ==>
      var fill := Sheet.CreateReportFromTemplate(env.template, data, env.templateSaveOk);
      && (fill.None? ==> r == Stop(if found then COPY_FALLBACK_FAILED else TEMPLATE_FILL_FAILED))
      && (fill.Some? ==> r == Convert(TemplateFill(fill.value), sigs, tmp, rid, env))
  {
    if found && env.copyOk then Convert(UserCopy(path), sigs, tmp, rid, env)
    else
      match Sheet.CreateReportFromTemplate(env.template, data, env.templateSaveOk)
      case None => Stop(if found then COPY_FALLBACK_FAILED else TEMPLATE_FILL_FAILED)
      case Some(g) => Convert(TemplateFill(g), sigs, tmp, rid, env)
  }

  /** Line 87 as written: `os.path.exists(None)` raises `TypeError`, which the
      outer handler turns into `(False, str(e))`; `os.path.exists("")` is
      simply false. `None` is the raise, `Some(b)` the answer. */
  function ProbeAsWritten(p: Option<string>, env: Env): (r: Option<bool>)
    ensures r.None? <==> p.None?
    ensures r.Some? ==> (r.value <==> p.value != "" && env.artifactExists(p.value))
  {
    match p
    case None => None
    case Some(path) => Some(path != "" && env.artifactExists(path))
  }

  /** Line 89 as intended: a missing path, like an empty one, means there is
      no user workbook. */
  function Probe(p: Option<string>, env: Env): (found: bool)
    ensures found <==> p.Some? && p.value != "" && env.artifactExists(p.value)
    ensures ProbeAsWritten(p, env).Some? ==> found == ProbeAsWritten(p, env).value
  {
    p.Some? && p.value != "" && env.artifactExists(p.value)
  }

  /** The pipeline up to the conversion, as written. */
  function PrepareAsWritten(s: Store, rid: Id, tmp: string, env: Env): (r: Stage)
    ensures GetReport(s, rid).None? ==> r == Stop(REPORT_NOT_FOUND)
    ensures GetReport(s, rid).Some? && ArtifactPath(GetReport(s, rid).value).None? ==> r == Stop(NONE_PATH_ERROR)
  {
    match GetReport(s, rid)
    case None => Stop(REPORT_NOT_FOUND)
    case Some(rv) =>
      var sigs := BuildSignatures(s, rv.logs);
      var path := ArtifactPath(rv);
      match ProbeAsWritten(path, env)
      case None => Stop(NONE_PATH_ERROR)
      case Some(found) =>
        FromWorkbook(found, if path.Some? then path.value else "", FillData(rv.fields, sigs), sigs, tmp, rid, env)
  }

  /** The pipeline up to the conversion, with a missing path treated as no
      user workbook. */
  function Prepare(s: Store, rid: Id, tmp: string, env: Env): (r: Stage)
    ensures r == Stop(REPORT_NOT_FOUND) <==> GetReport(s, rid).None?
    ensures r.Converted? ==> r.sigs == BuildSignatures(s, GetReport(s, rid).value.logs)
    // the user's workbook is used exactly when it is recorded, exists and copies
    ensures r.Converted? && r.source.UserCopy? <==>
      && GetReport(s, rid).Some?
      && Probe(ArtifactPath(GetReport(s, rid).value), env) && env.copyOk
      && ConvertExcelToPdf(TempExcel(tmp, rid), TempPdf(tmp, rid), env.userBook, env.bookSaveOk, env.fileExists).ok
    // otherwise the workbook is the template filled with the fields and signatures
    ensures r.Converted? && r.source.TemplateFill? ==>
      var rv := GetReport(s, rid).value;
      Sheet.CreateReportFromTemplate(env.template, FillData(rv.fields, r.sigs), env.templateSaveOk) == Some(r.source.sheet)
  {
    match GetReport(s, rid)
    case None => Stop(REPORT_NOT_FOUND)
    case Some(rv) =>
      var sigs := BuildSignatures(s, rv.logs);
      var path := ArtifactPath(rv);
      FromWorkbook(Probe(path, env), if path.Some? then path.value else "", FillData(rv.fields, sigs), sigs, tmp, rid, env)
  }

  /** Where both versions reach line 89 they agree; they differ only when no
      path is recorded. */
  lemma PrepareAgrees(s: Store, rid: Id, tmp: string, env: Env)
    requires GetReport(s, rid).None? || ArtifactPath(GetReport(s, rid).value).Some?
    ensures PrepareAsWritten(s, rid, tmp, env) == Prepare(s, rid, tmp, env)
  {
  }

  /** The discrepancy: a report created from the form has no recorded
      workbook, and as written its PDF always fails with the `TypeError`
      text, even when the template fills and converts; the intended
      pipeline fills the template instead. */
  lemma NoArtifactNeverFillsAsWritten(s: Store, rid: Id, tmp: string, env: Env)
    requires GetReport(s, rid).Some? && ArtifactPath(GetReport(s, rid).value).None?
    ensures PrepareAsWritten(s, rid, tmp, env) == Stop(NONE_PATH_ERROR)
    ensures var rv := GetReport(s, rid).value;
      var fill := Sheet.CreateReportFromTemplate(env.template, FillData(rv.fields, BuildSignatures(s, rv.logs)), env.templateSaveOk);
      && (fill.None? ==> Prepare(s, rid, tmp, env) == Stop(TEMPLATE_FILL_FAILED))
      && (fill.Some? ==> Prepare(s, rid, tmp, env) == Convert(TemplateFill(fill.value), BuildSignatures(s, rv.logs), tmp, rid, env))
  {
  }

  /** The tail shared by both pipelines: a stop becomes the failure message;
      a conversion gets the signature overlay on its last page. */
  method Finish(stage: Stage, output: string, pages: seq<Page>) returns (r: Outcome)
    ensures r.Failed? <==> stage.Stop?
    ensures r.Failed? ==> r.message == stage.message
    ensures r.Generated? ==>
      && r.path == output && r.source == stage.source && r.sigs == stage.sigs
      && |r.document| == |pages|
      && (forall i :: 0 <= i < |pages| - 1 ==> r.document[i] == pages[i])
      && (|pages| > 0 ==> r.document[|pages| - 1].overlays == pages[|pages| - 1].overlays + [DrawOverlay(r.sigs)])
  {
    if stage.Stop? {
      r := Failed(stage.message);
    } else {
      var doc := AppendSignatures(pages, stage.sigs);
      r := Generated(output, stage.source, stage.sigs, doc);
    }
  }

  /** `generate_report_pdf` as written: the pipeline of `PrepareAsWritten`,
      so a report with no recorded workbook fails with the `TypeError` text;
      otherwise the converted pages carry the signature overlay on the last
      page. */
  method GenerateReportPdfAsWritten(s: Store, rid: Id, tmp: string, output: string, env: Env) returns (r: Outcome)
    ensures r.Failed? <==> PrepareAsWritten(s, rid, tmp, env).Stop?
    ensures r.Failed? ==> r.message == PrepareAsWritten(s, rid, tmp, env).message
    ensures GetReport(s, rid).Some? && ArtifactPath(GetReport(s, rid).value).None? ==> r == Failed(NONE_PATH_ERROR)
    ensures r.Generated? ==>
      && r.path == output
      && r.source == PrepareAsWritten(s, rid, tmp, env).source
      && r.sigs == PrepareAsWritten(s, rid, tmp, env).sigs
      && |r.document| == |env.pages|
      && (forall i :: 0 <= i < |env.pages| - 1 ==> r.document[i] == env.pages[i])
      && (|env.pages| > 0 ==> r.document[|env.pages| - 1].overlays == env.pages[|env.pages| - 1].overlays + [DrawOverlay(r.sigs)])
  {
    var stage := PrepareAsWritten(s, rid, tmp, env);
    r := Finish(stage, output, env.pages);
  }

  /** `generate_report_pdf` as intended, on the corrected pipeline `Prepare`
      (a missing workbook path means "fill the template"): a failure
      message, or the output path with the converted pages carrying the
      signature overlay on the last page. */
  method GenerateReportPdf(s: Store, rid: Id, tmp: string, output: string, env: Env) returns (r: Outcome)
    ensures r.Failed? <==> Prepare(s, rid, tmp, env).Stop?
    ensures r.Failed? ==> r.message == Prepare(s, rid, tmp, env).message
    ensures r.Generated? ==>
      && r.path == output
      && r.source == Prepare(s, rid, tmp, env).source
      && r.sigs == BuildSignatures(s, GetReport(s, rid).value.logs)
      && |r.document| == |env.pages|
      && (forall i :: 0 <= i < |env.pages| - 1 ==> r.document[i] == env.pages[i])
      && (|env.pages| > 0 ==> r.document[|env.pages| - 1].overlays == env.pages[|env.pages| - 1].overlays + [DrawOverlay(r.sigs)])
  {
    var stage := Prepare(s, rid, tmp, env);
    assert stage.Converted? ==> stage.sigs == BuildSignatures(s, GetReport(s, rid).value.logs);
    if stage.Stop? {
      r := Failed(stage.message);
    } else {
      var doc := AppendSignatures(env.pages, stage.sigs);
      r := Generated(output, stage.source, stage.sigs, doc);
    }
  }

  /** The intended pipeline fails only with one of its four messages; the
      `TypeError` text is gone. */
  lemma FailureMessages(s: Store, rid: Id, tmp: string, env: Env)
    ensures Prepare(s, rid, tmp, env).Stop? ==>
      Prepare(s, rid, tmp, env).message in {REPORT_NOT_FOUND, COPY_FALLBACK_FAILED, TEMPLATE_FILL_FAILED, CONVERSION_FAILED}
  {
  }
}

=== FILE: sheet.dfy ===
/**
 The spreadsheet template handler (utils/excel_handler.py): finding the
 `{{name}}` placeholders of a template, filling them from a report's data,
 writing the signature block, and the preview grid.

 A worksheet is a list of rows of cells, row 1 first; rows may be of
 different lengths, and a cell beyond a row's end is empty. Its extent is
 openpyxl's `max_row` by `max_column`, which is at least 1 by 1 even for an
 empty sheet. Loading and saving a workbook are I/O: a template that cannot
 be loaded is `None`, and whether the save succeeds is a parameter.

 The scan and the preview load the workbook with `data_only=True`, which
 shows a formula cell's cached result (nothing, for a workbook openpyxl
 wrote); the fill loads it plainly, which shows the formula's own text.
 A cell therefore carries both, and each reader picks its view.
 */
module Sheet {
  import opened Common
  import Signatures

  /** A computed result with its `str()` text and whether Python finds it
      truthy (`0`, `""` and `False` are not). */
  datatype Result = Result(text: string, truthy: bool)

  /** A cell's value as far as the handler looks at it: empty (`None`), a
      constant, or a formula with its cached result, if the workbook holds
      one. */
  datatype Cell = Blank | Value(text: string, truthy: bool) | Formula(source: string, cached: Option<Result>)

  type Grid = seq<seq<Cell>>

  /** A string written into a cell: openpyxl stores a string of two or more
      characters that starts with "=" as a formula, without a cached result. */
  function TextCell(s: string): (c: Cell)
    ensures c.Formula? <==> |s| > 1 && s[0] == '='
    ensures c.Formula? ==> c == Formula(s, None)
    ensures c.Value? ==> c == Value(s, s != "")
  {
    if |s| > 1 && s[0] == '=' then Formula(s, None) else Value(s, s != "")
  }

  /** The cell as a `data_only=True` load shows it: a formula becomes its
      cached result, or `None` without one. */
  function DataOnly(c: Cell): (v: Cell)
    ensures !v.Formula?
    ensures !c.Formula? ==> v == c
    ensures c.Formula? ==> (v.Blank? <==> c.cached.None?)
  {
    match c
    case Formula(_, cached) => if cached.Some? then Value(cached.value.text, cached.value.truthy) else Blank
    case _ => c
  }

  /** `str(v) if v else ""` on a `data_only=True` load (the scan). */
  function ScanText(c: Cell): string
  {
    var v := DataOnly(c);
    if v.Value? && v.truthy then v.text else ""
  }

  /** `str(v) if v is not None else ""` on a `data_only=True` load (the
      preview). */
  function PreviewText(c: Cell): string
  {
    var v := DataOnly(c);
    if v.Value? then v.text else ""
  }

  /** `str(v) if v else ""` on a plain load (the fill): a formula shows its
      source text. */
  function FillText(c: Cell): string
  {
    match c
    case Formula(source, _) => source
    case _ => ScanText(c)
  }

  /** The two loads differ only at formula cells. */
  lemma LoadsAgree(c: Cell)
    ensures !c.Formula? ==> FillText(c) == ScanText(c)
    ensures c.Formula? && c.cached.None? ==> ScanText(c) == "" && PreviewText(c) == "" && FillText(c) == c.source
  {
  }

  function Width(g: Grid): (w: nat)
    ensures forall i :: 0 <= i < |g| ==> |g[i]| <= w
    ensures |g| > 0 ==> exists i :: 0 <= i < |g| && |g[i]| == w
    ensures |g| == 0 ==> w == 0
  {
    if |g| == 0 then 0
    else
      var w := Width(g[1..]);
      assert forall i :: 1 <= i < |g| ==> g[i] == g[1..][i - 1];
      if |g[0]| >= w then |g[0]| else w
  }

  /** `sheet.max_row` and `sheet.max_column`. */
  function MaxRow(g: Grid): nat
  {
    if |g| == 0 then 1 else |g|
  }

  function MaxCol(g: Grid): nat
  {
    if Width(g) == 0 then 1 else Width(g)
  }

  /** `sheet.cell(row=r, column=c)`, 1-based. */
  function At(g: Grid, r: nat, c: nat): Cell
  {
    if 1 <= r <= |g| && 1 <= c <= |g[r - 1]| then g[r - 1][c - 1] else Blank
  }

  // ---------------------------------------------------------------------------
  // Placeholders (excel_handler.py:31-41, 78-82)

  const OPEN := "{{"
  const CLOSE := "}}"

  predicate IsPlaceholder(text: string)
  {
    Contains(text, OPEN) && Contains(text, CLOSE)
  }

  /** Every "{{" deleted, then every "}}", then whitespace stripped. */
  function FieldName(text: string): string
  {
    Strip(RemoveAll(RemoveAll(text, OPEN), CLOSE))
  }

  const DATE := "date"
  const NUMBER := "number"
  const TEXT := "text"

  function FieldType(name: string): (t: string)
    ensures t in {DATE, NUMBER, TEXT}
  {
    if Contains(Lower(name), "date") then DATE
    else if Contains(Lower(name), "number") || Contains(Lower(name), "quantity") then NUMBER
    else TEXT
  }

  // ---------------------------------------------------------------------------
  // Column letters (`get_column_letter`): bijective base 26, 1 -> "A",
  // 26 -> "Z", 27 -> "AA"

  function ColumnLetter(n: nat): (s: string)
    requires n >= 1
    ensures |s| > 0 && forall i :: 0 <= i < |s| ==> 'A' <= s[i] <= 'Z'
    decreases n
  {
    var q := (n - 1) / 26;
    var c := ('A' as int + (n - 1) % 26) as char;
    if q == 0 then [c] else ColumnLetter(q) + [c]
  }

  predicate IsColumnName(s: string)
  {
    |s| > 0 && forall i :: 0 <= i < |s| ==> 'A' <= s[i] <= 'Z'
  }

  /** `column_index_from_string`, the inverse. */
  function ColumnNumber(s: string): int
  {
    if |s| == 0 then 0
    else ColumnNumber(s[..|s| - 1]) * 26 + (s[|s| - 1] as int - 'A' as int + 1)
  }

  lemma {:induction false} ColumnNumberPositive(s: string)
    requires IsColumnName(s)
    ensures ColumnNumber(s) >= 1
    decreases |s|
  {
    var init := s[..|s| - 1];
    if |init| > 0 {
      assert IsColumnName(init);
      ColumnNumberPositive(init);
    } else {
      assert ColumnNumber(init) == 0;
    }
  }

  lemma {:induction false} ColumnLetterRoundTrip(n: nat)
    requires n >= 1
    ensures ColumnNumber(ColumnLetter(n)) == n
    decreases n
  {
    var q := (n - 1) / 26;
    var c := ('A' as int + (n - 1) % 26) as char;
    if q != 0 {
      ColumnLetterRoundTrip(q);
      var s := ColumnLetter(q) + [c];
      assert s[..|s| - 1] == ColumnLetter(q);
    }
  }

  lemma {:induction false} ColumnNumberRoundTrip(s: string)
    requires IsColumnName(s)
    ensures ColumnNumber(s) >= 1 && ColumnLetter(ColumnNumber(s)) == s
    decreases |s|
  {
    var init := s[..|s| - 1];
    var n := ColumnNumber(s);
    ColumnNumberPositive(s);
    if |init| > 0 {
      assert IsColumnName(init);
      ColumnNumberPositive(init);
      ColumnNumberRoundTrip(init);
      assert (n - 1) / 26 == ColumnNumber(init);
      assert s == init + [s[|s| - 1]];
    } else {
      assert ColumnNumber(init) == 0;
      assert n == s[0] as int - 'A' as int + 1;
      assert s == [s[0]];
    }
  }

  // ---------------------------------------------------------------------------
  // `get_template_fields` (excel_handler.py:15-54)

  datatype TemplateField = TemplateField(name: string, kind: string, row: nat, col: nat, colLetter: string)

  predicate PlaceholderAt(g: Grid, r: nat, c: nat)
  {
    IsPlaceholder(ScanText(At(g, r, c)))
  }

  /** The field a placeholder cell declares. */
  predicate Describes(g: Grid, f: TemplateField)
  {
    && 1 <= f.row <= MaxRow(g) && 1 <= f.col <= MaxCol(g)
    && PlaceholderAt(g, f.row, f.col)
    && f.name == FieldName(ScanText(At(g, f.row, f.col)))
    && f.kind == FieldType(f.name)
    && f.colLetter == ColumnLetter(f.col)
  }

  predicate Before(a: TemplateField, b: TemplateField)
  {
    a.row < b.row || (a.row == b.row && a.col < b.col)
  }

  function FieldAt(g: Grid, r: nat, c: nat): (f: TemplateField)
    requires c >= 1
    ensures f.row == r && f.col == c
  {
    var name := FieldName(ScanText(At(g, r, c)));
    TemplateField(name, FieldType(name), r, c, ColumnLetter(c))
  }

  lemma FieldAtDescribes(g: Grid, r: nat, c: nat)
    requires 1 <= r <= MaxRow(g) && 1 <= c <= MaxCol(g) && PlaceholderAt(g, r, c)
    ensures Describes(g, FieldAt(g, r, c))
  {
  }

  datatype Pos = Pos(row: nat, col: nat)

  predicate PosBefore(a: Pos, b: Pos)
  {
    a.row < b.row || (a.row == b.row && a.col < b.col)
  }

  /** The placeholder columns `c..max_column` of row `r`, left to right. */
  function ScanCells(g: Grid, r: nat, c: nat): (ps: seq<Pos>)
    requires c >= 1
    ensures forall i :: 0 <= i < |ps| ==>
      ps[i].row == r && c <= ps[i].col <= MaxCol(g) && PlaceholderAt(g, r, ps[i].col)
    ensures forall i, j :: 0 <= i < j < |ps| ==> ps[i].col < ps[j].col
    decreases MaxCol(g) + 1 - c
  {
    if c > MaxCol(g) then []
    else
      var rest := ScanCells(g, r, c + 1);
      if PlaceholderAt(g, r, c) then [Pos(r, c)] + rest else rest
  }

  /** Every placeholder column from `c` on is scanned. */
  lemma {:induction false} ScanCellsComplete(g: Grid, r: nat, c: nat, k: nat)
    requires 1 <= c <= k <= MaxCol(g) && PlaceholderAt(g, r, k)
    ensures Pos(r, k) in ScanCells(g, r, c)
    decreases k - c
  {
    if c < k {
      ScanCellsComplete(g, r, c + 1, k);
    }
  }

  /** The placeholder cells of rows `r..max_row`, in row-major order. */
  function ScanRows(g: Grid, r: nat): (ps: seq<Pos>)
    requires r >= 1
    ensures forall i :: 0 <= i < |ps| ==> ps[i].col >= 1
    decreases MaxRow(g) + 1 - r
  {
    if r > MaxRow(g) then [] else ScanCells(g, r, 1) + ScanRows(g, r + 1)
  }

  /** Each scanned position is a placeholder cell of rows `r..max_row`. */
  lemma {:induction false} ScanRowsAt(g: Grid, r: nat, i: nat)
    requires r >= 1 && i < |ScanRows(g, r)|
    ensures var p := ScanRows(g, r)[i];
      r <= p.row <= MaxRow(g) && 1 <= p.col <= MaxCol(g) && PlaceholderAt(g, p.row, p.col)
    decreases MaxRow(g) + 1 - r
  {
    var here := ScanCells(g, r, 1);
    if i >= |here| {
      ScanRowsAt(g, r + 1, i - |here|);
      assert ScanRows(g, r)[i] == ScanRows(g, r + 1)[i - |here|] by {
        assert ScanRows(g, r) == here + ScanRows(g, r + 1);
      }
    } else {
      assert ScanRows(g, r)[i] == here[i] by {
        assert ScanRows(g, r) == here + ScanRows(g, r + 1);
      }
    }
  }

  /** Scanned positions come in row-major order. */
  lemma {:induction false} ScanRowsOrdered(g: Grid, r: nat, i: nat, j: nat)
    requires r >= 1 && i < j < |ScanRows(g, r)|
    ensures PosBefore(ScanRows(g, r)[i], ScanRows(g, r)[j])
    decreases MaxRow(g) + 1 - r
  {
    var here := ScanCells(g, r, 1);
    var rest := ScanRows(g, r + 1);
    assert ScanRows(g, r) == here + rest;
    if i >= |here| {
      ScanRowsOrdered(g, r + 1, i - |here|, j - |here|);
    } else if j >= |here| {
      ScanRowsAt(g, r + 1, j - |here|);
      assert here[i].row == r;
    } else {
      assert here[i].col < here[j].col;
    }
  }

  lemma {:induction false} ScanRowsComplete(g: Grid, r: nat, k: nat, c: nat)
    requires 1 <= r <= k <= MaxRow(g) && 1 <= c <= MaxCol(g) && PlaceholderAt(g, k, c)
    ensures Pos(k, c) in ScanRows(g, r)
    decreases k - r
  {
    if k > r {
      ScanRowsComplete(g, r + 1, k, c);
    } else {
      ScanCellsComplete(g, r, 1, c);
    }
  }

  /** `get_template_fields`: one field per placeholder cell, in row-major
      order. A template that cannot be loaded has none. */
  function GetTemplateFields(template: Option<Grid>): (fs: seq<TemplateField>)
    ensures template.None? ==> fs == []
  {
    match template
    case None => []
    case Some(g) =>
      var ps := ScanRows(g, 1);
      seq(|ps|, i requires 0 <= i < |ps| => FieldAt(g, ps[i].row, ps[i].col))
  }

  /** The fields are exactly the placeholder cells, each described by its
      own cell, in row-major order. */
  lemma TemplateFieldsExact(g: Grid)
    ensures var fs := GetTemplateFields(Some(g));
      && (forall i :: 0 <= i < |fs| ==> Describes(g, fs[i]))
      && (forall i, j :: 0 <= i < j < |fs| ==> Before(fs[i], fs[j]))
      && (forall r, c :: 1 <= r <= MaxRow(g) && 1 <= c <= MaxCol(g) && PlaceholderAt(g, r, c) ==>
            exists i :: 0 <= i < |fs| && fs[i].row == r && fs[i].col == c)
  {
    var fs := GetTemplateFields(Some(g));
    forall i | 0 <= i < |fs| ensures Describes(g, fs[i]) {
      FieldDescribed(g, i);
    }
    forall i, j | 0 <= i < j < |fs| ensures Before(fs[i], fs[j]) {
      FieldsOrdered(g, i, j);
    }
    forall r, c | 1 <= r <= MaxRow(g) && 1 <= c <= MaxCol(g) && PlaceholderAt(g, r, c)
      ensures exists i :: 0 <= i < |fs| && fs[i].row == r && fs[i].col == c
    {
      FieldFound(g, r, c);
    }
  }

  lemma FieldDescribed(g: Grid, i: nat)
    requires i < |GetTemplateFields(Some(g))|
    ensures Describes(g, GetTemplateFields(Some(g))[i])
  {
    var ps := ScanRows(g, 1);
    ScanRowsAt(g, 1, i);
    FieldAtDescribes(g, ps[i].row, ps[i].col);
  }

  lemma FieldsOrdered(g: Grid, i: nat, j: nat)
    requires i < j < |GetTemplateFields(Some(g))|
    ensures Before(GetTemplateFields(Some(g))[i], GetTemplateFields(Some(g))[j])
  {
    ScanRowsOrdered(g, 1, i, j);
  }

  lemma FieldFound(g: Grid, r: nat, c: nat)
    requires 1 <= r <= MaxRow(g) && 1 <= c <= MaxCol(g) && PlaceholderAt(g, r, c)
    ensures var fs := GetTemplateFields(Some(g));
      exists i :: 0 <= i < |fs| && fs[i].row == r && fs[i].col == c
  {
    var ps := ScanRows(g, 1);
    var fs := GetTemplateFields(Some(g));
    ScanRowsComplete(g, 1, r, c);
    var i :| 0 <= i < |ps| && ps[i] == Pos(r, c);
    assert fs[i].row == r && fs[i].col == c;
  }

  // ---------------------------------------------------------------------------
  // `create_report_from_template` (excel_handler.py:56-107)

  /** A value of the report's data dictionary: a field's text, or the list of
      signature rows stored under "signatures". */
  datatype DataValue = Text(s: string) | SignatureList(sigs: seq<Signatures.Signature>)

  /** The `data` argument: a dictionary, or anything else. */
  datatype Payload = NotDict | Dict(entries: map<string, DataValue>)

  const SIGNATURES_KEY := "signatures"
  const SIGNATURES_HEADING := "Signatures:"

  /** The name a placeholder cell would be filled under, if any, read from
      the plain load. */
  function Slot(c: Cell): Option<string>
  {
    if IsPlaceholder(FillText(c)) then Some(FieldName(FillText(c))) else None
  }

  /** Assigning a list to a cell raises: openpyxl cannot store it. */
  predicate CellRaises(c: Cell, data: map<string, DataValue>)
  {
    Slot(c).Some? && Slot(c).value in data && data[Slot(c).value].SignatureList?
  }

  function FilledCell(c: Cell, data: map<string, DataValue>): Cell
  {
    if Slot(c).Some? && Slot(c).value in data && data[Slot(c).value].Text?
    then TextCell(data[Slot(c).value].s)
    else c
  }

  predicate FillRaises(g: Grid, data: map<string, DataValue>)
  {
    exists i, j :: 0 <= i < |g| && 0 <= j < |g[i]| && CellRaises(g[i][j], data)
  }

  /** The loop of lines 75-86. */
  function FillCells(g: Grid, data: map<string, DataValue>): (r: Grid)
    ensures |r| == |g| && forall i :: 0 <= i < |g| ==> |r[i]| == |g[i]|
    ensures forall i, j :: 0 <= i < |g| && 0 <= j < |g[i]| ==> r[i][j] == FilledCell(g[i][j], data)
  {
    seq(|g|, i requires 0 <= i < |g| => seq(|g[i]|, j requires 0 <= j < |g[i]| => FilledCell(g[i][j], data)))
  }

  /** The rows of lines 89-100: a blank row, the heading, then one row per
      signature (`role:`, name, timestamp). */
  function SignatureBlock(sigs: seq<Signatures.Signature>): (b: Grid)
    ensures |b| == |sigs| + 2 && b[0] == [] && b[1] == [TextCell(SIGNATURES_HEADING)]
    ensures forall i :: 0 <= i < |sigs| ==>
      b[i + 2] == [TextCell(sigs[i].role + ":"), TextCell(sigs[i].name), TextCell(sigs[i].timestamp)]
  {
    [[], [TextCell(SIGNATURES_HEADING)]] +
    seq(|sigs|, i requires 0 <= i < |sigs| =>
          [TextCell(sigs[i].role + ":"), TextCell(sigs[i].name), TextCell(sigs[i].timestamp)])
  }

  /** The sheet grown to its `max_row` rows. */
  function Pad(g: Grid): (p: Grid)
    ensures |p| == MaxRow(g)
    ensures forall r, c :: At(p, r, c) == At(g, r, c)
  {
    if |g| == 0 then [[]] else g
  }

  /** `create_report_from_template`: `None` stands for `False`, otherwise the
      saved sheet. A non-dictionary is refused before anything is loaded; a
      list stored in a placeholder cell, or a non-empty string under
      "signatures" (iterating it fails on `sig['role']`), raises and nothing
      is saved. */
  function CreateReportFromTemplate(template: Option<Grid>, data: Payload, saveOk: bool): (r: Option<Grid>)
    ensures data.NotDict? || template.None? || !saveOk ==> r.None?
    ensures data.Dict? && template.Some? && FillRaises(template.value, data.entries) ==> r.None?
  {
    match data
    case NotDict => None
    case Dict(entries) =>
      match template
      case None => None
      case Some(g) =>
        if FillRaises(g, entries) then None
        else
          var filled := FillCells(g, entries);
          var sheet :=
            if SIGNATURES_KEY !in entries then Some(filled)
            else match entries[SIGNATURES_KEY]
              case SignatureList(sigs) => Some(Pad(filled) + SignatureBlock(sigs))
              case Text(s) => if s == "" then Some(Pad(filled) + SignatureBlock([])) else None;
          if sheet.Some? && saveOk then sheet else None
  }

  /** What a fill does to the template's own cells: a placeholder (in the
      plain load) whose name is a text entry of the data takes that text;
      every other cell, unknown placeholders included, is kept as it was. */
  lemma FillKeepsOrReplaces(g: Grid, data: map<string, DataValue>, r: nat, c: nat)
    requires 1 <= r <= |g| && 1 <= c <= |g[r - 1]|
    requires CreateReportFromTemplate(Some(g), Dict(data), true).Some?
    ensures var out := CreateReportFromTemplate(Some(g), Dict(data), true).value;
      if Slot(At(g, r, c)).Some? && Slot(At(g, r, c)).value in data
      then data[Slot(At(g, r, c)).value].Text? && At(out, r, c) == TextCell(data[Slot(At(g, r, c)).value].s)
      else At(out, r, c) == At(g, r, c)
  {
    var out := CreateReportFromTemplate(Some(g), Dict(data), true).value;
    var filled := FillCells(g, data);
    assert !CellRaises(g[r - 1][c - 1], data);
    assert out[..|Pad(filled)|] == Pad(filled);
    assert At(out, r, c) == At(filled, r, c);
  }

  /** Scan and fill agree away from formulas: a constant cell a fill changes
      is a placeholder cell the scan reports, under the same name. A formula
      cell is read differently by the two (see `FormulaFilledUnscanned`). */
  lemma FillChangesOnlyScannedFields(g: Grid, data: map<string, DataValue>, r: nat, c: nat)
    requires 1 <= r <= |g| && 1 <= c <= |g[r - 1]|
    requires CreateReportFromTemplate(Some(g), Dict(data), true).Some?
    requires At(CreateReportFromTemplate(Some(g), Dict(data), true).value, r, c) != At(g, r, c)
    ensures Slot(At(g, r, c)).Some? && Slot(At(g, r, c)).value in data
    ensures !At(g, r, c).Formula? ==>
      exists i :: 0 <= i < |GetTemplateFields(Some(g))| && GetTemplateFields(Some(g))[i].row == r &&
                  GetTemplateFields(Some(g))[i].col == c && GetTemplateFields(Some(g))[i].name in data
  {
    FillKeepsOrReplaces(g, data, r, c);
    if !At(g, r, c).Formula? {
      LoadsAgree(At(g, r, c));
      assert c <= MaxCol(g) && r <= MaxRow(g);
      FieldFound(g, r, c);
      var fs := GetTemplateFields(Some(g));
      var i :| 0 <= i < |fs| && fs[i].row == r && fs[i].col == c;
      FieldDescribed(g, i);
    }
  }

  /** The signature block sits two rows below the template's last row: the
      heading there, then the signatures in list order. */
  lemma SignatureBlockPlacement(g: Grid, data: map<string, DataValue>, sigs: seq<Signatures.Signature>)
    requires SIGNATURES_KEY in data && data[SIGNATURES_KEY] == SignatureList(sigs)
    requires CreateReportFromTemplate(Some(g), Dict(data), true).Some?
    ensures var out := CreateReportFromTemplate(Some(g), Dict(data), true).value;
      && MaxRow(out) == MaxRow(g) + 2 + |sigs|
      && At(out, MaxRow(g) + 1, 1) == Blank
      && At(out, MaxRow(g) + 2, 1) == TextCell(SIGNATURES_HEADING)
      && forall i :: 0 <= i < |sigs| ==>
           && At(out, MaxRow(g) + 3 + i, 1) == TextCell(sigs[i].role + ":")
           && At(out, MaxRow(g) + 3 + i, 2) == TextCell(sigs[i].name)
           && At(out, MaxRow(g) + 3 + i, 3) == TextCell(sigs[i].timestamp)
  {
    var filled := FillCells(g, data);
    var out := CreateReportFromTemplate(Some(g), Dict(data), true).value;
    assert out == Pad(filled) + SignatureBlock(sigs);
    assert MaxRow(filled) == MaxRow(g);
    forall i | 0 <= i < |sigs|
      ensures At(out, MaxRow(g) + 3 + i, 1) == TextCell(sigs[i].role + ":")
      ensures At(out, MaxRow(g) + 3 + i, 2) == TextCell(sigs[i].name)
      ensures At(out, MaxRow(g) + 3 + i, 3) == TextCell(sigs[i].timestamp)
    {
      BlockRowAt(Pad(filled), sigs, i);
    }
  }

  lemma BlockRowAt(top: Grid, sigs: seq<Signatures.Signature>, i: nat)
    requires i < |sigs|
    ensures var out := top + SignatureBlock(sigs);
      && At(out, |top| + 3 + i, 1) == TextCell(sigs[i].role + ":")
      && At(out, |top| + 3 + i, 2) == TextCell(sigs[i].name)
      && At(out, |top| + 3 + i, 3) == TextCell(sigs[i].timestamp)
  {
    assert (top + SignatureBlock(sigs))[|top| + 2 + i] == SignatureBlock(sigs)[i + 2];
  }

  /** Without a "signatures" entry and without any known placeholder, the
      saved sheet is the template. */
  lemma FillWithoutMatchesIsIdentity(g: Grid, data: map<string, DataValue>)
    requires SIGNATURES_KEY !in data
    requires forall i, j :: 0 <= i < |g| && 0 <= j < |g[i]| && Slot(g[i][j]).Some? ==> Slot(g[i][j]).value !in data
    ensures CreateReportFromTemplate(Some(g), Dict(data), true) == Some(g)
  {
    var f := FillCells(g, data);
    forall i | 0 <= i < |g| ensures f[i] == g[i] {
      assert forall j :: 0 <= j < |g[i]| ==> f[i][j] == g[i][j];
    }
    assert f == g;
  }

  // ---------------------------------------------------------------------------
  // `get_template_preview` (excel_handler.py:109-127)

  function PreviewRow(g: Grid, r: nat): (row: seq<string>)
    ensures |row| == MaxCol(g)
    ensures forall c :: 0 <= c < MaxCol(g) ==> row[c] == PreviewText(At(g, r, c + 1))
  {
    seq(MaxCol(g), c requires 0 <= c < MaxCol(g) => PreviewText(At(g, r, c + 1)))
  }

  /** The first `min(max_rows, max_row)` rows, each `max_column` texts long. */
  function GetTemplatePreview(template: Option<Grid>, maxRows: int): (p: seq<seq<string>>)
    ensures template.None? ==> p == []
    ensures template.Some? ==>
      |p| == (if maxRows <= 0 then 0 else if maxRows < MaxRow(template.value) then maxRows else MaxRow(template.value))
    ensures template.Some? ==> forall r :: 0 <= r < |p| ==> p[r] == PreviewRow(template.value, r + 1)
  {
    match template
    case None => []
    case Some(g) =>
      var n := if maxRows <= 0 then 0 else if maxRows < MaxRow(g) then maxRows else MaxRow(g);
      seq(n, r requires 0 <= r < n => PreviewRow(g, r + 1))
  }

  /** A scanned placeholder in the previewed rows shows its own text there. */
  lemma PreviewShowsPlaceholders(g: Grid, maxRows: int, f: TemplateField)
    requires f in GetTemplateFields(Some(g)) && f.row <= maxRows
    ensures var p := GetTemplatePreview(Some(g), maxRows);
      1 <= f.row <= |p| && 1 <= f.col <= |p[f.row - 1]| && IsPlaceholder(p[f.row - 1][f.col - 1])
  {
    var fs := GetTemplateFields(Some(g));
    var i :| 0 <= i < |fs| && fs[i] == f;
    FieldDescribed(g, i);
    var p := GetTemplatePreview(Some(g), maxRows);
    assert p[f.row - 1] == PreviewRow(g, f.row);
    assert p[f.row - 1][f.col - 1] == PreviewText(At(g, f.row, f.col));
  }

  // ---------------------------------------------------------------------------
  // Test vectors from utils/create_sample_template.py

  /** The placeholder text the sample template writes for an item (line 68). */
  function PlannedCell(base: string): string
  {
    OPEN + "planned_" + base + CLOSE
  }

  /** The variance cell of line 70: a formula holding two placeholders. */
  function VarianceCell(base: string): string
  {
    "=" + OPEN + "actual_" + base + CLOSE + " - " + OPEN + "planned_" + base + CLOSE
  }

  lemma VarianceFirstPass(base: string)
    requires '{' !in base && '}' !in base
    ensures RemoveAll(VarianceCell(base), OPEN) == "=" + ("actual_" + base + CLOSE + " - " + ("planned_" + base + CLOSE))
  {
    var a1, a2, a3 := "=", "actual_" + base + CLOSE + " - ", "planned_" + base + CLOSE;
    assert VarianceCell(base) == a1 + (OPEN + (a2 + (OPEN + a3)));
    assert '{' !in a1 && '{' !in a2 && '{' !in a3;
    RemoveAllTwice(a1, a2, a3, OPEN);
  }

  lemma VarianceSecondShape(base: string)
    ensures "=" + ("actual_" + base + CLOSE + " - " + ("planned_" + base + CLOSE)) ==
            ("=actual_" + base) + (CLOSE + ((" - planned_" + base) + (CLOSE + [])))
  {
  }

  lemma VarianceSecondPass(base: string)
    requires '{' !in base && '}' !in base
    ensures RemoveAll("=" + ("actual_" + base + CLOSE + " - " + ("planned_" + base + CLOSE)), CLOSE) ==
            "=actual_" + base + " - planned_" + base
  {
    var b1, b2 := "=actual_" + base, " - planned_" + base;
    VarianceSecondShape(base);
    assert '}' !in b1 && '}' !in b2;
    RemoveAllTwice(b1, b2, [], CLOSE);
    assert b2 + [] == b2;
  }

  /** The variance cell is one placeholder whose name keeps the `=` and the
      minus sign: both `actual_x` and `planned_x` vanish into a single field. */
  lemma VarianceCellName(base: string)
    requires '{' !in base && '}' !in base
    requires |base| > 0 && !IsSpace(base[|base| - 1])
    ensures IsPlaceholder(VarianceCell(base))
    ensures FieldName(VarianceCell(base)) == "=actual_" + base + " - planned_" + base
  {
    VarianceIsPlaceholder(base);
    VarianceFieldName(base);
  }

  lemma VarianceIsPlaceholder(base: string)
    ensures IsPlaceholder(VarianceCell(base))
  {
    assert Contains(VarianceCell(base), OPEN) by {
      ContainsOfConcat("=", OPEN, "actual_" + base + CLOSE + " - " + OPEN + "planned_" + base + CLOSE);
      assert VarianceCell(base) == "=" + OPEN + ("actual_" + base + CLOSE + " - " + OPEN + "planned_" + base + CLOSE);
    }
    ContainsOfConcat("=" + OPEN + "actual_" + base, CLOSE, " - " + OPEN + "planned_" + base + CLOSE);
    assert VarianceCell(base) == "=" + OPEN + "actual_" + base + CLOSE + (" - " + OPEN + "planned_" + base + CLOSE);
  }

  lemma VarianceFieldName(base: string)
    requires '{' !in base && '}' !in base
    requires |base| > 0 && !IsSpace(base[|base| - 1])
    ensures FieldName(VarianceCell(base)) == "=actual_" + base + " - planned_" + base
  {
    var name := "=actual_" + base + " - planned_" + base;
    assert RemoveAll(RemoveAll(VarianceCell(base), OPEN), CLOSE) == name by {
      VarianceFirstPass(base);
      VarianceSecondPass(base);
    }
    assert name[|name| - 1] == base[|base| - 1];
    StripUnpadded(name);
  }

  /** For "Product A" (base `product_a`): line 70 stores the variance cell as
      a formula with no cached result, so the scan's `data_only` load sees an
      empty cell and declares no field there, while the fill's plain load
      reads a placeholder named "=actual_product_a - planned_product_a";
      data without that exact key leaves the formula as it was. */
  lemma VarianceCellVector(data: map<string, DataValue>)
    ensures TextCell(VarianceCell("product_a")) == Formula(VarianceCell("product_a"), None)
    ensures !IsPlaceholder(ScanText(TextCell(VarianceCell("product_a"))))
    ensures Slot(TextCell(VarianceCell("product_a"))) == Some("=actual_product_a - planned_product_a")
    ensures "=actual_product_a - planned_product_a" !in data ==>
      FilledCell(TextCell(VarianceCell("product_a")), data) == TextCell(VarianceCell("product_a"))
  {
    ProductAIsPlain();
    VarianceCellName("product_a");
    ProductAVarianceName();
    assert VarianceCell("product_a")[0] == '=';
    NothingIsNoPlaceholder();
  }

  lemma NothingIsNoPlaceholder()
    ensures !IsPlaceholder("")
  {
    assert !Contains("", OPEN);
  }

  lemma ProductAIsPlain()
    ensures '{' !in "product_a" && '}' !in "product_a" && !IsSpace("product_a"[8])
  {
  }

  lemma ProductAVarianceName()
    ensures "=actual_" + "product_a" + " - planned_" + "product_a" == "=actual_product_a - planned_product_a"
  {
  }

  /** The one-cell sheet holding the sample's variance formula. */
  function VarianceSheet(): Grid
  {
    [[TextCell(VarianceCell("product_a"))]]
  }

  /** Hence a one-cell sheet holding the sample's variance formula has no
      template fields, yet a fill keyed by the formula's name rewrites it. */
  lemma FormulaFilledUnscanned()
    ensures GetTemplateFields(Some(VarianceSheet())) == []
    ensures CreateReportFromTemplate(Some(VarianceSheet()), Dict(map["=actual_product_a - planned_product_a" := Text("5")]), true)
            == Some([[Value("5", true)]])
  {
    VarianceSheetUnscanned();
    VarianceSheetFilled();
  }

  lemma VarianceSheetUnscanned()
    ensures GetTemplateFields(Some(VarianceSheet())) == []
  {
    var g := VarianceSheet();
    VarianceCellVector(map[]);
    assert Width(g) == 1;
    assert !PlaceholderAt(g, 1, 1);
    assert ScanCells(g, 1, 2) == [];
    assert ScanRows(g, 2) == [];
  }

  lemma VarianceSheetFilled()
    ensures CreateReportFromTemplate(Some(VarianceSheet()), Dict(map["=actual_product_a - planned_product_a" := Text("5")]), true)
            == Some([[Value("5", true)]])
  {
    var g := VarianceSheet();
    var data := map["=actual_product_a - planned_product_a" := Text("5")];
    VarianceCellFilled(data);
    assert !FillRaises(g, data);
    var f := FillCells(g, data);
    assert g[0][0] == TextCell(VarianceCell("product_a"));
    assert f[0] == [Value("5", true)] by {
      assert |f[0]| == 1 && f[0][0] == FilledCell(g[0][0], data);
    }
    assert f == [[Value("5", true)]];
    assert SIGNATURES_KEY !in data;
  }

  lemma VarianceCellFilled(data: map<string, DataValue>)
    requires data == map["=actual_product_a - planned_product_a" := Text("5")]
    ensures !CellRaises(TextCell(VarianceCell("product_a")), data)
    ensures FilledCell(TextCell(VarianceCell("product_a")), data) == Value("5", true)
  {
    VarianceCellVector(data);
  }

  /** A cell holding just `{{name}}`, for a name without braces or outer
      whitespace, declares the field `name`. */
  lemma SimpleCellName(name: string)
    requires '{' !in name && '}' !in name
    requires |name| > 0 && !IsSpace(name[0]) && !IsSpace(name[|name| - 1])
    ensures IsPlaceholder(OPEN + name + CLOSE)
    ensures FieldName(OPEN + name + CLOSE) == name
  {
    ContainsOfConcat([], OPEN, name + CLOSE);
    assert [] + OPEN + (name + CLOSE) == OPEN + name + CLOSE;
    ContainsOfConcat(OPEN + name, CLOSE, []);
    assert OPEN + name + CLOSE + [] == OPEN + name + CLOSE;
    assert OPEN + name + CLOSE == OPEN + (name + CLOSE);
    RemoveAllDrop(name + CLOSE, OPEN);
    RemoveAllSkip(CLOSE, [], OPEN);
    assert CLOSE + [] == CLOSE;
    RemoveAllSkip(name, CLOSE, OPEN);
    RemoveAllDrop([], CLOSE);
    RemoveAllSkip(name, CLOSE + [], CLOSE);
    assert name + [] == name;
    StripUnpadded(name);
  }

  /** `{{date}}` (line 39) is the date field "date". */
  lemma DateCellVector()
    ensures FieldName(OPEN + "date" + CLOSE) == "date" && FieldType("date") == DATE
  {
    SimpleCellName("date");
    DateIsDateType();
  }

  lemma DateIsDateType()
    ensures FieldType("date") == DATE
  {
    assert Lower("date") == "date";
    assert StartsWith("date", "date");
  }

  /** `{{planned_product_a}}` (line 68) is the text field "planned_product_a". */
  lemma PlannedCellVector()
    ensures FieldName(PlannedCell("product_a")) == "planned_product_a"
  {
    assert PlannedCell("product_a") == OPEN + "planned_product_a" + CLOSE;
    SimpleCellName("planned_product_a");
  }
}

=== FILE: signatures.dfy ===
/**
 The signature block of a generated report (pdf/pdf_generator.py:42-82, the
 same in installer/pdf/pdf_generator.py). The approval logs of a report, in
 the order `get_report` returns them, are folded into two insertion-ordered
 dictionaries: the latest `submit`/`approve_leader` log per actor name, and
 the latest `approve_admin` log per key "admin:<name>". The admin entries are
 then written over the first dictionary under the plain name, and the values
 are sorted stably by timestamp.

 Python dictionaries are modelled as lists of entries in insertion order:
 writing an existing key replaces the value in place, writing a new key
 appends it. Timestamps are shown as stored: the conversion to local time is
 not part of this model.
 */
module Signatures {
  import opened Common
  import opened Store

  const PREPARED_BY := "Prepared By"
  const VERIFIED_BY := "Verified By"
  const APPROVED_BY := "Approved By"
  const SIGNED_BY := "Signed By"
  const ADMIN_PREFIX := "admin:"

  /** `role_map.get(action)`. */
  function RoleOf(action: string): (r: Option<string>)
    ensures r.Some? <==> action == SUBMIT || action == APPROVE_LEADER || action == APPROVE_ADMIN
  {
    if action == SUBMIT then Some(PREPARED_BY)
    else if action == APPROVE_LEADER then Some(VERIFIED_BY)
    else if action == APPROVE_ADMIN then Some(APPROVED_BY)
    else None
  }

  predicate IsAdminApproval(v: LogView)
  {
    v.log.action == APPROVE_ADMIN
  }

  /** The `elif` branch: an action of the role map other than `approve_admin`. */
  predicate IsOtherRole(v: LogView)
  {
    v.log.action == SUBMIT || v.log.action == APPROVE_LEADER
  }

  function NameKey(v: LogView): string
  {
    v.actorName
  }

  function AdminKey(v: LogView): string
  {
    ADMIN_PREFIX + v.actorName
  }

  lemma AdminKeyInjective(a: string, b: string)
    ensures ADMIN_PREFIX + a == ADMIN_PREFIX + b <==> a == b
  {
    if ADMIN_PREFIX + a == ADMIN_PREFIX + b {
      assert (ADMIN_PREFIX + a)[|ADMIN_PREFIX|..] == a;
      assert (ADMIN_PREFIX + b)[|ADMIN_PREFIX|..] == b;
    }
  }

  // ---------------------------------------------------------------------------
  // Insertion-ordered dictionaries

  datatype Entry = Entry(key: string, log: LogView)

  type Dict = seq<Entry>

  predicate HasKey(d: Dict, k: string)
  {
    exists i :: 0 <= i < |d| && d[i].key == k
  }

  ghost predicate DistinctKeys(d: Dict)
  {
    forall i, j :: 0 <= i < j < |d| ==> d[i].key != d[j].key
  }

  /** `d.get(k)`. */
  function Get(d: Dict, k: string): (r: Option<LogView>)
    ensures r.Some? <==> HasKey(d, k)
    ensures r.Some? ==> exists i :: 0 <= i < |d| && d[i] == Entry(k, r.value)
  {
    if |d| == 0 then None
    else if d[|d| - 1].key == k then Some(d[|d| - 1].log)
    else
      assert forall i :: 0 <= i < |d| - 1 ==> d[..|d| - 1][i] == d[i];
      Get(d[..|d| - 1], k)
  }

  /** With distinct keys, the entry holding a key is the one `Get` finds. */
  lemma GetDistinct(d: Dict, i: nat)
    requires DistinctKeys(d) && i < |d|
    ensures Get(d, d[i].key) == Some(d[i].log)
  {
  }

  /** Every entry whose key is `k` gets the value `v`; positions are kept. */
  function Replace(d: Dict, k: string, v: LogView): (r: Dict)
    ensures |r| == |d|
    ensures forall i :: 0 <= i < |d| ==> r[i] == (if d[i].key == k then Entry(k, v) else d[i])
  {
    if |d| == 0 then []
    else Replace(d[..|d| - 1], k, v) + [if d[|d| - 1].key == k then Entry(k, v) else d[|d| - 1]]
  }

  /** `d[k] = v`: in place when `k` is present, appended otherwise. */
  function Put(d: Dict, k: string, v: LogView): (r: Dict)
    ensures |r| == if HasKey(d, k) then |d| else |d| + 1
    ensures forall i :: 0 <= i < |d| ==> r[i].key == d[i].key
    ensures forall i :: 0 <= i < |r| ==> r[i] == Entry(k, v) || (i < |d| && r[i] == d[i] && d[i].key != k)
    ensures DistinctKeys(d) ==> DistinctKeys(r)
  {
    if HasKey(d, k) then Replace(d, k, v) else d + [Entry(k, v)]
  }

  lemma HasKeyInit(d: Dict, k: string)
    requires |d| > 0
    ensures HasKey(d, k) <==> HasKey(d[..|d| - 1], k) || d[|d| - 1].key == k
  {
    var init := d[..|d| - 1];
    if HasKey(d, k) && d[|d| - 1].key != k {
      var i :| 0 <= i < |d| && d[i].key == k;
      assert init[i].key == k;
    }
    if HasKey(init, k) {
      var i :| 0 <= i < |init| && init[i].key == k;
      assert d[i].key == k;
    }
  }

  lemma {:induction false} GetReplace(d: Dict, k: string, v: LogView, k2: string)
    ensures Get(Replace(d, k, v), k2) == if k2 == k && HasKey(d, k) then Some(v) else Get(d, k2)
  {
    if |d| > 0 {
      var init := d[..|d| - 1];
      var last := d[|d| - 1];
      var r := Replace(d, k, v);
      GetReplace(init, k, v, k2);
      HasKeyInit(d, k);
      assert r == Replace(init, k, v) + [if last.key == k then Entry(k, v) else last];
      assert r[..|r| - 1] == Replace(init, k, v);
      assert Get(r, k2) == if r[|r| - 1].key == k2 then Some(r[|r| - 1].log) else Get(Replace(init, k, v), k2);
      assert Get(d, k2) == if last.key == k2 then Some(last.log) else Get(init, k2);
    }
  }

  /** Reading after writing: the dictionary law for `Put`. */
  lemma GetPut(d: Dict, k: string, v: LogView, k2: string)
    ensures Get(Put(d, k, v), k2) == if k2 == k then Some(v) else Get(d, k2)
  {
    if HasKey(d, k) {
      GetReplace(d, k, v, k2);
    } else {
      var r := d + [Entry(k, v)];
      assert r[..|r| - 1] == d;
    }
  }

  function Values(d: Dict): (r: seq<LogView>)
    ensures |r| == |d| && forall i :: 0 <= i < |d| ==> r[i] == d[i].log
  {
    seq(|d|, i requires 0 <= i < |d| => d[i].log)
  }

  // ---------------------------------------------------------------------------
  // The folds of lines 50-60

  /** The loop of lines 50-57, one dictionary at a time: every log selected by
      `sel` is written under `keyOf(log)`. The two dictionaries receive
      disjoint sets of logs, so filling them in one pass or in two is the same. */
  function Collect(logs: seq<LogView>, sel: LogView -> bool, keyOf: LogView -> string): (d: Dict)
    ensures DistinctKeys(d)
    ensures forall i :: 0 <= i < |d| ==> d[i].key == keyOf(d[i].log) && sel(d[i].log)
  {
    if |logs| == 0 then []
    else
      var d := Collect(logs[..|logs| - 1], sel, keyOf);
      var v := logs[|logs| - 1];
      if sel(v) then Put(d, keyOf(v), v) else d
  }

  /** The loop of lines 59-60: every admin entry is written under the actor's
      plain name, in the admin dictionary's order. */
  function Merge(d: Dict, admins: Dict): (r: Dict)
    requires DistinctKeys(d) && forall i :: 0 <= i < |d| ==> d[i].key == d[i].log.actorName
    ensures DistinctKeys(r) && forall i :: 0 <= i < |r| ==> r[i].key == r[i].log.actorName
  {
    if |admins| == 0 then d
    else
      var a := admins[|admins| - 1];
      Put(Merge(d, admins[..|admins| - 1]), a.log.actorName, a.log)
  }

  /** The signer dictionary `latest_log_per_user` after line 60. */
  function Signers(logs: seq<LogView>): (d: Dict)
    ensures DistinctKeys(d) && forall i :: 0 <= i < |d| ==> d[i].key == d[i].log.actorName
  {
    Merge(Collect(logs, IsOtherRole, NameKey), Collect(logs, IsAdminApproval, AdminKey))
  }

  /** `sorted_logs` (line 62): the signer logs, stably sorted by timestamp. */
  function SignatureLogs(logs: seq<LogView>): (r: seq<LogView>)
    ensures SortedBy(r, LogTime)
    ensures multiset(r) == multiset(Values(Signers(logs)))
  {
    SortBySorted(Values(Signers(logs)), LogTime);
    SortBy(Values(Signers(logs)), LogTime)
  }

  // ---------------------------------------------------------------------------
  // The reference: which log signs for an actor

  /** The last log of `logs` that `sel` keeps and whose key is `k`. */
  function LastWhere(logs: seq<LogView>, sel: LogView -> bool, keyOf: LogView -> string, k: string): (r: Option<LogView>)
    ensures r.Some? ==> exists i :: 0 <= i < |logs| && logs[i] == r.value && sel(logs[i]) && keyOf(logs[i]) == k &&
                                     forall j :: i < j < |logs| ==> !(sel(logs[j]) && keyOf(logs[j]) == k)
    ensures r.None? <==> forall i :: 0 <= i < |logs| ==> !(sel(logs[i]) && keyOf(logs[i]) == k)
  {
    if |logs| == 0 then None
    else
      var v := logs[|logs| - 1];
      if sel(v) && keyOf(v) == k then Some(v)
      else
        assert forall i :: 0 <= i < |logs| - 1 ==> logs[..|logs| - 1][i] == logs[i];
        LastWhere(logs[..|logs| - 1], sel, keyOf, k)
  }

  /** The log that signs for `name`: the actor's last `approve_admin` log if
      there is one, otherwise their last `submit` or `approve_leader` log. */
  function Chosen(logs: seq<LogView>, name: string): Option<LogView>
  {
    var admin := LastWhere(logs, IsAdminApproval, NameKey, name);
    if admin.Some? then admin else LastWhere(logs, IsOtherRole, NameKey, name)
  }

  lemma {:induction false} CollectGet(logs: seq<LogView>, sel: LogView -> bool, keyOf: LogView -> string, k: string)
    ensures Get(Collect(logs, sel, keyOf), k) == LastWhere(logs, sel, keyOf, k)
  {
    if |logs| > 0 {
      var init := logs[..|logs| - 1];
      var v := logs[|logs| - 1];
      CollectGet(init, sel, keyOf, k);
      if sel(v) {
        GetPut(Collect(init, sel, keyOf), keyOf(v), v, k);
      }
    }
  }

  lemma {:induction false} LastWhereAdminKey(logs: seq<LogView>, name: string)
    ensures LastWhere(logs, IsAdminApproval, AdminKey, ADMIN_PREFIX + name) ==
            LastWhere(logs, IsAdminApproval, NameKey, name)
  {
    if |logs| > 0 {
      AdminKeyInjective(logs[|logs| - 1].actorName, name);
      LastWhereAdminKey(logs[..|logs| - 1], name);
    }
  }

  lemma {:induction false} MergeGet(d: Dict, admins: Dict, name: string)
    requires DistinctKeys(d) && forall i :: 0 <= i < |d| ==> d[i].key == d[i].log.actorName
    requires forall i :: 0 <= i < |admins| ==> admins[i].key == AdminKey(admins[i].log)
    ensures Get(Merge(d, admins), name) ==
            if HasKey(admins, ADMIN_PREFIX + name) then Get(admins, ADMIN_PREFIX + name) else Get(d, name)
  {
    if |admins| > 0 {
      var init := admins[..|admins| - 1];
      var a := admins[|admins| - 1];
      MergeGet(d, init, name);
      GetPut(Merge(d, init), a.log.actorName, a.log, name);
      AdminKeyInjective(a.log.actorName, name);
      HasKeyInit(admins, ADMIN_PREFIX + name);
      assert Get(admins, ADMIN_PREFIX + name) ==
        if a.key == ADMIN_PREFIX + name then Some(a.log) else Get(init, ADMIN_PREFIX + name);
    }
  }

  /** The dictionary of lines 48-60 holds, under each name, exactly the log
      `Chosen` picks. */
  lemma SignersChosen(logs: seq<LogView>, name: string)
    ensures Get(Signers(logs), name) == Chosen(logs, name)
  {
    var latest := Collect(logs, IsOtherRole, NameKey);
    var admins := Collect(logs, IsAdminApproval, AdminKey);
    MergeGet(latest, admins, name);
    CollectGet(logs, IsOtherRole, NameKey, name);
    CollectGet(logs, IsAdminApproval, AdminKey, ADMIN_PREFIX + name);
    LastWhereAdminKey(logs, name);
  }

  /** A log is in the signature list iff it is the one chosen for its actor. */
  lemma SignatureLogsIff(logs: seq<LogView>, v: LogView)
    ensures v in SignatureLogs(logs) <==> Chosen(logs, v.actorName) == Some(v)
  {
    var d := Signers(logs);
    SignersChosen(logs, v.actorName);
    calc <==> {
      v in SignatureLogs(logs);
      v in multiset(SignatureLogs(logs));
      v in multiset(Values(d));
      v in Values(d);
    }
    if v in Values(d) {
      var i :| 0 <= i < |d| && d[i].log == v;
      GetDistinct(d, i);
    }
    if Chosen(logs, v.actorName) == Some(v) {
      var i :| 0 <= i < |d| && d[i] == Entry(v.actorName, v);
      assert Values(d)[i] == v;
    }
  }

  lemma ChosenFacts(logs: seq<LogView>, name: string)
    ensures Chosen(logs, name).Some? ==>
      var v := Chosen(logs, name).value;
      v in logs && v.actorName == name && RoleOf(v.log.action).Some?
    ensures Chosen(logs, name).Some? && IsAdminApproval(Chosen(logs, name).value) <==>
      exists i :: 0 <= i < |logs| && IsAdminApproval(logs[i]) && logs[i].actorName == name
    ensures Chosen(logs, name).None? <==>
      forall i :: 0 <= i < |logs| && logs[i].actorName == name ==> RoleOf(logs[i].log.action).None?
  {
    var admin := LastWhere(logs, IsAdminApproval, NameKey, name);
    var other := LastWhere(logs, IsOtherRole, NameKey, name);
    if admin.None? && other.Some? {
      assert !IsAdminApproval(other.value);
    }
  }

  /** When the logs are timestamp-ascending, as `get_report` returns them, the
      chosen log is the actor's most recent one of its kind. */
  lemma ChosenIsLatest(logs: seq<LogView>, name: string, j: nat)
    requires SortedBy(logs, LogTime)
    requires j < |logs| && logs[j].actorName == name
    requires Chosen(logs, name).Some?
    requires IsAdminApproval(logs[j]) || (IsOtherRole(logs[j]) && !IsAdminApproval(Chosen(logs, name).value))
    ensures LexLe(LogTime(logs[j]), LogTime(Chosen(logs, name).value))
  {
    var admin := LastWhere(logs, IsAdminApproval, NameKey, name);
    var v := Chosen(logs, name).value;
    var sel := if admin.Some? then IsAdminApproval else IsOtherRole;
    var i :| 0 <= i < |logs| && logs[i] == v && sel(logs[i]) && NameKey(logs[i]) == name &&
             forall k :: i < k < |logs| ==> !(sel(logs[k]) && NameKey(logs[k]) == name);
    if j == i {
      LexLeRefl(LogTime(v));
    }
  }

  /** Distinct log rows have distinct actors. */
  lemma SignatureLogsDistinct(logs: seq<LogView>)
    ensures NoDup(SignatureLogs(logs))
    ensures forall i, j :: 0 <= i < j < |SignatureLogs(logs)| ==>
      SignatureLogs(logs)[i].actorName != SignatureLogs(logs)[j].actorName
  {
    var d := Signers(logs);
    var vs := Values(d);
    var r := SignatureLogs(logs);
    assert NoDup(vs) by {
      forall i, j | 0 <= i < j < |vs| ensures vs[i] != vs[j] {
        assert d[i].key != d[j].key;
      }
    }
    NoDupPerm(vs, r);
    forall i, j | 0 <= i < j < |r| ensures r[i].actorName != r[j].actorName {
      SignatureLogsIff(logs, r[i]);
      SignatureLogsIff(logs, r[j]);
    }
  }

  // ---------------------------------------------------------------------------
  // Signature rows (lines 63-82)

  datatype Signature = Signature(role: string, name: string, empCode: string, timestamp: Stamp)

  /** `user.get('emp_code', '')`, or "" when the user lookup fails. */
  function EmpCode(s: Store, actor: Id): (r: string)
    ensures GetUserById(s, actor).Some? ==> r == GetUserById(s, actor).value.empCode
    ensures GetUserById(s, actor).None? ==> r == ""
  {
    match GetUserById(s, actor)
    case Some(u) => u.empCode
    case None => ""
  }

  function RoleLabel(action: string): string
  {
    match RoleOf(action)
    case Some(role) => role
    case None => SIGNED_BY
  }

  function Row(s: Store, v: LogView): Signature
  {
    Signature(RoleLabel(v.log.action), v.actorName, EmpCode(s, v.log.actor), v.log.timestamp)
  }

  function Rows(s: Store, vs: seq<LogView>): (r: seq<Signature>)
    ensures |r| == |vs| && forall i :: 0 <= i < |vs| ==> r[i] == Row(s, vs[i])
  {
    if |vs| == 0 then [] else [Row(s, vs[0])] + Rows(s, vs[1..])
  }

  /** `fields_data['signatures']`. */
  function BuildSignatures(s: Store, logs: seq<LogView>): (r: seq<Signature>)
    ensures |r| == |SignatureLogs(logs)|
    ensures forall i :: 0 <= i < |r| ==> r[i] == Row(s, SignatureLogs(logs)[i])
  {
    Rows(s, SignatureLogs(logs))
  }

  predicate IsApprovedRow(r: Signature)
  {
    r.role == APPROVED_BY
  }

  /** The names of the actors with at least one `approve_admin` log. */
  function AdminNames(logs: seq<LogView>): set<string>
  {
    set i | 0 <= i < |logs| && IsAdminApproval(logs[i]) :: logs[i].actorName
  }

  function NameSet(rs: seq<Signature>): (r: set<string>)
    ensures forall x :: x in r <==> exists i :: 0 <= i < |rs| && rs[i].name == x
  {
    if |rs| == 0 then {}
    else
      assert forall i :: 1 <= i < |rs| ==> rs[1..][i - 1] == rs[i];
      {rs[0].name} + NameSet(rs[1..])
  }

  lemma {:induction false} NameSetSize(rs: seq<Signature>)
    requires forall i, j :: 0 <= i < j < |rs| ==> rs[i].name != rs[j].name
    ensures |NameSet(rs)| == |rs|
  {
    if |rs| > 0 {
      NameSetSize(rs[1..]);
      assert rs[0].name !in NameSet(rs[1..]);
    }
  }

  /** Each row is the chosen log of its signer, under a role-map label. */
  lemma RowsChosen(s: Store, logs: seq<LogView>, i: nat)
    requires i < |BuildSignatures(s, logs)|
    ensures var r := BuildSignatures(s, logs);
      && r[i].role in {PREPARED_BY, VERIFIED_BY, APPROVED_BY}
      && Chosen(logs, r[i].name) == Some(SignatureLogs(logs)[i])
      && (r[i].role == APPROVED_BY <==> IsAdminApproval(SignatureLogs(logs)[i]))
  {
    var v := SignatureLogs(logs)[i];
    SignatureLogsIff(logs, v);
    ChosenFacts(logs, v.actorName);
  }

  /** Every actor with a `submit`, `approve_leader` or `approve_admin` log signs. */
  lemma RowsComplete(s: Store, logs: seq<LogView>, i: nat)
    requires i < |logs| && RoleOf(logs[i].log.action).Some?
    ensures exists j :: 0 <= j < |BuildSignatures(s, logs)| && BuildSignatures(s, logs)[j].name == logs[i].actorName
  {
    var r := BuildSignatures(s, logs);
    var sl := SignatureLogs(logs);
    var name := logs[i].actorName;
    ChosenFacts(logs, name);
    var v := Chosen(logs, name).value;
    SignatureLogsIff(logs, v);
    var j :| 0 <= j < |sl| && sl[j] == v;
    assert r[j].name == name;
  }

  lemma RowsDistinct(s: Store, logs: seq<LogView>)
    ensures var r := BuildSignatures(s, logs);
      forall i, j :: 0 <= i < j < |r| ==> r[i].name != r[j].name
  {
    SignatureLogsDistinct(logs);
  }

  /** The rows come in ascending timestamp order. */
  lemma RowsAscending(s: Store, logs: seq<LogView>)
    ensures var r := BuildSignatures(s, logs);
      forall i, j :: 0 <= i < j < |r| ==> LexLe(r[i].timestamp, r[j].timestamp)
  {
    var r := BuildSignatures(s, logs);
    var sl := SignatureLogs(logs);
    forall i, j | 0 <= i < j < |r| ensures LexLe(r[i].timestamp, r[j].timestamp) {
      assert LexLe(LogTime(sl[i]), LogTime(sl[j]));
    }
  }

  /** The "Approved By" rows name exactly the admin approvers. */
  lemma ApprovedNames(s: Store, logs: seq<LogView>)
    ensures NameSet(Filter(BuildSignatures(s, logs), IsApprovedRow)) == AdminNames(logs)
  {
    forall x | x in NameSet(Filter(BuildSignatures(s, logs), IsApprovedRow)) ensures x in AdminNames(logs) {
      ApprovedNameIsAdmin(s, logs, x);
    }
    forall x | x in AdminNames(logs) ensures x in NameSet(Filter(BuildSignatures(s, logs), IsApprovedRow)) {
      AdminIsApprovedName(s, logs, x);
    }
  }

  lemma ApprovedNameIsAdmin(s: Store, logs: seq<LogView>, x: string)
    requires x in NameSet(Filter(BuildSignatures(s, logs), IsApprovedRow))
    ensures x in AdminNames(logs)
  {
    var f := Filter(BuildSignatures(s, logs), IsApprovedRow);
    var k :| 0 <= k < |f| && f[k].name == x;
    ApprovedRowChosen(s, logs, f[k]);
    ChosenFacts(logs, x);
    var j :| 0 <= j < |logs| && IsAdminApproval(logs[j]) && logs[j].actorName == x;
  }

  lemma ApprovedRowChosen(s: Store, logs: seq<LogView>, row: Signature)
    requires row in BuildSignatures(s, logs) && IsApprovedRow(row)
    ensures Chosen(logs, row.name).Some? && IsAdminApproval(Chosen(logs, row.name).value)
  {
    var r := BuildSignatures(s, logs);
    var i :| 0 <= i < |r| && r[i] == row;
    RowsChosen(s, logs, i);
  }

  lemma AdminIsApprovedName(s: Store, logs: seq<LogView>, x: string)
    requires x in AdminNames(logs)
    ensures x in NameSet(Filter(BuildSignatures(s, logs), IsApprovedRow))
  {
    var r := BuildSignatures(s, logs);
    var sl := SignatureLogs(logs);
    ChosenFacts(logs, x);
    var v := Chosen(logs, x).value;
    SignatureLogsIff(logs, v);
    var j :| 0 <= j < |sl| && sl[j] == v;
    RowsChosen(s, logs, j);
    assert r[j] in Filter(r, IsApprovedRow);
  }

  function SignerName(r: Signature): string
  {
    r.name
  }

  /** k distinct admin approvers give exactly k "Approved By" rows. */
  lemma ApprovedCount(s: Store, logs: seq<LogView>)
    ensures |Filter(BuildSignatures(s, logs), IsApprovedRow)| == |AdminNames(logs)|
  {
    var r := BuildSignatures(s, logs);
    ApprovedNames(s, logs);
    RowsDistinct(s, logs);
    assert DistinctBy(r, SignerName);
    FilterDistinctBy(r, IsApprovedRow, SignerName);
    var f := Filter(r, IsApprovedRow);
    assert forall i, j :: 0 <= i < j < |f| ==> SignerName(f[i]) != SignerName(f[j]);
    NameSetSize(f);
  }

  /** The signature table: one row per signer, each row the signer's chosen
      log with its role label, in ascending timestamp order, and exactly one
      "Approved By" row per distinct admin approver. */
  lemma SignatureTable(s: Store, logs: seq<LogView>)
    ensures var r := BuildSignatures(s, logs);
      && (forall i :: 0 <= i < |r| ==> r[i].role in {PREPARED_BY, VERIFIED_BY, APPROVED_BY})
      && (forall i :: 0 <= i < |r| ==> exists v :: Chosen(logs, r[i].name) == Some(v) && r[i] == Row(s, v))
      && (forall i :: 0 <= i < |logs| && RoleOf(logs[i].log.action).Some? ==>
            exists j :: 0 <= j < |r| && r[j].name == logs[i].actorName)
      && (forall i, j :: 0 <= i < j < |r| ==> r[i].name != r[j].name)
      && (forall i, j :: 0 <= i < j < |r| ==> LexLe(r[i].timestamp, r[j].timestamp))
      && |Filter(r, IsApprovedRow)| == |AdminNames(logs)|
  {
    RowsChosenAll(s, logs);
    RowsCompleteAll(s, logs);
    RowsDistinct(s, logs);
    RowsAscending(s, logs);
    ApprovedCount(s, logs);
  }

  lemma RowsChosenAll(s: Store, logs: seq<LogView>)
    ensures var r := BuildSignatures(s, logs);
      && (forall i :: 0 <= i < |r| ==> r[i].role in {PREPARED_BY, VERIFIED_BY, APPROVED_BY})
      && (forall i :: 0 <= i < |r| ==> exists v :: Chosen(logs, r[i].name) == Some(v) && r[i] == Row(s, v))
  {
    var r := BuildSignatures(s, logs);
    forall i | 0 <= i < |r|
      ensures r[i].role in {PREPARED_BY, VERIFIED_BY, APPROVED_BY}
      ensures exists v :: Chosen(logs, r[i].name) == Some(v) && r[i] == Row(s, v)
    {
      RowsChosen(s, logs, i);
    }
  }

  lemma RowsCompleteAll(s: Store, logs: seq<LogView>)
    ensures var r := BuildSignatures(s, logs);
      forall i :: 0 <= i < |logs| && RoleOf(logs[i].log.action).Some? ==>
        exists j :: 0 <= j < |r| && r[j].name == logs[i].actorName
  {
    forall i | 0 <= i < |logs| && RoleOf(logs[i].log.action).Some?
      ensures exists j :: 0 <= j < |BuildSignatures(s, logs)| && BuildSignatures(s, logs)[j].name == logs[i].actorName
    {
      RowsComplete(s, logs, i);
    }
  }
}

=== FILE: store.dfy ===
/**
 The persistence layer (installer/db/database.py) as an immutable value. Each
 table is a sequence of rows in insertion (rowid) order, and each
 AUTOINCREMENT key has a counter. Every public function of the database
 module becomes a pure function from a store to a new store and/or an
 answer. The store checks nothing about report statuses: any string is
 accepted, and all workflow guards live in the callers (module Workflow).
 */
module Store {
  import opened Common

  type Id = nat
  /** Timestamps are the TEXT values SQLite stores; they are compared as strings. */
  type Stamp = string

  // The report statuses the dashboards write (the store itself accepts any string).
  const DRAFT := "draft"
  const SUBMITTED := "submitted"
  const APPROVED_LEADER := "approved_leader"
  const APPROVED_ADMIN := "approved_admin"
  const NEEDS_REVISION := "needs_revision"

  // The approval-log actions.
  const SUBMIT := "submit"
  const APPROVE_LEADER := "approve_leader"
  const APPROVE_ADMIN := "approve_admin"
  const SEND_BACK := "send_back"

  // E-mail queue statuses.
  const PENDING := "pending"
  const SENT := "sent"
  const ERROR := "error"

  datatype User = User(id: Id, username: string, passwordHash: string, role: string,
                       email: string, empCode: string, designation: string)

  datatype Report = Report(id: Id, owner: Id, title: string, status: string, version: int,
                           lastModifiedBy: Id, lastModifiedAt: Stamp, artifactPath: Option<string>)

  datatype FieldRow = FieldRow(report: Id, name: string, value: string)

  datatype LogRow = LogRow(id: Id, report: Id, actor: Id, action: string,
                           comments: Option<string>, timestamp: Stamp)

  datatype Job = Job(id: Id, report: Id, admin: Id, pdfPath: string, queuedAt: Stamp,
                     status: string, errorMessage: Option<string>)

  datatype Notice = Notice(id: Id, user: Id, subject: string, message: string,
                           isRead: bool, createdAt: Stamp)

  datatype Store = Store(
    users: seq<User>, reports: seq<Report>, fields: seq<FieldRow>, logs: seq<LogRow>,
    queue: seq<Job>, noticeTable: bool, notices: seq<Notice>,
    nextUser: Id, nextReport: Id, nextLog: Id, nextJob: Id, nextNotice: Id)

  /** An empty database: no rows at all, not even the default admin that
      `init_db` inserts. */
  const Empty := Store([], [], [], [], [], false, [], 1, 1, 1, 1, 1)

  /** The table invariants SQLite maintains: primary keys are unique and below
      their AUTOINCREMENT counter, usernames are UNIQUE, and (by the way
      `add_report_data` writes) at most one row per (report, field name). */
  ghost predicate Valid(s: Store)
  {
    && (forall i, j :: 0 <= i < j < |s.users| ==>
          s.users[i].id != s.users[j].id && s.users[i].username != s.users[j].username)
    && (forall i :: 0 <= i < |s.users| ==> s.users[i].id < s.nextUser)
    && (forall i, j :: 0 <= i < j < |s.reports| ==> s.reports[i].id != s.reports[j].id)
    && (forall i :: 0 <= i < |s.reports| ==> s.reports[i].id < s.nextReport)
    && (forall i, j :: 0 <= i < j < |s.fields| ==>
          !(s.fields[i].report == s.fields[j].report && s.fields[i].name == s.fields[j].name))
    && (forall i, j :: 0 <= i < j < |s.queue| ==> s.queue[i].id != s.queue[j].id)
    && (forall i :: 0 <= i < |s.queue| ==> s.queue[i].id < s.nextJob)
    && (forall i, j :: 0 <= i < j < |s.notices| ==> s.notices[i].id != s.notices[j].id)
    && (forall i :: 0 <= i < |s.notices| ==> s.notices[i].id < s.nextNotice)
  }

  lemma EmptyValid()
    ensures Valid(Empty)
  {
  }

  // ---------------------------------------------------------------------------
  // Users (database.py:24-125)

  function GetUserById(s: Store, id: Id): (r: Option<User>)
    ensures r.Some? ==> r.value in s.users && r.value.id == id
    ensures r.None? ==> forall i :: 0 <= i < |s.users| ==> s.users[i].id != id
  {
    UserWhere(s.users, (u: User) => u.id == id)
  }

  function GetUserByUsername(s: Store, name: string): (r: Option<User>)
    ensures r.Some? ==> r.value in s.users && r.value.username == name
    ensures r.None? ==> forall i :: 0 <= i < |s.users| ==> s.users[i].username != name
  {
    UserWhere(s.users, (u: User) => u.username == name)
  }

  function UserWhere(us: seq<User>, p: User -> bool): (r: Option<User>)
    ensures r.Some? ==> r.value in us && p(r.value)
    ensures r.None? ==> forall i :: 0 <= i < |us| ==> !p(us[i])
  {
    if |us| == 0 then None
    else if p(us[0]) then Some(us[0])
    else UserWhere(us[1..], p)
  }

  /** `get_user_name`: the username, or "Unknown" for a missing user. */
  function GetUserName(s: Store, id: Id): (r: string)
    ensures GetUserById(s, id).Some? ==> r == GetUserById(s, id).value.username
    ensures GetUserById(s, id).None? ==> r == "Unknown"
  {
    match GetUserById(s, id)
    case Some(u) => u.username
    case None => "Unknown"
  }

  /** `add_user`: the UNIQUE constraint on username turns a duplicate into `None`. */
  function AddUser(s: Store, username: string, passwordHash: string, role: string,
                   email: string, empCode: string, designation: string): (r: (Store, Option<Id>))
    ensures GetUserByUsername(s, username).Some? <==> r.1.None?
    ensures r.1.None? ==> r.0 == s
    ensures r.1.Some? ==>
      && r.1.value == s.nextUser
      && r.0.users == s.users + [User(r.1.value, username, passwordHash, role, email, empCode, designation)]
      && r.0 == s.(users := r.0.users, nextUser := s.nextUser + 1)
  {
    if GetUserByUsername(s, username).Some? then (s, None)
    else
      var u := User(s.nextUser, username, passwordHash, role, email, empCode, designation);
      (s.(users := s.users + [u], nextUser := s.nextUser + 1), Some(u.id))
  }

  /** `delete_user`: `True` iff a row was found and removed. */
  function DeleteUser(s: Store, id: Id): (r: (Store, bool))
    ensures r.1 <==> GetUserById(s, id).Some?
    ensures forall u :: u in r.0.users <==> u in s.users && u.id != id
    ensures r.0 == s.(users := r.0.users)
  {
    var kept := Filter(s.users, (u: User) => u.id != id);
    (s.(users := kept), GetUserById(s, id).Some?)
  }

  /** The new values `update_user` was given: `None` means "leave as is". */
  datatype UserPatch = UserPatch(username: Option<string>, passwordHash: Option<string>,
                                 role: Option<string>, email: Option<string>,
                                 empCode: Option<string>, designation: Option<string>)

  predicate PatchIsEmpty(p: UserPatch)
  {
    p.username.None? && p.passwordHash.None? && p.role.None? && p.email.None? &&
    p.empCode.None? && p.designation.None?
  }

  function Pick(o: Option<string>, prev: string): string
  {
    if o.Some? then o.value else prev
  }

  function Patched(u: User, p: UserPatch): User
  {
    u.(username := Pick(p.username, u.username), passwordHash := Pick(p.passwordHash, u.passwordHash),
       role := Pick(p.role, u.role), email := Pick(p.email, u.email),
       empCode := Pick(p.empCode, u.empCode), designation := Pick(p.designation, u.designation))
  }

  /** A rename onto another user's name violates the UNIQUE constraint. */
  predicate RenameClashes(s: Store, id: Id, p: UserPatch)
  {
    p.username.Some? &&
    exists i :: 0 <= i < |s.users| && s.users[i].username == p.username.value && s.users[i].id != id
  }

  /** `update_user`: only the fields given are written; with no field at all it
      returns `False` without touching the table; it returns `True` iff a row
      was updated. */
  function UpdateUser(s: Store, id: Id, p: UserPatch): (r: (Store, bool))
    ensures PatchIsEmpty(p) ==> r == (s, false)
    ensures r.1 <==> !PatchIsEmpty(p) && !RenameClashes(s, id, p) && GetUserById(s, id).Some?
    ensures !r.1 ==> r.0 == s
    ensures |r.0.users| == |s.users| && r.0 == s.(users := r.0.users)
    ensures forall i :: 0 <= i < |s.users| ==>
      r.0.users[i] == (if r.1 && s.users[i].id == id then Patched(s.users[i], p) else s.users[i])
  {
    if PatchIsEmpty(p) || RenameClashes(s, id, p) then (s, false)
    else if GetUserById(s, id).None? then (s, false)
    else
      var us := seq(|s.users|, i requires 0 <= i < |s.users| =>
                      if s.users[i].id == id then Patched(s.users[i], p) else s.users[i]);
      (s.(users := us), true)
  }

  // ---------------------------------------------------------------------------
  // Reports (database.py:214-245)

  function FindReport(s: Store, rid: Id): (r: Option<Report>)
    ensures r.Some? ==> r.value in s.reports && r.value.id == rid
    ensures r.None? ==> forall i :: 0 <= i < |s.reports| ==> s.reports[i].id != rid
  {
    ReportWhere(s.reports, rid)
  }

  function ReportWhere(rs: seq<Report>, rid: Id): (r: Option<Report>)
    ensures r.Some? ==> r.value in rs && r.value.id == rid
    ensures r.None? ==> forall i :: 0 <= i < |rs| ==> rs[i].id != rid
  {
    if |rs| == 0 then None
    else if rs[0].id == rid then Some(rs[0])
    else ReportWhere(rs[1..], rid)
  }

  /** `create_report`: a new `draft` report, last modified by its owner. The
      `version` column takes its default, 1. */
  function CreateReport(s: Store, owner: Id, title: string, at: Stamp): (r: (Store, Id))
    ensures r.1 == s.nextReport && r.0.nextReport == s.nextReport + 1
    ensures r.0.reports == s.reports + [Report(r.1, owner, title, DRAFT, 1, owner, at, None)]
    ensures r.0 == s.(reports := r.0.reports, nextReport := r.0.nextReport)
  {
    var rep := Report(s.nextReport, owner, title, DRAFT, 1, owner, at, None);
    (s.(reports := s.reports + [rep], nextReport := s.nextReport + 1), rep.id)
  }

  /** `update_report_status`: the status (any string) and the last-modified
      columns of the matching row are overwritten; nothing else, in particular
      not `version`. The answer is `True` iff a row matched. */
  function UpdateReportStatus(s: Store, rid: Id, status: string, actor: Id, at: Stamp): (r: (Store, bool))
    ensures r.1 <==> FindReport(s, rid).Some?
    ensures r.0 == s.(reports := r.0.reports)
    ensures |r.0.reports| == |s.reports|
    ensures forall i :: 0 <= i < |s.reports| ==>
      r.0.reports[i] == (if s.reports[i].id == rid
                         then s.reports[i].(status := status, lastModifiedBy := actor, lastModifiedAt := at)
                         else s.reports[i])
  {
    var rs := seq(|s.reports|, i requires 0 <= i < |s.reports| =>
                    if s.reports[i].id == rid
                    then s.reports[i].(status := status, lastModifiedBy := actor, lastModifiedAt := at)
                    else s.reports[i]);
    (s.(reports := rs), FindReport(s, rid).Some?)
  }

  // ---------------------------------------------------------------------------
  // Report fields (database.py:252-278)

  predicate FieldMatch(f: FieldRow, rid: Id, name: string)
  {
    f.report == rid && f.name == name
  }

  /** `add_report_data`: an upsert. Matching rows get the new value; without
      one, a row is appended. */
  function AddReportData(s: Store, rid: Id, name: string, value: string): (r: Store)
    ensures r == s.(fields := r.fields)
    ensures exists i :: 0 <= i < |r.fields| && FieldMatch(r.fields[i], rid, name)
    ensures forall i :: 0 <= i < |r.fields| && FieldMatch(r.fields[i], rid, name) ==> r.fields[i].value == value
    ensures |s.fields| <= |r.fields| <= |s.fields| + 1
    ensures forall i :: 0 <= i < |s.fields| && !FieldMatch(s.fields[i], rid, name) ==> r.fields[i] == s.fields[i]
    ensures forall i :: 0 <= i < |s.fields| && FieldMatch(s.fields[i], rid, name) ==> r.fields[i] == s.fields[i].(value := value)
    ensures forall i :: |s.fields| <= i < |r.fields| ==> FieldMatch(r.fields[i], rid, name)
  {
    if exists i :: 0 <= i < |s.fields| && FieldMatch(s.fields[i], rid, name) then
      var fs := seq(|s.fields|, i requires 0 <= i < |s.fields| =>
                      if FieldMatch(s.fields[i], rid, name) then s.fields[i].(value := value) else s.fields[i]);
      var k :| 0 <= k < |s.fields| && FieldMatch(s.fields[k], rid, name);
      assert FieldMatch(fs[k], rid, name);
      s.(fields := fs)
    else
      var fs := s.fields + [FieldRow(rid, name, value)];
      assert FieldMatch(fs[|s.fields|], rid, name);
      s.(fields := fs)
  }

  /** After an upsert there is exactly one row for the (report, field) pair. */
  lemma AddReportDataValid(s: Store, rid: Id, name: string, value: string)
    requires Valid(s)
    ensures Valid(AddReportData(s, rid, name, value))
  {
  }

  /** `{f.name: f.value for f in rows}` over the rows of one report: a later
      row overrides an earlier one. */
  function FieldMap(rows: seq<FieldRow>, rid: Id): map<string, string>
  {
    if |rows| == 0 then map[]
    else
      var m := FieldMap(rows[..|rows| - 1], rid);
      var last := rows[|rows| - 1];
      if last.report == rid then m[last.name := last.value] else m
  }

  /** The map shows a name iff some row of the report carries it, and when every
      such row holds the same value, it shows that value. */
  lemma {:induction false} FieldMapAgrees(rows: seq<FieldRow>, rid: Id, name: string, value: string)
    requires forall i :: 0 <= i < |rows| && FieldMatch(rows[i], rid, name) ==> rows[i].value == value
    ensures (name in FieldMap(rows, rid)) <==> exists i :: 0 <= i < |rows| && FieldMatch(rows[i], rid, name)
    ensures name in FieldMap(rows, rid) ==> FieldMap(rows, rid)[name] == value
  {
    if |rows| > 0 {
      var init := rows[..|rows| - 1];
      FieldMapAgrees(init, rid, name, value);
      if exists i :: 0 <= i < |rows| && FieldMatch(rows[i], rid, name) {
        var i :| 0 <= i < |rows| && FieldMatch(rows[i], rid, name);
        if i < |rows| - 1 {
          assert FieldMatch(init[i], rid, name);
        }
      }
    }
  }

  /** Reading a field back after writing it gives the written value. */
  lemma AddReportDataThenRead(s: Store, rid: Id, name: string, value: string)
    ensures var r := AddReportData(s, rid, name, value);
      name in FieldMap(r.fields, rid) && FieldMap(r.fields, rid)[name] == value
  {
    var r := AddReportData(s, rid, name, value);
    FieldMapAgrees(r.fields, rid, name, value);
  }

  // ---------------------------------------------------------------------------
  // Approval log (database.py:375-398): insert only; no update or delete exists

  function AddApprovalLog(s: Store, rid: Id, actor: Id, action: string, comments: Option<string>, at: Stamp): (r: Store)
    ensures r.logs == s.logs + [LogRow(s.nextLog, rid, actor, action, comments, at)]
    ensures r == s.(logs := r.logs, nextLog := s.nextLog + 1)
  {
    s.(logs := s.logs + [LogRow(s.nextLog, rid, actor, action, comments, at)], nextLog := s.nextLog + 1)
  }

  /** A log row joined with its actor's username (`actor_name`). */
  datatype LogView = LogView(log: LogRow, actorName: string)

  function LogTime(v: LogView): Stamp
  {
    v.log.timestamp
  }

  /** The rows of one report whose actor still exists (`JOIN users`), in rowid order. */
  function JoinedLogs(s: Store, rows: seq<LogRow>, rid: Id): (r: seq<LogView>)
    ensures forall i :: 0 <= i < |r| ==> r[i].log in rows && r[i].log.report == rid
    ensures forall i :: 0 <= i < |r| ==>
      GetUserById(s, r[i].log.actor).Some? && r[i].actorName == GetUserById(s, r[i].log.actor).value.username
    ensures forall k :: 0 <= k < |rows| && rows[k].report == rid && GetUserById(s, rows[k].actor).Some? ==>
      LogView(rows[k], GetUserById(s, rows[k].actor).value.username) in r
  {
    if |rows| == 0 then []
    else
      var rest := JoinedLogs(s, rows[1..], rid);
      var u := GetUserById(s, rows[0].actor);
      if rows[0].report == rid && u.Some? then [LogView(rows[0], u.value.username)] + rest else rest
  }

  /** The report as `get_report` returns it. */
  datatype ReportView = ReportView(report: Report, creatorName: string,
                                   fields: map<string, string>, logs: seq<LogView>)

  /** `get_report`: `None` for an unknown id, and also when the owner no longer
      exists (the query joins `users`); otherwise the fields as a map and the
      approval logs ordered by timestamp, ascending. */
  function GetReport(s: Store, rid: Id): (r: Option<ReportView>)
    ensures r.None? <==> FindReport(s, rid).None? || GetUserById(s, FindReport(s, rid).value.owner).None?
    ensures r.Some? ==> r.value.report == FindReport(s, rid).value
    ensures r.Some? ==> r.value.creatorName == GetUserById(s, FindReport(s, rid).value.owner).value.username
    ensures r.Some? ==> r.value.fields == FieldMap(s.fields, rid)
    ensures r.Some? ==> SortedBy(r.value.logs, LogTime)
    ensures r.Some? ==> multiset(r.value.logs) == multiset(JoinedLogs(s, s.logs, rid))
  {
    match FindReport(s, rid)
    case None => None
    case Some(rep) =>
      match GetUserById(s, rep.owner)
      case None => None
      case Some(owner) =>
        var logs := SortBy(JoinedLogs(s, s.logs, rid), LogTime);
        SortBySorted(JoinedLogs(s, s.logs, rid), LogTime);
        Some(ReportView(rep, owner.username, FieldMap(s.fields, rid), logs))
  }

  predicate IsLeaderApproval(v: LogView)
  {
    v.log.action == APPROVE_LEADER
  }

  /** The report's `approve_leader` logs, oldest first. */
  function LeaderLogs(s: Store, rid: Id): seq<LogView>
  {
    Filter(SortBy(JoinedLogs(s, s.logs, rid), LogTime), IsLeaderApproval)
  }

  lemma LeaderLogsFacts(s: Store, rid: Id)
    ensures SortedBy(LeaderLogs(s, rid), LogTime)
    ensures forall v :: v in LeaderLogs(s, rid) <==> v in JoinedLogs(s, s.logs, rid) && IsLeaderApproval(v)
  {
    var all := JoinedLogs(s, s.logs, rid);
    var sorted := SortBy(all, LogTime);
    SortBySorted(all, LogTime);
    FilterSorted(sorted, IsLeaderApproval, LogTime);
    forall v ensures v in LeaderLogs(s, rid) <==> v in all && IsLeaderApproval(v) {
      calc <==> {
        v in all;
        v in multiset(all);
        v in multiset(sorted);
        v in sorted;
      }
    }
  }

  /** `get_leader_approval`: the most recent `approve_leader` log of the report. */
  function GetLeaderApproval(s: Store, rid: Id): (r: Option<LogView>)
    ensures r.Some? ==> IsLeaderApproval(r.value) && r.value in JoinedLogs(s, s.logs, rid)
    ensures r.Some? ==> forall v :: v in JoinedLogs(s, s.logs, rid) && IsLeaderApproval(v) ==>
                          LexLe(LogTime(v), LogTime(r.value))
    ensures r.None? <==> forall v :: v in JoinedLogs(s, s.logs, rid) ==> !IsLeaderApproval(v)
  {
    var leader := LeaderLogs(s, rid);
    LeaderLogsFacts(s, rid);
    if |leader| == 0 then None
    else
      var last := leader[|leader| - 1];
      assert last in leader;
      assert forall v :: v in leader ==> LexLe(LogTime(v), LogTime(last)) by {
        forall v | v in leader ensures LexLe(LogTime(v), LogTime(last)) {
          LastIsGreatest(leader, LogTime, v);
        }
      }
      Some(last)
  }

  // ---------------------------------------------------------------------------
  // Report listings (database.py:323-373). Rows whose owner no longer exists
  // drop out of the join. `ORDER BY created_at DESC` is newest first: reports
  // are created in clock order, so this is reverse insertion order.

  datatype ReportRow = ReportRow(report: Report, creatorName: string)

  function Listing(s: Store, rs: seq<Report>): (r: seq<ReportRow>)
    ensures |r| <= |rs|
    ensures forall i :: 0 <= i < |r| ==> r[i].report in rs && GetUserById(s, r[i].report.owner).Some?
  {
    if |rs| == 0 then []
    else
      var rest := Listing(s, rs[1..]);
      var u := GetUserById(s, rs[0].owner);
      if u.Some? then [ReportRow(rs[0], u.value.username)] + rest else rest
  }

  /** Every listed report whose owner exists shows up. */
  lemma {:induction false} ListingHas(s: Store, rs: seq<Report>, i: nat)
    requires i < |rs| && GetUserById(s, rs[i].owner).Some?
    ensures exists j :: 0 <= j < |Listing(s, rs)| && Listing(s, rs)[j].report == rs[i]
  {
    var r := Listing(s, rs);
    if i == 0 {
      assert r[0].report == rs[0];
    } else {
      ListingHas(s, rs[1..], i - 1);
      var rest := Listing(s, rs[1..]);
      var j :| 0 <= j < |rest| && rest[j].report == rs[1..][i - 1];
      if GetUserById(s, rs[0].owner).Some? {
        assert r[j + 1] == rest[j] by {
          assert r == [ReportRow(rs[0], GetUserById(s, rs[0].owner).value.username)] + rest;
        }
      } else {
        assert r[j] == rest[j] by {
          assert r == rest;
        }
      }
    }
  }

  /** The WHERE clause of `get_reports_by_status`. */
  function HasStatus(status: string, owner: Option<Id>): Report -> bool
  {
    (rep: Report) => rep.status == status && (owner.None? || rep.owner == owner.value)
  }

  /** `get_reports_by_status`, optionally restricted to one owner. */
  function GetReportsByStatus(s: Store, status: string, owner: Option<Id>): (r: seq<ReportRow>)
    ensures forall i :: 0 <= i < |r| ==> r[i].report in s.reports && r[i].report.status == status
    ensures forall i :: 0 <= i < |r| ==> owner.Some? ==> r[i].report.owner == owner.value
  {
    Listing(s, Filter(Reverse(s.reports), HasStatus(status, owner)))
  }

  /** Every report in the status (and of the owner) whose owner exists is
      listed. */
  lemma GetReportsByStatusComplete(s: Store, status: string, owner: Option<Id>, i: nat)
    requires i < |s.reports| && s.reports[i].status == status
    requires (owner.None? || s.reports[i].owner == owner.value) && GetUserById(s, s.reports[i].owner).Some?
    ensures var r := GetReportsByStatus(s, status, owner);
      exists j :: 0 <= j < |r| && r[j].report == s.reports[i]
  {
    var rev := Reverse(s.reports);
    var picked := Filter(rev, HasStatus(status, owner));
    assert rev[|s.reports| - 1 - i] == s.reports[i];
    assert HasStatus(status, owner)(s.reports[i]);
    assert s.reports[i] in picked;
    var m :| 0 <= m < |picked| && picked[m] == s.reports[i];
    ListingHas(s, picked, m);
    assert GetReportsByStatus(s, status, owner) == Listing(s, picked);
  }

  function OwnedBy(owner: Id): Report -> bool
  {
    (rep: Report) => rep.owner == owner
  }

  /** `get_user_reports`. */
  function GetUserReports(s: Store, owner: Id): (r: seq<ReportRow>)
    ensures forall i :: 0 <= i < |r| ==> r[i].report in s.reports && r[i].report.owner == owner
  {
    Listing(s, Filter(Reverse(s.reports), OwnedBy(owner)))
  }

  /** Every report of the owner appears in the listing, as long as the owner
      exists (the join drops nothing else). */
  lemma GetUserReportsComplete(s: Store, owner: Id, i: nat)
    requires i < |s.reports| && s.reports[i].owner == owner && GetUserById(s, owner).Some?
    ensures var r := GetUserReports(s, owner);
      exists j :: 0 <= j < |r| && r[j].report == s.reports[i]
  {
    var rev := Reverse(s.reports);
    var picked := Filter(rev, OwnedBy(owner));
    assert rev[|s.reports| - 1 - i] == s.reports[i];
    assert OwnedBy(owner)(s.reports[i]);
    assert s.reports[i] in picked;
    var m :| 0 <= m < |picked| && picked[m] == s.reports[i];
    ListingHas(s, picked, m);
    assert GetUserReports(s, owner) == Listing(s, picked);
  }

  // ---------------------------------------------------------------------------
  // Offline e-mail queue (database.py:417-447)

  function AddEmailQueue(s: Store, rid: Id, admin: Id, pdfPath: string, at: Stamp): (r: Store)
    ensures r.queue == s.queue + [Job(s.nextJob, rid, admin, pdfPath, at, PENDING, None)]
    ensures r == s.(queue := r.queue, nextJob := s.nextJob + 1)
  {
    s.(queue := s.queue + [Job(s.nextJob, rid, admin, pdfPath, at, PENDING, None)], nextJob := s.nextJob + 1)
  }

  predicate IsPending(j: Job)
  {
    j.status == PENDING
  }

  /** `get_pending_email_queue`: exactly the `pending` rows, in rowid order. */
  function GetPendingEmailQueue(s: Store): (r: seq<Job>)
    ensures forall i :: 0 <= i < |r| ==> r[i] in s.queue && r[i].status == PENDING
    ensures forall i :: 0 <= i < |s.queue| && s.queue[i].status == PENDING ==> s.queue[i] in r
  {
    Filter(s.queue, IsPending)
  }

  /** The row after `update_email_queue_status`: the error message column is
      written only when the message is truthy (present and non-empty). */
  function JobUpdated(j: Job, status: string, message: Option<string>): Job
  {
    if message.Some? && message.value != "" then j.(status := status, errorMessage := message)
    else j.(status := status)
  }

  /** `update_email_queue_status`: only the row with that id changes. */
  function UpdateEmailQueueStatus(s: Store, qid: Id, status: string, message: Option<string>): (r: Store)
    ensures r == s.(queue := r.queue) && |r.queue| == |s.queue|
    ensures forall i :: 0 <= i < |s.queue| && s.queue[i].id != qid ==> r.queue[i] == s.queue[i]
    ensures forall i :: 0 <= i < |s.queue| && s.queue[i].id == qid ==>
      && r.queue[i].status == status
      && r.queue[i].(status := s.queue[i].status, errorMessage := s.queue[i].errorMessage) == s.queue[i]
      && r.queue[i].errorMessage == (if message.Some? && message.value != "" then message else s.queue[i].errorMessage)
  {
    var q := seq(|s.queue|, i requires 0 <= i < |s.queue| =>
                   if s.queue[i].id == qid then JobUpdated(s.queue[i], status, message) else s.queue[i]);
    s.(queue := q)
  }
}

=== FILE: views.dfy ===
/**
 The pure rules behind the three dashboards and the entry form
 (ui/user_dashboard.py, ui/unit_leader_dashboard.py, ui/admin_dashboard.py,
 ui/report_form.py): how fields are grouped and which input each gets,
 which reports each table lists and which actions it offers, the counters,
 the status captions, the submit-signature text, and the file names under
 which report workbooks and approved PDFs are stored and found again.
 Widgets, colours and dialogs are not modelled.
 */
module Views {
  import opened Common
  import opened Store
  import Sheet

  // ---------------------------------------------------------------------------
  // Dictionaries of lists, as the grouping loops build them

  /** A Python `dict` from names to lists, in key insertion order. */
  type Buckets<T> = seq<(string, seq<T>)>

  function Keys<T>(b: Buckets<T>): (ks: seq<string>)
    ensures |ks| == |b| && forall i :: 0 <= i < |b| ==> ks[i] == b[i].0
  {
    if |b| == 0 then [] else [b[0].0] + Keys(b[1..])
  }

  predicate KeysDistinct<T>(b: Buckets<T>)
  {
    forall i, j :: 0 <= i < j < |b| ==> b[i].0 != b[j].0
  }

  /** `d.get(k, [])`. */
  function Bucket<T>(b: Buckets<T>, k: string): seq<T>
  {
    if |b| == 0 then [] else if b[0].0 == k then b[0].1 else Bucket(b[1..], k)
  }

  /** `if k not in d: d[k] = []`, then `d[k].append(x)`. */
  function AddTo<T>(b: Buckets<T>, k: string, x: T): Buckets<T>
  {
    if |b| == 0 then [(k, [x])]
    else if b[0].0 == k then [(k, b[0].1 + [x])] + b[1..]
    else [b[0]] + AddTo(b[1..], k, x)
  }

  /** The loop `for x in xs: d[key(x)].append(x)` starting from `b`. */
  function GroupInto<T>(b: Buckets<T>, xs: seq<T>, key: T -> string): Buckets<T>
    decreases |xs|
  {
    if |xs| == 0 then b else GroupInto(AddTo(b, key(xs[0]), xs[0]), xs[1..], key)
  }

  function HasKeyIs<T>(key: T -> string, k: string): T -> bool
  {
    (x: T) => key(x) == k
  }

  lemma {:induction false} AddToBucket<T>(b: Buckets<T>, k: string, x: T, k2: string)
    ensures Bucket(AddTo(b, k, x), k2) == Bucket(b, k2) + (if k2 == k then [x] else [])
  {
    if |b| > 0 && b[0].0 != k {
      AddToBucket(b[1..], k, x, k2);
    }
  }

  lemma {:induction false} AddToKeys<T>(b: Buckets<T>, k: string, x: T)
    ensures Keys(AddTo(b, k, x)) == if k in Keys(b) then Keys(b) else Keys(b) + [k]
  {
    if |b| > 0 && b[0].0 != k {
      AddToKeys(b[1..], k, x);
      assert Keys(b) == [b[0].0] + Keys(b[1..]);
    }
  }

  /** Each list collects, in input order, exactly the elements with its key. */
  lemma {:induction false} GroupIntoBucket<T>(b: Buckets<T>, xs: seq<T>, key: T -> string, k: string)
    ensures Bucket(GroupInto(b, xs, key), k) == Bucket(b, k) + Filter(xs, HasKeyIs(key, k))
    decreases |xs|
  {
    if |xs| > 0 {
      AddToBucket(b, key(xs[0]), xs[0], k);
      GroupIntoBucket(AddTo(b, key(xs[0]), xs[0]), xs[1..], key, k);
    }
  }

  /** Existing keys keep their places. */
  lemma {:induction false} GroupIntoPrefix<T>(b: Buckets<T>, xs: seq<T>, key: T -> string)
    ensures |Keys(b)| <= |Keys(GroupInto(b, xs, key))|
    ensures Keys(GroupInto(b, xs, key))[..|Keys(b)|] == Keys(b)
    decreases |xs|
  {
    if |xs| > 0 {
      var b' := AddTo(b, key(xs[0]), xs[0]);
      AddToKeys(b, key(xs[0]), xs[0]);
      GroupIntoPrefix(b', xs[1..], key);
      var ks := Keys(GroupInto(b', xs[1..], key));
      assert ks[..|Keys(b)|] == ks[..|Keys(b')|][..|Keys(b)|];
    }
  }

  /** A key is present afterwards iff it was before or some element carries it. */
  lemma {:induction false} GroupIntoHas<T>(b: Buckets<T>, xs: seq<T>, key: T -> string, k: string)
    ensures k in Keys(GroupInto(b, xs, key)) <==> k in Keys(b) || exists i :: 0 <= i < |xs| && key(xs[i]) == k
    decreases |xs|
  {
    if |xs| > 0 {
      var b' := AddTo(b, key(xs[0]), xs[0]);
      AddToKeys(b, key(xs[0]), xs[0]);
      GroupIntoHas(b', xs[1..], key, k);
      if exists i :: 0 <= i < |xs[1..]| && key(xs[1..][i]) == k {
        var i :| 0 <= i < |xs[1..]| && key(xs[1..][i]) == k;
        assert key(xs[i + 1]) == k;
      }
      if exists i :: 0 <= i < |xs| && key(xs[i]) == k {
        var i :| 0 <= i < |xs| && key(xs[i]) == k;
        if i > 0 {
          assert key(xs[1..][i - 1]) == k;
        }
      }
    }
  }

  lemma {:induction false} GroupIntoDistinct<T>(b: Buckets<T>, xs: seq<T>, key: T -> string)
    requires KeysDistinct(b)
    ensures KeysDistinct(GroupInto(b, xs, key))
    decreases |xs|
  {
    if |xs| > 0 {
      var b' := AddTo(b, key(xs[0]), xs[0]);
      AddToKeys(b, key(xs[0]), xs[0]);
      assert Keys(b') == if key(xs[0]) in Keys(b) then Keys(b) else Keys(b) + [key(xs[0])];
      assert KeysDistinct(b') by {
        forall i, j | 0 <= i < j < |b'| ensures b'[i].0 != b'[j].0 {
          assert b'[i].0 == Keys(b')[i] && b'[j].0 == Keys(b')[j];
          if j < |b| {
            assert Keys(b)[i] == b[i].0 && Keys(b)[j] == b[j].0;
          } else {
            assert Keys(b)[i] == b[i].0;
          }
        }
      }
      GroupIntoDistinct(b', xs[1..], key);
    }
  }

  /** With distinct keys, the list stored at position `i` is the one `get` finds. */
  lemma {:induction false} BucketAt<T>(b: Buckets<T>, i: nat)
    requires KeysDistinct(b) && i < |b|
    ensures Bucket(b, b[i].0) == b[i].1
  {
    if i > 0 {
      BucketAt(b[1..], i - 1);
    }
  }

  /** `{k: v for k, v in d.items() if v}`. */
  function DropEmpty<T>(b: Buckets<T>): (r: Buckets<T>)
    ensures forall i :: 0 <= i < |r| ==> |r[i].1| > 0
  {
    if |b| == 0 then []
    else if |b[0].1| == 0 then DropEmpty(b[1..])
    else [b[0]] + DropEmpty(b[1..])
  }

  /** `get` on a missing key gives the default. */
  lemma {:induction false} BucketMissing<T>(b: Buckets<T>, k: string)
    requires forall i :: 0 <= i < |b| ==> b[i].0 != k
    ensures Bucket(b, k) == []
  {
    if |b| > 0 {
      BucketMissing(b[1..], k);
    }
  }

  lemma {:induction false} DropEmptyBucket<T>(b: Buckets<T>, k: string)
    requires KeysDistinct(b)
    ensures Bucket(DropEmpty(b), k) == Bucket(b, k)
  {
    if |b| > 0 {
      DropEmptyBucket(b[1..], k);
      if |b[0].1| == 0 && b[0].0 == k {
        BucketMissing(b[1..], k);
      }
    }
  }

  lemma {:induction false} DropEmptyKept<T>(b: Buckets<T>, i: nat)
    requires i < |DropEmpty(b)|
    ensures DropEmpty(b)[i] in b
  {
    if |b[0].1| == 0 {
      DropEmptyKept(b[1..], i);
    } else if i > 0 {
      DropEmptyKept(b[1..], i - 1);
    }
  }

  lemma {:induction false} DropEmptyDistinct<T>(b: Buckets<T>)
    requires KeysDistinct(b)
    ensures KeysDistinct(DropEmpty(b))
  {
    if |b| > 0 {
      DropEmptyDistinct(b[1..]);
      var r := DropEmpty(b);
      forall i, j | 0 <= i < j < |r| ensures r[i].0 != r[j].0 {
        if |b[0].1| > 0 && i == 0 {
          DropEmptyKept(b[1..], j - 1);
          var m :| 0 <= m < |b[1..]| && b[1..][m] == r[j];
          assert b[m + 1] == r[j];
        }
      }
    }
  }

  // ---------------------------------------------------------------------------
  // Field categories (unit_leader_dashboard.py:145-169, report_form.py:140-165)

  const PRODUCTION_DATA := "Production Data"
  const ISSUES := "Issues and Challenges"
  const NOTES := "Notes"
  const GENERAL := "General Information"

  /** The category of a field, by case-insensitive substrings tried in
      order: production words, then "issue", then "note". Both the leader's
      report view and the entry form use these rules. */
  function CategoryOf(name: string): (c: string)
    ensures c in {PRODUCTION_DATA, ISSUES, NOTES, GENERAL}
    ensures c == GENERAL <==>
      !Contains(Lower(name), "product") && !Contains(Lower(name), "planned") &&
      !Contains(Lower(name), "actual") && !Contains(Lower(name), "issue") && !Contains(Lower(name), "note")
  {
    var n := Lower(name);
    if Contains(n, "product") || Contains(n, "planned") || Contains(n, "actual") then PRODUCTION_DATA
    else if Contains(n, "issue") then ISSUES
    else if Contains(n, "note") then NOTES
    else GENERAL
  }

  function EntryCategory(e: (string, string)): string
  {
    CategoryOf(e.0)
  }

  /** `group_fields_by_category` of the leader's report view: the report's
      (name, value) pairs in stored order, grouped by category, categories in
      order of first appearance. */
  function GroupFieldsByCategory(fields: seq<(string, string)>): (r: Buckets<(string, string)>)
    ensures KeysDistinct(r)
    ensures forall i :: 0 <= i < |r| ==> r[i].0 in {PRODUCTION_DATA, ISSUES, NOTES, GENERAL}
    ensures forall c :: Bucket(r, c) == Filter(fields, HasKeyIs(EntryCategory, c))
    ensures forall i :: 0 <= i < |fields| ==> EntryCategory(fields[i]) in Keys(r)
  {
    CategoriesFacts(fields);
    GroupInto([], fields, EntryCategory)
  }

  lemma CategoriesFacts(fields: seq<(string, string)>)
    ensures var r := GroupInto([], fields, EntryCategory);
      && KeysDistinct(r)
      && (forall i :: 0 <= i < |r| ==> r[i].0 in {PRODUCTION_DATA, ISSUES, NOTES, GENERAL})
      && (forall c :: Bucket(r, c) == Filter(fields, HasKeyIs(EntryCategory, c)))
      && (forall i :: 0 <= i < |fields| ==> EntryCategory(fields[i]) in Keys(r))
  {
    var r := GroupInto([], fields, EntryCategory);
    GroupIntoDistinct([], fields, EntryCategory);
    forall i | 0 <= i < |fields| ensures EntryCategory(fields[i]) in Keys(r) {
      GroupIntoHas([], fields, EntryCategory, EntryCategory(fields[i]));
    }
    forall c ensures Bucket(r, c) == Filter(fields, HasKeyIs(EntryCategory, c)) {
      GroupIntoBucket([], fields, EntryCategory, c);
    }
    forall i | 0 <= i < |r| ensures r[i].0 in {PRODUCTION_DATA, ISSUES, NOTES, GENERAL} {
      assert r[i].0 in Keys(r);
      GroupIntoHas([], fields, EntryCategory, r[i].0);
    }
  }

  /** Every field lands in exactly one group: the one of its own category. */
  lemma EachFieldOneCategory(fields: seq<(string, string)>, f: (string, string), i: nat)
    requires f in fields
    requires i < |GroupFieldsByCategory(fields)|
    ensures f in GroupFieldsByCategory(fields)[i].1 <==> GroupFieldsByCategory(fields)[i].0 == CategoryOf(f.0)
  {
    var r := GroupFieldsByCategory(fields);
    BucketAt(r, i);
    assert r[i].1 == Filter(fields, HasKeyIs(EntryCategory, r[i].0));
  }

  function FieldSection(f: Sheet.TemplateField): string
  {
    CategoryOf(f.name)
  }

  /** `group_fields_into_sections` of the entry form: the same rules, but the
      dictionary starts with an empty "General Information" list, and empty
      lists are dropped at the end. */
  function GroupFieldsIntoSections(fields: seq<Sheet.TemplateField>): (r: Buckets<Sheet.TemplateField>)
    ensures KeysDistinct(r)
    ensures forall i :: 0 <= i < |r| ==> |r[i].1| > 0 && r[i].1 == Filter(fields, HasKeyIs(FieldSection, r[i].0))
    ensures forall c :: Bucket(r, c) == Filter(fields, HasKeyIs(FieldSection, c))
    ensures (exists i :: 0 <= i < |fields| && FieldSection(fields[i]) == GENERAL) ==> |r| > 0 && r[0].0 == GENERAL
  {
    SectionsFacts(fields);
    DropEmpty(GroupInto([(GENERAL, [])], fields, FieldSection))
  }

  lemma SectionsFacts(fields: seq<Sheet.TemplateField>)
    ensures var r := DropEmpty(GroupInto([(GENERAL, [])], fields, FieldSection));
      && KeysDistinct(r)
      && (forall i :: 0 <= i < |r| ==> r[i].1 == Filter(fields, HasKeyIs(FieldSection, r[i].0)))
      && (forall c :: Bucket(r, c) == Filter(fields, HasKeyIs(FieldSection, c)))
      && ((exists i :: 0 <= i < |fields| && FieldSection(fields[i]) == GENERAL) ==> |r| > 0 && r[0].0 == GENERAL)
  {
    var start: Buckets<Sheet.TemplateField> := [(GENERAL, [])];
    var grouped := GroupInto(start, fields, FieldSection);
    var r := DropEmpty(grouped);
    GroupIntoPrefix(start, fields, FieldSection);
    GroupIntoDistinct(start, fields, FieldSection);
    DropEmptyDistinct(grouped);
    assert Keys(start) == [GENERAL];
    forall c ensures Bucket(r, c) == Filter(fields, HasKeyIs(FieldSection, c)) {
      GroupIntoBucket(start, fields, FieldSection, c);
      DropEmptyBucket(grouped, c);
    }
    forall i | 0 <= i < |r| ensures r[i].1 == Filter(fields, HasKeyIs(FieldSection, r[i].0)) {
      BucketAt(r, i);
    }
    if exists i :: 0 <= i < |fields| && FieldSection(fields[i]) == GENERAL {
      var i :| 0 <= i < |fields| && FieldSection(fields[i]) == GENERAL;
      assert grouped[0].0 == GENERAL;
      BucketAt(grouped, 0);
      GroupIntoBucket(start, fields, FieldSection, GENERAL);
      assert fields[i] in Filter(fields, HasKeyIs(FieldSection, GENERAL));
    }
  }

  /** Every field lands in exactly one section: the one of its own category. */
  lemma EachFieldOneSection(fields: seq<Sheet.TemplateField>, f: Sheet.TemplateField, i: nat)
    requires f in fields
    requires i < |GroupFieldsIntoSections(fields)|
    ensures f in GroupFieldsIntoSections(fields)[i].1 <==> GroupFieldsIntoSections(fields)[i].0 == CategoryOf(f.name)
  {
  }

  // ---------------------------------------------------------------------------
  // Input widgets and required fields (report_form.py:167-191, 238-257)

  datatype Widget = DateInput | IntInput(lo: int, hi: int) | MultiLine | SingleLine

  const SPIN_MAX := 999999
  const LONG_NAME := 30

  /** `create_field_widget`: by the field's type first, then by its name. */
  function WidgetFor(name: string, fieldType: string): Widget
  {
    if fieldType == Sheet.DATE then DateInput
    else if fieldType == Sheet.NUMBER then IntInput(0, SPIN_MAX)
    else if Contains(Lower(name), "notes") || |name| > LONG_NAME then MultiLine
    else SingleLine
  }

  /** For a scanned template field, whose type comes from its name, the
      widget is decided by the name alone: a date picker exactly for names
      mentioning "date", a spin box from 0 to 999999 exactly for the other
      names mentioning "number" or "quantity", and a multi-line box only for
      notes or long names. */
  lemma WidgetOfTemplateField(f: Sheet.TemplateField)
    requires f.kind == Sheet.FieldType(f.name)
    ensures var w := WidgetFor(f.name, f.kind);
      && (w == DateInput <==> Contains(Lower(f.name), "date"))
      && (w.IntInput? <==>
          !Contains(Lower(f.name), "date") && (Contains(Lower(f.name), "number") || Contains(Lower(f.name), "quantity")))
      && (w.IntInput? ==> w.lo == 0 && w.hi == SPIN_MAX)
      && (w == MultiLine ==> Contains(Lower(f.name), "notes") || |f.name| > LONG_NAME)
  {
  }

  /** A field is required when its name mentions "date" or "supervisor". */
  predicate IsRequiredName(name: string)
  {
    Contains(Lower(name), "date") || Contains(Lower(name), "supervisor")
  }

  /** The values the form collected, as (field name, text) pairs. */
  type FormData = seq<(string, string)>

  /** `data.get(name)`: the value last assigned to `name`, if any. */
  function FormValue(data: FormData, name: string): (r: Option<string>)
    ensures r.None? <==> forall i :: 0 <= i < |data| ==> data[i].0 != name
    ensures r.Some? ==> (name, r.value) in data
  {
    if |data| == 0 then None
    else if data[|data| - 1].0 == name then Some(data[|data| - 1].1)
    else
      var r := FormValue(data[..|data| - 1], name);
      assert forall i :: 0 <= i < |data| - 1 ==> data[..|data| - 1][i] == data[i];
      r
  }

  /** `not data.get(name)`. */
  predicate IsBlank(v: Option<string>)
  {
    v.None? || v.value == ""
  }

  /** The `missing_fields` of `submit_report`, in template order. */
  function MissingFields(fieldNames: seq<string>, data: FormData): (r: seq<string>)
    ensures forall n :: n in r <==> n in fieldNames && IsRequiredName(n) && IsBlank(FormValue(data, n))
  {
    Filter(fieldNames, (n: string) => IsRequiredName(n) && IsBlank(FormValue(data, n)))
  }

  /** With nothing missing, every required field of the form holds text. */
  lemma NothingMissing(fieldNames: seq<string>, data: FormData, n: string)
    requires MissingFields(fieldNames, data) == [] && n in fieldNames && IsRequiredName(n)
    ensures FormValue(data, n).Some? && FormValue(data, n).value != ""
  {
    assert n !in MissingFields(fieldNames, data);
  }

  // ---------------------------------------------------------------------------
  // The owner's report table and counters (user_dashboard.py:626-645, 679-707)

  const ALL := "all"

  /** The search box: empty, or a case-insensitive substring of the title. */
  predicate TitleMatches(title: string, search: string)
  {
    Lower(search) == "" || Contains(Lower(title), Lower(search))
  }

  predicate UserTableShows(r: Report, statusFilter: string, search: string)
  {
    (statusFilter == ALL || r.status == statusFilter) && TitleMatches(r.title, search)
  }

  function UserTable(rows: seq<ReportRow>, statusFilter: string, search: string): (r: seq<ReportRow>)
    ensures forall x :: x in r <==> x in rows && UserTableShows(x.report, statusFilter, search)
  {
    Filter(rows, (x: ReportRow) => UserTableShows(x.report, statusFilter, search))
  }

  /** With "all" and an empty search box every report is listed, in order. */
  lemma UserTableUnfiltered(rows: seq<ReportRow>)
    ensures UserTable(rows, ALL, "") == rows
  {
    FilterAll(rows, (x: ReportRow) => UserTableShows(x.report, ALL, ""));
  }

  /** The search ignores letter case. */
  lemma SearchIgnoresCase(rows: seq<ReportRow>, statusFilter: string, a: string, b: string)
    requires Lower(a) == Lower(b)
    ensures UserTable(rows, statusFilter, a) == UserTable(rows, statusFilter, b)
  {
    FilterSame(rows, (x: ReportRow) => UserTableShows(x.report, statusFilter, a),
                     (x: ReportRow) => UserTableShows(x.report, statusFilter, b));
  }

  /** The statuses an owner may still edit and (re)submit. */
  const EDITABLE := {DRAFT, SUBMITTED, NEEDS_REVISION}

  predicate CanEdit(status: string)
  {
    status in EDITABLE
  }

  const KNOWN_STATUSES := {DRAFT, SUBMITTED, APPROVED_LEADER, APPROVED_ADMIN, NEEDS_REVISION}

  /** Of the five statuses, the two approvals lock the report. */
  lemma EditableStatuses()
    ensures CanEdit(DRAFT) && CanEdit(SUBMITTED) && CanEdit(NEEDS_REVISION)
    ensures !CanEdit(APPROVED_LEADER) && !CanEdit(APPROVED_ADMIN)
    ensures EDITABLE < KNOWN_STATUSES
  {
  }

  function InStatuses(ss: set<string>): ReportRow -> bool
  {
    (x: ReportRow) => x.report.status in ss
  }

  /** Counting over two disjoint status sets is counting over their union. */
  lemma {:induction false} CountDisjoint(rows: seq<ReportRow>, a: set<string>, b: set<string>)
    requires a !! b
    ensures Count(rows, InStatuses(a)) + Count(rows, InStatuses(b)) == Count(rows, InStatuses(a + b))
  {
    if |rows| > 0 {
      CountDisjoint(rows[1..], a, b);
    }
  }

  /** The four counters: drafts, in review (submitted or leader-approved),
      finally approved, and sent back. */
  datatype Stats = Stats(drafts: nat, inReview: nat, approved: nat, needsRevision: nat)

  function DashboardStats(rows: seq<ReportRow>): (st: Stats)
    ensures st.drafts + st.inReview + st.approved + st.needsRevision == Count(rows, InStatuses(KNOWN_STATUSES))
  {
    CountDisjoint(rows, {DRAFT}, {SUBMITTED, APPROVED_LEADER});
    assert {DRAFT} + {SUBMITTED, APPROVED_LEADER} == {DRAFT, SUBMITTED, APPROVED_LEADER};
    CountDisjoint(rows, {DRAFT, SUBMITTED, APPROVED_LEADER}, {APPROVED_ADMIN});
    assert {DRAFT, SUBMITTED, APPROVED_LEADER} + {APPROVED_ADMIN} == {DRAFT, SUBMITTED, APPROVED_LEADER, APPROVED_ADMIN};
    CountDisjoint(rows, {DRAFT, SUBMITTED, APPROVED_LEADER, APPROVED_ADMIN}, {NEEDS_REVISION});
    assert {DRAFT, SUBMITTED, APPROVED_LEADER, APPROVED_ADMIN} + {NEEDS_REVISION} == KNOWN_STATUSES;
    Stats(Count(rows, InStatuses({DRAFT})), Count(rows, InStatuses({SUBMITTED, APPROVED_LEADER})),
          Count(rows, InStatuses({APPROVED_ADMIN})), Count(rows, InStatuses({NEEDS_REVISION})))
  }

  /** When every report carries one of the five statuses, the counters add
      up to the number of reports. */
  lemma StatsAddUp(rows: seq<ReportRow>)
    requires forall i :: 0 <= i < |rows| ==> rows[i].report.status in KNOWN_STATUSES
    ensures var st := DashboardStats(rows); st.drafts + st.inReview + st.approved + st.needsRevision == |rows|
  {
    FilterAll(rows, InStatuses(KNOWN_STATUSES));
  }

  // ---------------------------------------------------------------------------
  // Status captions (identical in the three dashboards: user_dashboard.py:749-758,
  // unit_leader_dashboard.py:543-552, admin_dashboard.py:1643-1652)

  function StatusDisplayText(status: string): (t: string)
  {
    if status == DRAFT then "Draft"
    else if status == SUBMITTED then "Submitted"
    else if status == APPROVED_LEADER then "Approved by Unit Leader"
    else if status == APPROVED_ADMIN then "Approved (Final)"
    else if status == NEEDS_REVISION then "Needs Revision"
    else Capitalize(status)
  }

  /** The five workflow statuses get five different captions, and any other
      status is shown capitalised. */
  lemma StatusCaptions(a: string, b: string)
    ensures a in KNOWN_STATUSES && b in KNOWN_STATUSES && a != b ==> StatusDisplayText(a) != StatusDisplayText(b)
    ensures a !in KNOWN_STATUSES ==> StatusDisplayText(a) == Capitalize(a)
  {
    if a in KNOWN_STATUSES && b in KNOWN_STATUSES && a != b {
      CaptionLength(a);
      CaptionLength(b);
    }
  }

  /** The captions of the five statuses have five different lengths. */
  lemma CaptionLength(a: string)
    requires a in KNOWN_STATUSES
    ensures |StatusDisplayText(a)| == (if a == DRAFT then 5 else if a == SUBMITTED then 9
      else if a == APPROVED_LEADER then 23 else if a == APPROVED_ADMIN then 16 else 14)
  {
  }

  // ---------------------------------------------------------------------------
  // The submit signature of the owner's report view (user_dashboard.py:780-787)

  const NOT_SIGNED := "Not signed"

  predicate IsSubmitLog(v: LogView)
  {
    v.log.action == SUBMIT
  }

  function PreparedLine(v: LogView): string
  {
    "Prepared By: " + v.actorName + " (" + v.log.timestamp + ")"
  }

  /** `"\n".join(lines)`. */
  function JoinLines(lines: seq<string>): (r: string)
    ensures |lines| > 0 ==> StartsWith(r, lines[0])
    ensures forall i :: 0 <= i < |lines| ==> Contains(r, lines[i])
  {
    if |lines| == 0 then ""
    else if |lines| == 1 then
      assert StartsWith(lines[0], lines[0]);
      lines[0]
    else
      var rest := JoinLines(lines[1..]);
      var r := lines[0] + ("\n" + rest);
      assert r[..|lines[0]|] == lines[0];
      assert forall i :: 1 <= i < |lines| ==> Contains(r, lines[i]) by {
        forall i | 1 <= i < |lines| ensures Contains(r, lines[i]) {
          assert lines[1..][i - 1] == lines[i];
          ContainsInSuffix("\n", rest, lines[i]);
          ContainsInSuffix(lines[0], "\n" + rest, lines[i]);
        }
      }
      r
  }

  /** `s.split("\n")`: the pieces between newlines, at least one. */
  function SplitLines(s: string): (r: seq<string>)
    ensures |r| >= 1
    decreases |s|
  {
    if |s| == 0 then [""]
    else
      var rest := SplitLines(s[1..]);
      if s[0] == '\n' then [""] + rest else [[s[0]] + rest[0]] + rest[1..]
  }

  lemma {:induction false} SplitNoNewline(a: string)
    requires '\n' !in a
    ensures SplitLines(a) == [a]
    decreases |a|
  {
    if |a| > 0 {
      SplitNoNewline(a[1..]);
      assert [a[0]] + a[1..] == a;
    }
  }

  lemma {:induction false} SplitAfter(a: string, b: string)
    requires '\n' !in a
    ensures SplitLines(a + ("\n" + b)) == [a] + SplitLines(b)
    decreases |a|
  {
    var s := a + ("\n" + b);
    if |a| == 0 {
      assert s == "\n" + b && s[1..] == b;
    } else {
      assert s[1..] == a[1..] + ("\n" + b);
      SplitAfter(a[1..], b);
      assert [a[0]] + a[1..] == a;
    }
  }

  /** Splitting the join at newlines gives the lines back when none of them
      holds a newline: the join is exactly the lines, in order, one "\n"
      between neighbours. */
  lemma {:induction false} SplitJoinLines(lines: seq<string>)
    requires |lines| > 0 && forall i :: 0 <= i < |lines| ==> '\n' !in lines[i]
    ensures SplitLines(JoinLines(lines)) == lines
    decreases |lines|
  {
    if |lines| == 1 {
      SplitNoNewline(lines[0]);
    } else {
      SplitJoinLines(lines[1..]);
      SplitAfter(lines[0], JoinLines(lines[1..]));
      assert [lines[0]] + lines[1..] == lines;
    }
  }

  /** `[f"Prepared By: …" for log in logs if log['action'] == 'submit']`. */
  function SubmitLines(logs: seq<LogView>): (r: seq<string>)
    ensures |r| <= |logs|
    ensures forall k :: 0 <= k < |r| ==> exists i :: 0 <= i < |logs| && IsSubmitLog(logs[i]) && r[k] == PreparedLine(logs[i])
    ensures forall i :: 0 <= i < |logs| && IsSubmitLog(logs[i]) ==> PreparedLine(logs[i]) in r
    ensures |r| == 0 <==> forall i :: 0 <= i < |logs| ==> !IsSubmitLog(logs[i])
    decreases |logs|
  {
    if |logs| == 0 then []
    else
      var rest := SubmitLines(logs[1..]);
      assert forall i :: 1 <= i < |logs| ==> logs[i] == logs[1..][i - 1];
      if IsSubmitLog(logs[0]) then [PreparedLine(logs[0])] + rest else rest
  }

  /** One "Prepared By" line per `submit` log, in log order, joined by
      newlines, or "Not signed". */
  function SignatureText(logs: seq<LogView>): (r: string)
    ensures (forall i :: 0 <= i < |logs| ==> !IsSubmitLog(logs[i])) <==> r == NOT_SIGNED
    ensures r != NOT_SIGNED ==> r == JoinLines(SubmitLines(logs))
    ensures forall i :: 0 <= i < |logs| && IsSubmitLog(logs[i]) ==> Contains(r, PreparedLine(logs[i]))
  {
    var lines := SubmitLines(logs);
    if |lines| == 0 then NOT_SIGNED
    else
      JoinedSubmitLines(logs);
      JoinLines(lines)
  }

  /** The join of at least one "Prepared By" line is not "Not signed" and
      holds every submit log's line. */
  lemma JoinedSubmitLines(logs: seq<LogView>)
    requires |SubmitLines(logs)| > 0
    ensures JoinLines(SubmitLines(logs)) != NOT_SIGNED
    ensures forall i :: 0 <= i < |logs| && IsSubmitLog(logs[i]) ==> Contains(JoinLines(SubmitLines(logs)), PreparedLine(logs[i]))
  {
    var lines := SubmitLines(logs);
    var r := JoinLines(lines);
    assert r[0] == 'P' by {
      assert StartsWith(r, lines[0]);
      var i :| 0 <= i < |logs| && IsSubmitLog(logs[i]) && lines[0] == PreparedLine(logs[i]);
    }
    forall i | 0 <= i < |logs| && IsSubmitLog(logs[i]) ensures Contains(r, PreparedLine(logs[i])) {
      var k :| 0 <= k < |lines| && lines[k] == PreparedLine(logs[i]);
    }
  }

  /** When no actor name or timestamp holds a newline, the text's lines are
      exactly the submit logs' "Prepared By" lines, in log order. */
  lemma SignatureTextLines(logs: seq<LogView>)
    requires exists i :: 0 <= i < |logs| && IsSubmitLog(logs[i])
    requires forall i :: 0 <= i < |logs| ==> '\n' !in logs[i].actorName && '\n' !in logs[i].log.timestamp
    ensures SplitLines(SignatureText(logs)) == SubmitLines(logs)
  {
    SignatureTextIsJoin(logs);
    SplitSubmitLines(logs);
  }

  lemma SplitSubmitLines(logs: seq<LogView>)
    requires |SubmitLines(logs)| > 0
    requires forall i :: 0 <= i < |logs| ==> '\n' !in logs[i].actorName && '\n' !in logs[i].log.timestamp
    ensures SplitLines(JoinLines(SubmitLines(logs))) == SubmitLines(logs)
  {
    SubmitLinesNewlineFree(logs);
    SplitJoinLines(SubmitLines(logs));
  }

  lemma SignatureTextIsJoin(logs: seq<LogView>)
    requires exists i :: 0 <= i < |logs| && IsSubmitLog(logs[i])
    ensures |SubmitLines(logs)| > 0 && SignatureText(logs) == JoinLines(SubmitLines(logs))
  {
    var i :| 0 <= i < |logs| && IsSubmitLog(logs[i]);
    assert PreparedLine(logs[i]) in SubmitLines(logs);
  }

  lemma SubmitLinesNewlineFree(logs: seq<LogView>)
    requires forall i :: 0 <= i < |logs| ==> '\n' !in logs[i].actorName && '\n' !in logs[i].log.timestamp
    ensures forall k :: 0 <= k < |SubmitLines(logs)| ==> '\n' !in SubmitLines(logs)[k]
  {
    var lines := SubmitLines(logs);
    forall k | 0 <= k < |lines| ensures '\n' !in lines[k] {
      var i :| 0 <= i < |logs| && IsSubmitLog(logs[i]) && lines[k] == PreparedLine(logs[i]);
      NewlineFreeLine(logs[i]);
    }
  }

  lemma NewlineFreeLine(v: LogView)
    requires '\n' !in v.actorName && '\n' !in v.log.timestamp
    ensures '\n' !in PreparedLine(v)
  {
  }

  // ---------------------------------------------------------------------------
  // File names (user_dashboard.py:191-193, 919-921; admin_dashboard.py:1128-1138, 1474)

  /** `os.path.basename` with '/' as the separator: the text after the last one. */
  function Basename(path: string): (r: string)
    ensures EndsWith(path, r) && '/' !in r
    ensures |r| < |path| ==> path[|path| - |r| - 1] == '/'
  {
    if |path| == 0 || path[|path| - 1] == '/' then ""
    else
      var init := path[..|path| - 1];
      var r := Basename(init) + [path[|path| - 1]];
      assert path[|path| - |r|..] == init[|init| - |Basename(init)|..] + [path[|path| - 1]];
      assert |r| < |path| ==> path[|path| - |r| - 1] == init[|init| - |Basename(init)| - 1];
      r
  }

  /** The owner's working copy of a report: "report_{id}_{template file name}". */
  function ReportFileName(rid: Id, templatePath: string): (r: string)
    ensures StartsWith(r, PdfPrefix(rid)) && EndsWith(r, Basename(templatePath))
  {
    var r := PdfPrefix(rid) + Basename(templatePath);
    assert r[..|PdfPrefix(rid)|] == PdfPrefix(rid);
    assert r[|r| - |Basename(templatePath)|..] == Basename(templatePath);
    r
  }

  /** The start every file name of report `rid` shares. */
  function PdfPrefix(rid: Id): string
  {
    "report_" + NatToString(rid) + "_"
  }

  /** The PDF the final approval generates, "report_{id}_{YYYYmmdd_HHMMSS}.pdf";
      the clock reading is the parameter `stamp`. */
  function ApprovedPdfName(rid: Id, stamp: string): string
  {
    PdfPrefix(rid) + stamp + ".pdf"
  }

  /** What "View PDF" accepts as a PDF of report `rid`. */
  predicate IsPdfOf(fname: string, rid: Id)
  {
    StartsWith(fname, PdfPrefix(rid)) && EndsWith(fname, ".pdf")
  }

  const APPROVED_DIR := "approved_reports"
  const ALL_REPORTS_DIR := "admin_all_reports"

  /** The first file of a directory listing that `IsPdfOf(_, rid)` accepts. */
  function FirstPdf(files: seq<string>, rid: Id): (r: Option<nat>)
    ensures r.Some? ==> r.value < |files| && IsPdfOf(files[r.value], rid)
    ensures r.Some? ==> forall j :: 0 <= j < r.value ==> !IsPdfOf(files[j], rid)
    ensures r.None? <==> forall j :: 0 <= j < |files| ==> !IsPdfOf(files[j], rid)
  {
    if |files| == 0 then None
    else if IsPdfOf(files[0], rid) then Some(0)
    else
      var r := FirstPdf(files[1..], rid);
      if r.Some? then Some(r.value + 1) else None
  }

  /** The "View PDF" lookup: the approved folder is searched first, then the
      folder of all reports; a folder that does not exist (`None`) is
      skipped. The answer is the folder and the file. */
  function FindPdf(approved: Option<seq<string>>, allReports: Option<seq<string>>, rid: Id): (r: Option<(string, string)>)
    ensures r.Some? && r.value.0 == APPROVED_DIR ==>
      approved.Some? && r.value.1 in approved.value && IsPdfOf(r.value.1, rid)
    ensures r.Some? && r.value.0 != APPROVED_DIR ==>
      r.value.0 == ALL_REPORTS_DIR && allReports.Some? && r.value.1 in allReports.value && IsPdfOf(r.value.1, rid)
      && (approved.Some? ==> forall f :: f in approved.value ==> !IsPdfOf(f, rid))
    ensures r.None? <==>
      (approved.Some? ==> forall f :: f in approved.value ==> !IsPdfOf(f, rid)) &&
      (allReports.Some? ==> forall f :: f in allReports.value ==> !IsPdfOf(f, rid))
  {
    var a := if approved.Some? then FirstPdf(approved.value, rid) else None;
    if a.Some? then Some((APPROVED_DIR, approved.value[a.value]))
    else
      var b := if allReports.Some? then FirstPdf(allReports.value, rid) else None;
      if b.Some? then Some((ALL_REPORTS_DIR, allReports.value[b.value])) else None
  }

  /** The generated name of report `a` is accepted as a PDF of report `b`
      exactly when `a == b`: the "_" after the id keeps report 1 from
      picking up report 12's file. */
  lemma PdfNameSelectsItsReport(a: Id, b: Id, stamp: string)
    ensures IsPdfOf(ApprovedPdfName(a, stamp), b) <==> a == b
  {
    var name := ApprovedPdfName(a, stamp);
    var P := PdfPrefix(b);
    assert name == "report_" + NatToString(a) + "_" + (stamp + ".pdf");
    assert EndsWith(name, ".pdf") by {
      ConcatEnds(PdfPrefix(a) + stamp, ".pdf");
    }
    if a == b {
      ConcatEnds(PdfPrefix(a), stamp + ".pdf");
      assert name == PdfPrefix(a) + (stamp + ".pdf");
    }
    if StartsWith(name, P) {
      SamePrefixSameDigits(NatToString(a), NatToString(b), stamp + ".pdf");
      NatToStringInjective(a, b);
    }
  }

  /** Two ids written between "report_" and "_" agree when one such text
      starts with the other. */
  lemma SamePrefixSameDigits(A: string, B: string, tail: string)
    requires forall i :: 0 <= i < |A| ==> '0' <= A[i] <= '9'
    requires forall i :: 0 <= i < |B| ==> '0' <= B[i] <= '9'
    requires StartsWith("report_" + A + "_" + tail, "report_" + B + "_")
    ensures A == B
  {
    var name := "report_" + (A + ("_" + tail));
    var P := "report_" + (B + ("_" + ""));
    assert name == "report_" + A + "_" + tail;
    assert P == "report_" + B + "_";
    assert name[..|P|] == P;
    var k := if |A| < |B| then |A| else |B|;
    assert name[7 + k] == P[7 + k];
    DigitOrSeparator("report_", A, tail, k);
    DigitOrSeparator("report_", B, "", k);
    assert |A| == |B|;
    assert A == name[7..7 + |A|];
    assert B == P[7..7 + |B|];
  }

  /** Past a fixed head, the text is the id's digits and then the "_". */
  lemma DigitOrSeparator(head: string, id: string, tail: string, k: nat)
    requires k <= |id| && forall i :: 0 <= i < |id| ==> '0' <= id[i] <= '9'
    ensures var t := head + (id + ("_" + tail));
      (k < |id| ==> '0' <= t[|head| + k] <= '9') && (k == |id| ==> t[|head| + k] == '_')
  {
  }

  /** A PDF just written under its generated name into the approved folder
      is found again, in that folder, and is a file of the same report. */
  lemma ApprovedPdfFound(rid: Id, stamp: string, approved: seq<string>, allReports: Option<seq<string>>)
    requires ApprovedPdfName(rid, stamp) in approved
    ensures var r := FindPdf(Some(approved), allReports, rid);
      r.Some? && r.value.0 == APPROVED_DIR && IsPdfOf(r.value.1, rid)
  {
    PdfNameSelectsItsReport(rid, rid, stamp);
  }

  // ---------------------------------------------------------------------------
  // The reviewers' lists (unit_leader_dashboard.py:387-390, 472-479, 525-537;
  // admin_dashboard.py:912, 1066-1073, 1147)

  /** The statuses the "all" filter of both reviewers' tables stands for. */
  const REVIEW_STATUSES := [SUBMITTED, APPROVED_LEADER, APPROVED_ADMIN, NEEDS_REVISION]

  /** The rows of one status, as `get_reports_by_status` lists them. */
  function StatusRows(s: Store): string -> seq<ReportRow>
  {
    (status: string) => GetReportsByStatus(s, status, None)
  }

  function ListStatuses(s: Store, ss: seq<string>): seq<ReportRow>
  {
    ConcatMap(ss, StatusRows(s))
  }

  /** Every listed row is a stored report in one of the listed statuses. */
  lemma ListStatusesSound(s: Store, ss: seq<string>)
    ensures var r: seq<ReportRow> := ListStatuses(s, ss);
      forall i :: 0 <= i < |r| ==> r[i].report in s.reports && r[i].report.status in ss
  {
    var r := ListStatuses(s, ss);
    forall i | 0 <= i < |r| ensures r[i].report in s.reports && r[i].report.status in ss {
      ConcatMapFrom(ss, StatusRows(s), r[i]);
      var k :| 0 <= k < |ss| && r[i] in StatusRows(s)(ss[k]);
      var rows := GetReportsByStatus(s, ss[k], None);
      var m :| 0 <= m < |rows| && rows[m] == r[i];
    }
  }

  /** Every report in one of the listed statuses whose owner exists is
      listed. */
  lemma ListStatusesComplete(s: Store, ss: seq<string>, i: nat)
    requires i < |s.reports| && s.reports[i].status in ss && GetUserById(s, s.reports[i].owner).Some?
    ensures var r := ListStatuses(s, ss);
      exists j :: 0 <= j < |r| && r[j].report == s.reports[i]
  {
    var k :| 0 <= k < |ss| && ss[k] == s.reports[i].status;
    GetReportsByStatusComplete(s, ss[k], None, i);
    var rows := GetReportsByStatus(s, ss[k], None);
    var m :| 0 <= m < |rows| && rows[m].report == s.reports[i];
    ConcatMapHas(ss, StatusRows(s), k, rows[m]);
    var r := ListStatuses(s, ss);
    var j :| 0 <= j < |r| && r[j] == rows[m];
  }

  /** The reviewers' "all reports" table: the status filter (or the four
      review statuses for "all"), then the search box. Drafts never show. */
  function ReviewTable(s: Store, statusFilter: string, search: string): (r: seq<ReportRow>)
    ensures statusFilter == ALL ==> forall i :: 0 <= i < |r| ==> r[i].report.status != DRAFT
    ensures forall i :: 0 <= i < |r| ==> r[i].report in s.reports && TitleMatches(r[i].report.title, search)
    ensures forall i :: 0 <= i < |r| ==> statusFilter == ALL || r[i].report.status == statusFilter
  {
    ListStatusesSound(s, REVIEW_STATUSES);
    var listed := if statusFilter == ALL then ListStatuses(s, REVIEW_STATUSES) else GetReportsByStatus(s, statusFilter, None);
    Filter(listed, (x: ReportRow) => TitleMatches(x.report.title, search))
  }

  /** Every report in review whose owner exists is listed under "all" with an
      empty search. */
  lemma ReviewTableComplete(s: Store, i: nat)
    requires i < |s.reports| && s.reports[i].status in REVIEW_STATUSES && GetUserById(s, s.reports[i].owner).Some?
    ensures exists j :: 0 <= j < |ReviewTable(s, ALL, "")| && ReviewTable(s, ALL, "")[j].report == s.reports[i]
  {
    var listed := ListStatuses(s, REVIEW_STATUSES);
    ListStatusesComplete(s, REVIEW_STATUSES, i);
    var j :| 0 <= j < |listed| && listed[j].report == s.reports[i];
    assert Lower("") == "";
    FilterAll(listed, (x: ReportRow) => TitleMatches(x.report.title, ""));
    assert ReviewTable(s, ALL, "") == listed;
    assert ReviewTable(s, ALL, "")[j].report == s.reports[i];
  }

  /** The leader's pending list: submitted reports, then those sent back. */
  function LeaderPending(s: Store): (r: seq<ReportRow>)
    ensures forall i :: 0 <= i < |r| ==> r[i].report in s.reports && r[i].report.status in [SUBMITTED, NEEDS_REVISION]
  {
    ListStatusesSound(s, [SUBMITTED, NEEDS_REVISION]);
    ListStatuses(s, [SUBMITTED, NEEDS_REVISION])
  }

  /** Every submitted report comes before every report sent back. */
  lemma LeaderPendingOrder(s: Store)
    ensures var r := LeaderPending(s);
      forall i, j :: 0 <= i < j < |r| && r[j].report.status == SUBMITTED ==> r[i].report.status == SUBMITTED
  {
    var rest := ListStatuses(s, [NEEDS_REVISION]);
    ListStatusesSound(s, [NEEDS_REVISION]);
    assert [SUBMITTED, NEEDS_REVISION][1..] == [NEEDS_REVISION];
    assert LeaderPending(s) == StatusRows(s)(SUBMITTED) + rest;
  }

  /** Every report in either status whose owner exists is listed. */
  lemma LeaderPendingComplete(s: Store, i: nat)
    requires i < |s.reports| && s.reports[i].status in {SUBMITTED, NEEDS_REVISION}
    requires GetUserById(s, s.reports[i].owner).Some?
    ensures exists j :: 0 <= j < |LeaderPending(s)| && LeaderPending(s)[j].report == s.reports[i]
  {
    ListStatusesComplete(s, [SUBMITTED, NEEDS_REVISION], i);
    var j :| 0 <= j < |ListStatuses(s, [SUBMITTED, NEEDS_REVISION])| && ListStatuses(s, [SUBMITTED, NEEDS_REVISION])[j].report == s.reports[i];
    assert LeaderPending(s)[j].report == s.reports[i];
  }

  /** Approve and send-back buttons: the leader's "all" table offers them
      for submitted reports only, the admin's tables for leader-approved ones
      only. */
  predicate LeaderOffersReview(status: string)
  {
    status == SUBMITTED
  }

  predicate AdminOffersReview(status: string)
  {
    status == APPROVED_LEADER
  }

  /** The admin's report dialog tests two statuses no code path writes
      (admin_dashboard.py:243, 1391, 1533). */
  const PENDING_APPROVAL := "pending_approval"
  const LEADER_APPROVED := "leader_approved"

  predicate AdminDialogOffersReview(status: string)
  {
    status == PENDING_APPROVAL || status == LEADER_APPROVED
  }

  /** The leader's and the admin's buttons never show for the same report,
      and the admin dialog's test holds for none of the five statuses. */
  lemma ReviewButtons(status: string)
    ensures !(LeaderOffersReview(status) && AdminOffersReview(status))
    ensures status in KNOWN_STATUSES ==> !AdminDialogOffersReview(status)
    ensures LeaderOffersReview(status) ==> CanEdit(status)
    ensures AdminOffersReview(status) ==> !CanEdit(status)
  {
  }

  /** The admin's pending list: the leader-approved reports. */
  function AdminPending(s: Store): (r: seq<ReportRow>)
    ensures forall i :: 0 <= i < |r| ==> r[i].report in s.reports && AdminOffersReview(r[i].report.status)
  {
    GetReportsByStatus(s, APPROVED_LEADER, None)
  }

  /** `get_admin_users`: only user 1 is consulted. */
  function GetAdminUsers(s: Store): (r: seq<User>)
    ensures |r| <= 1
    ensures |r| == 1 <==> GetUserById(s, 1).Some? && GetUserById(s, 1).value.role == "admin"
    ensures |r| == 1 ==> r[0].id == 1 && r[0] in s.users
  {
    match GetUserById(s, 1)
    case Some(u) => if u.role == "admin" then [u] else []
    case None => []
  }
}

=== FILE: workflow.dfy ===
/**
 The report workflow as the dashboards and the e-mail action endpoint drive
 it (ui/user_dashboard.py, ui/report_form.py, ui/unit_leader_dashboard.py,
 ui/admin_dashboard.py, email_module/email_action_api.py).

 An action reads the store, runs the guards its caller makes, and issues a
 list of writes: each write is one call into the database module, committed
 on its own, and `ApplyAll` applies them in order. The store accepts any
 status string, so every rule about statuses lives here, in the guards.
 Dialog answers, file existence, connectivity and the mail send are
 parameters; the writes of one action share one timestamp.
 */
module Workflow {
  import opened Common
  import opened Store
  import Views
  import Auth
  import Delivery
  import Notify

  // ---------------------------------------------------------------------------
  // Writes

  /** One database call. */
  datatype Write =
    | NewReport(owner: Id, title: string)
    | PutField(report: Id, name: string, value: string)
    | SetStatus(report: Id, status: string, actor: Id)
    | AppendLog(report: Id, actor: Id, action: string, comments: Option<string>)
    | Enqueue(report: Id, admin: Id, pdfPath: string)
    | SendNotice(user: Id, subject: string, message: string)

  /** `b` is `a` with at most its status and last-modified columns changed. */
  predicate Kept(a: Report, b: Report)
  {
    b == a.(status := b.status, lastModifiedBy := b.lastModifiedBy, lastModifiedAt := b.lastModifiedAt)
  }

  predicate IsEnqueue(w: Write) { w.Enqueue? }

  /** One committed write. */
  function Apply(s: Store, w: Write, at: Stamp): (r: Store)
    ensures r.users == s.users
    ensures !w.PutField? ==> r.fields == s.fields
    ensures w.PutField? ==> r == s.(fields := r.fields)
  {
    match w
    case NewReport(owner, title) => CreateReport(s, owner, title, at).0
    case PutField(rid, name, value) => AddReportData(s, rid, name, value)
    case SetStatus(rid, status, actor) => UpdateReportStatus(s, rid, status, actor, at).0
    case AppendLog(rid, actor, action, comments) => AddApprovalLog(s, rid, actor, action, comments, at)
    case Enqueue(rid, admin, path) => AddEmailQueue(s, rid, admin, path, at)
    case SendNotice(user, subject, message) => Notify.SendReportNotification(s, user, subject, message, at, true).0
  }

  /** Only a log write touches the approval log, and it appends one row. */
  lemma ApplyLogs(s: Store, w: Write, at: Stamp)
    ensures var r := Apply(s, w, at);
      && r.logs == s.logs + (if w.AppendLog? then [LogRow(s.nextLog, w.report, w.actor, w.action, w.comments, at)] else [])
      && r.nextLog == s.nextLog + (if w.AppendLog? then 1 else 0)
  {
  }

  /** Only an enqueue write touches the queue, and it appends one pending job. */
  lemma ApplyQueue(s: Store, w: Write, at: Stamp)
    ensures var r := Apply(s, w, at);
      && r.queue == s.queue + (if w.Enqueue? then [Job(s.nextJob, w.report, w.admin, w.pdfPath, at, PENDING, None)] else [])
      && r.nextJob == s.nextJob + (if w.Enqueue? then 1 else 0)
  {
  }

  /** Only a status write changes an existing report: every row of that id
      gets the status and the last-modified columns, and nothing else moves.
      Only a new-report write adds a row, a `draft` at version 1. */
  lemma ApplyReports(s: Store, w: Write, at: Stamp)
    ensures var r := Apply(s, w, at);
      && |r.reports| == |s.reports| + (if w.NewReport? then 1 else 0)
      && r.nextReport == s.nextReport + (if w.NewReport? then 1 else 0)
      && (forall i :: 0 <= i < |s.reports| ==>
            r.reports[i] == (if w.SetStatus? && s.reports[i].id == w.report
                             then s.reports[i].(status := w.status, lastModifiedBy := w.actor, lastModifiedAt := at)
                             else s.reports[i]))
      && (w.NewReport? ==> r.reports[|s.reports|] == Report(s.nextReport, w.owner, w.title, DRAFT, 1, w.owner, at, None))
  {
  }

  /** The writes committed one after the other. */
  function ApplyAll(s: Store, ws: seq<Write>, at: Stamp): (r: Store)
    ensures r.users == s.users
    decreases |ws|
  {
    if |ws| == 0 then s else ApplyAll(Apply(s, ws[0], at), ws[1..], at)
  }

  /** Every status some write of `ws` sets lies in `allowed`. */
  predicate WritesOnly(ws: seq<Write>, allowed: set<string>)
  {
    forall k :: 0 <= k < |ws| && ws[k].SetStatus? ==> ws[k].status in allowed
  }

  /** The status a report with id `rid` ends with, starting from `st`: the
      status of the last status write for it, if any. */
  function FinalStatus(ws: seq<Write>, rid: Id, st: string): string
    decreases |ws|
  {
    if |ws| == 0 then st
    else FinalStatus(ws[1..], rid, if ws[0].SetStatus? && ws[0].report == rid then ws[0].status else st)
  }

  lemma {:induction false} ApplyAllAppend(s: Store, a: seq<Write>, b: seq<Write>, at: Stamp)
    ensures ApplyAll(s, a + b, at) == ApplyAll(ApplyAll(s, a, at), b, at)
    decreases |a|
  {
    if |a| > 0 {
      assert (a + b)[0] == a[0] && (a + b)[1..] == a[1..] + b;
      ApplyAllAppend(Apply(s, a[0], at), a[1..], b, at);
    } else {
      assert a + b == b;
    }
  }

  /** The approval-log rows the log writes among `ws` ask for, in order,
      numbered from `next`. */
  function LogRows(ws: seq<Write>, next: Id, at: Stamp): seq<LogRow>
    decreases |ws|
  {
    if |ws| == 0 then []
    else if ws[0].AppendLog? then
      [LogRow(next, ws[0].report, ws[0].actor, ws[0].action, ws[0].comments, at)] + LogRows(ws[1..], next + 1, at)
    else LogRows(ws[1..], next, at)
  }

  /** The approval log only grows: the old rows stay, and the rows of the log
      writes follow, in order and with consecutive ids. */
  lemma {:induction false} ApplyAllLogs(s: Store, ws: seq<Write>, at: Stamp)
    ensures var r := ApplyAll(s, ws, at);
      && r.logs == s.logs + LogRows(ws, s.nextLog, at)
      && r.nextLog == s.nextLog + |LogRows(ws, s.nextLog, at)|
    decreases |ws|
  {
    if |ws| > 0 {
      var s1 := Apply(s, ws[0], at);
      ApplyLogs(s, ws[0], at);
      ApplyAllLogs(s1, ws[1..], at);
      if ws[0].AppendLog? {
        assert s.logs + LogRows(ws, s.nextLog, at) == s1.logs + LogRows(ws[1..], s1.nextLog, at);
      }
    }
  }

  /** The e-mail queue only grows, by one job per enqueue write. */
  lemma {:induction false} ApplyAllQueue(s: Store, ws: seq<Write>, at: Stamp)
    ensures var r := ApplyAll(s, ws, at);
      |r.queue| == |s.queue| + Count(ws, IsEnqueue) && r.queue[..|s.queue|] == s.queue
    decreases |ws|
  {
    if |ws| > 0 {
      var s1 := Apply(s, ws[0], at);
      ApplyQueue(s, ws[0], at);
      ApplyAllQueue(s1, ws[1..], at);
      var r := ApplyAll(s, ws, at);
      assert r.queue[..|s1.queue|] == s1.queue;
      assert r.queue[..|s.queue|] == s1.queue[..|s.queue|];
      if IsEnqueue(ws[0]) {
        assert Filter(ws, IsEnqueue) == [ws[0]] + Filter(ws[1..], IsEnqueue);
      } else {
        assert Filter(ws, IsEnqueue) == Filter(ws[1..], IsEnqueue);
      }
    }
  }

  /** Existing reports keep everything but their status and last-modified
      columns, so `version` never moves, and each ends with the status of the
      last write for it. */
  lemma {:induction false} ApplyAllReports(s: Store, ws: seq<Write>, at: Stamp)
    ensures var r := ApplyAll(s, ws, at);
      && |s.reports| <= |r.reports|
      && (forall i :: 0 <= i < |s.reports| ==> Kept(s.reports[i], r.reports[i]))
      && (forall i :: 0 <= i < |s.reports| ==>
            r.reports[i].status == FinalStatus(ws, s.reports[i].id, s.reports[i].status))
    decreases |ws|
  {
    if |ws| > 0 {
      ApplyReports(s, ws[0], at);
      ApplyAllReports(Apply(s, ws[0], at), ws[1..], at);
    }
  }

  /** Reports created on the way start at version 1 and in `draft`, and
      every status they or the old ones end with is an old one or allowed. */
  lemma {:induction false} ApplyAllStatuses(s: Store, ws: seq<Write>, at: Stamp, allowed: set<string>)
    requires WritesOnly(ws, allowed)
    ensures var r := ApplyAll(s, ws, at);
      && |s.reports| <= |r.reports|
      && (forall i :: 0 <= i < |s.reports| ==>
            r.reports[i].status == s.reports[i].status || r.reports[i].status in allowed)
      && (forall i :: |s.reports| <= i < |r.reports| ==>
            r.reports[i].version == 1 && (r.reports[i].status == DRAFT || r.reports[i].status in allowed))
    decreases |ws|
  {
    ApplyAllReports(s, ws, at);
    if |ws| > 0 {
      var s1 := Apply(s, ws[0], at);
      ApplyReports(s, ws[0], at);
      assert WritesOnly(ws[1..], allowed) by {
        forall k | 0 <= k < |ws[1..]| && ws[1..][k].SetStatus? ensures ws[1..][k].status in allowed {
          assert ws[1..][k] == ws[k + 1];
        }
      }
      ApplyAllStatuses(s1, ws[1..], at, allowed);
      ApplyAllReports(s1, ws[1..], at);
    }
  }

  lemma {:induction false} FinalStatusAppend(a: seq<Write>, b: seq<Write>, rid: Id, st: string)
    ensures FinalStatus(a + b, rid, st) == FinalStatus(b, rid, FinalStatus(a, rid, st))
    decreases |a|
  {
    if |a| > 0 {
      assert (a + b)[0] == a[0] && (a + b)[1..] == a[1..] + b;
      FinalStatusAppend(a[1..], b, rid, if a[0].SetStatus? && a[0].report == rid then a[0].status else st);
    } else {
      assert a + b == b;
    }
  }

  /** Writes without a status write leave every status as it was. */
  lemma {:induction false} FinalStatusUnwritten(ws: seq<Write>, rid: Id, st: string)
    requires forall k :: 0 <= k < |ws| ==> !ws[k].SetStatus?
    ensures FinalStatus(ws, rid, st) == st
    decreases |ws|
  {
    if |ws| > 0 {
      FinalStatusUnwritten(ws[1..], rid, st);
    }
  }

  /** Writes that only store fields or send notifications leave reports,
      logs and the queue as they were. */
  predicate Quiet(w: Write) { w.PutField? || w.SendNotice? }

  lemma {:induction false} ApplyAllQuiet(s: Store, ws: seq<Write>, at: Stamp)
    requires forall k :: 0 <= k < |ws| ==> Quiet(ws[k])
    ensures var r := ApplyAll(s, ws, at);
      && r.reports == s.reports && r.logs == s.logs && r.queue == s.queue
      && r.nextReport == s.nextReport && r.nextLog == s.nextLog && r.nextJob == s.nextJob
    decreases |ws|
  {
    if |ws| > 0 {
      var s1 := Apply(s, ws[0], at);
      ApplyReports(s, ws[0], at);
      ApplyLogs(s, ws[0], at);
      ApplyQueue(s, ws[0], at);
      assert s1.reports == s.reports;
      ApplyAllQuiet(s1, ws[1..], at);
    }
  }

  /** A run of writes none of which touches fields leaves them alone. */
  lemma {:induction false} ApplyAllFields(s: Store, ws: seq<Write>, at: Stamp)
    requires forall k :: 0 <= k < |ws| ==> !ws[k].PutField?
    ensures ApplyAll(s, ws, at).fields == s.fields
    decreases |ws|
  {
    if |ws| > 0 {
      ApplyAllFields(Apply(s, ws[0], at), ws[1..], at);
    }
  }

  /** Two writes in a row. */
  lemma ApplyTwo(s: Store, a: Write, b: Write, at: Stamp)
    ensures ApplyAll(s, [a, b], at) == Apply(Apply(s, a, at), b, at)
  {
    assert [a, b][1..] == [b];
    assert [b][1..] == [];
    var s1 := Apply(s, a, at);
    assert ApplyAll(s, [a, b], at) == ApplyAll(s1, [b], at);
    assert ApplyAll(s1, [b], at) == ApplyAll(Apply(s1, b, at), [], at);
  }

  /** One field write per collected (name, value) pair, in order. */
  function PutFields(rid: Id, data: Views.FormData): (ws: seq<Write>)
    ensures |ws| == |data|
    ensures forall k :: 0 <= k < |data| ==> ws[k] == PutField(rid, data[k].0, data[k].1)
  {
    seq(|data|, k requires 0 <= k < |data| => PutField(rid, data[k].0, data[k].1))
  }

  /** After the field writes, a name the form collected is stored for the
      report, and every row for it holds the value the form ends with. */
  lemma {:induction false} PutFieldsStore(s: Store, rid: Id, data: Views.FormData, at: Stamp, name: string)
    requires Views.FormValue(data, name).Some?
    ensures var r := ApplyAll(s, PutFields(rid, data), at);
      && (exists i :: 0 <= i < |r.fields| && FieldMatch(r.fields[i], rid, name))
      && (forall i :: 0 <= i < |r.fields| && FieldMatch(r.fields[i], rid, name) ==>
            r.fields[i].value == Views.FormValue(data, name).value)
    decreases |data|
  {
    if |data| > 0 {
      var init := data[..|data| - 1];
      var last := data[|data| - 1];
      var w := PutField(rid, last.0, last.1);
      assert PutFields(rid, data) == PutFields(rid, init) + [w];
      ApplyAllAppend(s, PutFields(rid, init), [w], at);
      var s1 := ApplyAll(s, PutFields(rid, init), at);
      var r := ApplyAll(s, PutFields(rid, data), at);
      assert r == Apply(s1, w, at) by {
        assert [w][1..] == [];
      }
      if last.0 != name {
        assert Views.FormValue(data, name) == Views.FormValue(init, name);
        PutFieldsStore(s, rid, init, at, name);
        var j :| 0 <= j < |s1.fields| && FieldMatch(s1.fields[j], rid, name);
        assert r.fields[j] == s1.fields[j];
        forall i | 0 <= i < |r.fields| && FieldMatch(r.fields[i], rid, name)
          ensures r.fields[i].value == Views.FormValue(data, name).value
        {
          assert i < |s1.fields|;
          assert !FieldMatch(s1.fields[i], rid, last.0);
        }
      }
    }
  }

  /** Writes without a field write leave the fields alone; with the above,
      a form's values are still readable after the writes that follow them. */
  lemma FieldsReadBack(s: Store, rid: Id, data: Views.FormData, tail: seq<Write>, at: Stamp, name: string)
    requires Views.FormValue(data, name).Some?
    requires forall k :: 0 <= k < |tail| ==> !tail[k].PutField?
    ensures var r := ApplyAll(ApplyAll(s, PutFields(rid, data), at), tail, at);
      name in FieldMap(r.fields, rid) && FieldMap(r.fields, rid)[name] == Views.FormValue(data, name).value
  {
    var s1 := ApplyAll(s, PutFields(rid, data), at);
    PutFieldsStore(s, rid, data, at, name);
    ApplyAllFields(s1, tail, at);
    FieldMapAgrees(s1.fields, rid, name, Views.FormValue(data, name).value);
  }

  // ---------------------------------------------------------------------------
  // Actions

  /** What the caller shows: a warning box, the missing-fields warning, a
      dialog the user declined, success, the endpoint's JSON reply, or an
      uncaught exception, which the application's exception hook reports
      before it exits (main.py:30-67). */
  datatype Reply =
    | Refused(message: string)
    | MissingInformation(fields: seq<string>)
    | Cancelled
    | Done
    | Http(code: int, success: bool, message: string)
    | Crashed(error: string)

  /** The writes an action issues, in order, and its reply. */
  datatype Plan = Plan(writes: seq<Write>, reply: Reply)

  const NO_DATA := "Please open and edit the template first."
  const FILE_NOT_FOUND := "The Excel file cannot be found. Please open the template again."
  const MISSING_SIGNATURE := "Your profile is missing employee code or designation required for digital signature. Please contact an administrator to update your profile."
  const REPORT_NOT_FOUND := "Report not found."
  const TITLE_FIRST := "Please enter a report title first."
  const MISSING_TITLE := "Please enter a title for this report."
  const COPY_FAILED := "Failed to copy template file: "
  const MISSING_COMMENTS := "Please provide comments explaining what needs to be revised."
  const REVISION_COMMENTS := "Please provide revision comments for the author."
  const FAILED_TO_APPROVE := "Failed to approve report."
  const STATUS_NOT_UPDATED := "Failed to update report status."

  const SUBMISSION := "Submission with digital signature: "
  const INITIAL_SUBMISSION := "Initial submission"
  const LEADER_NOTE := "Approved by Unit Leader"
  const SIGNATURE_NOTE := "Digital Signature: "
  const REPORT_TITLE_FIELD := "report_title"
  const EXCEL_PATH_FIELD := "excel_file_path"

  const MISSING_ARGS := "Missing report_id or admin_id"
  const HTTP_NOT_FOUND := "Report not found"
  const EMAIL_SENT := "Email sent successfully"
  const EMAIL_QUEUED := "Email queued for later: "
  const OFFLINE_QUEUED := "Offline mode, email queued for later"
  const PDF_OR_EMAIL_ERROR := "PDF or Email error: "
  const SENT_BACK := "Report sent back for review"

  /** The digital signature text: "{emp_code} - {designation}". */
  function Signature(empCode: string, designation: string): string
  {
    empCode + " - " + designation
  }

  /** The signature always holds a '-', so it is never blank after strip. */
  lemma SignatureNeverBlank(empCode: string, designation: string)
    ensures Strip(Signature(empCode, designation)) != ""
  {
    var sig := Signature(empCode, designation);
    StripEmptyIffAllSpace(sig);
    assert sig[|empCode| + 1] == '-';
  }

  /** The user the dashboard signs for: the logged-in user looked up afresh. */
  function Signer(s: Store, current: Option<Id>): (u: Option<User>)
    ensures u.Some? ==> current.Some? && u.value in s.users && u.value.id == current.value
    ensures current.None? ==> u.None?
  {
    if current.Some? then GetUserById(s, current.value) else None
  }

  /** `not user or not emp_code or not designation` fails. */
  predicate CanSign(u: Option<User>)
  {
    u.Some? && u.value.empCode != "" && u.value.designation != ""
  }

  /** The two writes of a signed submission. */
  function SubmitWrites(rid: Id, u: User): seq<Write>
  {
    [SetStatus(rid, SUBMITTED, u.id),
     AppendLog(rid, u.id, SUBMIT, Some(SUBMISSION + Signature(u.empCode, u.designation)))]
  }

  /** The common tail of both dashboard submits: the signer check, the
      confirmation, then the two writes. */
  function SignAndSubmit(s: Store, rid: Id, current: Option<Id>, confirmed: bool): (p: Plan)
    ensures p.reply == Done <==> CanSign(Signer(s, current)) && confirmed
    ensures p.reply != Done ==> p.writes == []
    ensures !CanSign(Signer(s, current)) ==> p.reply == Refused(MISSING_SIGNATURE)
    ensures p.reply == Done ==> p.writes == SubmitWrites(rid, Signer(s, current).value)
    ensures WritesOnly(p.writes, {SUBMITTED})
  {
    var u := Signer(s, current);
    if !CanSign(u) then Plan([], Refused(MISSING_SIGNATURE))
    else if !confirmed then Plan([], Cancelled)
    else Plan(SubmitWrites(rid, u.value), Done)
  }

  /** `ExcelReportForm.submit_report`: the editor must hold a report and an
      Excel path, and the file must exist; no report lookup is made. */
  function EditorSubmit(s: Store, editing: Option<Id>, excelPath: Option<string>, fileExists: bool,
                        current: Option<Id>, confirmed: bool): (p: Plan)
    ensures p.reply == Done <==>
      editing.Some? && excelPath.Some? && excelPath.value != "" && fileExists &&
      CanSign(Signer(s, current)) && confirmed
    ensures p.reply != Done ==> p.writes == []
    ensures p.reply == Done ==> p.writes == SubmitWrites(editing.value, Signer(s, current).value)
    ensures WritesOnly(p.writes, {SUBMITTED})
  {
    if editing.None? || excelPath.None? || excelPath.value == "" then Plan([], Refused(NO_DATA))
    else if !fileExists then Plan([], Refused(FILE_NOT_FOUND))
    else SignAndSubmit(s, editing.value, current, confirmed)
  }

  /** `UserDashboard.submit_report`: the report must be found; its status is
      not checked here, only by which rows show the button. */
  function DashboardSubmit(s: Store, rid: Id, current: Option<Id>, confirmed: bool): (p: Plan)
    ensures p.reply == Done <==> GetReport(s, rid).Some? && CanSign(Signer(s, current)) && confirmed
    ensures p.reply != Done ==> p.writes == []
    ensures GetReport(s, rid).None? ==> p.reply == Refused(REPORT_NOT_FOUND)
    ensures p.reply == Done ==> p.writes == SubmitWrites(rid, Signer(s, current).value)
    ensures WritesOnly(p.writes, {SUBMITTED})
  {
    if GetReport(s, rid).None? then Plan([], Refused(REPORT_NOT_FOUND))
    else SignAndSubmit(s, rid, current, confirmed)
  }

  const NO_ACTIVE_TEMPLATE := "No active template found. Please contact an administrator."
  const OPEN_FAILED := "Failed to open Excel file: "
  const COPY_OR_OPEN_FAILED := "Failed to copy or open file: "
  /** The `TypeError` Python raises for indexing a list with a string. */
  const LIST_INDEX_ERROR := "list indices must be integers or slices, not str"

  /** The refusal for a report whose status does not allow editing. */
  function NotEditable(status: string): string
  {
    "This report is in '" + Views.StatusDisplayText(status) + "' status and cannot be edited."
  }

  /** The workbook `edit_report` finds recorded for a report: its
      `excel_file_path` field, when that is present and non-empty. */
  function RecordedWorkbook(rv: ReportView): (p: Option<string>)
    ensures p.Some? <==> EXCEL_PATH_FIELD in rv.fields && rv.fields[EXCEL_PATH_FIELD] != ""
    ensures p.Some? ==> p.value == rv.fields[EXCEL_PATH_FIELD]
  {
    if EXCEL_PATH_FIELD in rv.fields && rv.fields[EXCEL_PATH_FIELD] != "" then Some(rv.fields[EXCEL_PATH_FIELD]) else None
  }

  /** `UserDashboard.edit_report` as written. `templates` is what
      `get_active_template()` returns: the list of every template row, or []
      on a database error. An editable report's recorded workbook is opened
      when it exists on disk; otherwise an empty list is refused, and any
      other list is indexed with `'file_path'` (line 920), which raises a
      `TypeError` outside the `try` of lines 924-941: nothing is copied or
      recorded, and the exception reaches the exception hook. */
  function EditReportAsWritten(s: Store, rid: Id, reportsDir: string, recordedExists: bool, templates: seq<string>,
                               copyError: Option<string>, openError: Option<string>): (p: Plan)
    ensures p.writes == []
    ensures GetReport(s, rid).None? ==> p.reply == Refused(REPORT_NOT_FOUND)
    ensures GetReport(s, rid).Some? && !Views.CanEdit(GetReport(s, rid).value.report.status) ==>
      p.reply == Refused(NotEditable(GetReport(s, rid).value.report.status))
    ensures p.reply.Crashed? <==>
      && GetReport(s, rid).Some? && Views.CanEdit(GetReport(s, rid).value.report.status)
      && !(RecordedWorkbook(GetReport(s, rid).value).Some? && recordedExists)
      && |templates| > 0
    ensures p.reply.Crashed? ==> p.reply.error == LIST_INDEX_ERROR
    ensures p.reply == Done <==>
      && GetReport(s, rid).Some? && Views.CanEdit(GetReport(s, rid).value.report.status)
      && RecordedWorkbook(GetReport(s, rid).value).Some? && recordedExists && openError.None?
  {
    match GetReport(s, rid)
    case None => Plan([], Refused(REPORT_NOT_FOUND))
    case Some(rv) =>
      if !Views.CanEdit(rv.report.status) then Plan([], Refused(NotEditable(rv.report.status)))
      else if RecordedWorkbook(rv).Some? && recordedExists then
        (if openError.Some? then Plan([], Refused(OPEN_FAILED + openError.value)) else Plan([], Done))
      else if |templates| == 0 then Plan([], Refused(NO_ACTIVE_TEMPLATE))
      else Plan([], Crashed(LIST_INDEX_ERROR))
  }

  /** `UserDashboard.edit_report` as intended: the first template of the list
      is the one copied, to "report_{id}_{template file name}" in the owner's
      directory, and the copy's path is recorded before it is opened. An
      opener failure after the copy keeps the recorded path. */
  function EditReport(s: Store, rid: Id, reportsDir: string, recordedExists: bool, templates: seq<string>,
                      copyError: Option<string>, openError: Option<string>): (p: Plan)
    ensures GetReport(s, rid).None? ==> p == Plan([], Refused(REPORT_NOT_FOUND))
    ensures GetReport(s, rid).Some? && !Views.CanEdit(GetReport(s, rid).value.report.status) ==>
      p == Plan([], Refused(NotEditable(GetReport(s, rid).value.report.status)))
    // the only write records a fresh copy of the first template
    ensures p.writes != [] <==>
      && GetReport(s, rid).Some? && Views.CanEdit(GetReport(s, rid).value.report.status)
      && !(RecordedWorkbook(GetReport(s, rid).value).Some? && recordedExists)
      && |templates| > 0 && copyError.None?
    ensures p.writes != [] ==>
      p.writes == [PutField(rid, EXCEL_PATH_FIELD, reportsDir + "/" + Views.ReportFileName(rid, templates[0]))]
    ensures p.reply == Done <==>
      && GetReport(s, rid).Some? && Views.CanEdit(GetReport(s, rid).value.report.status)
      && ((RecordedWorkbook(GetReport(s, rid).value).Some? && recordedExists) || (|templates| > 0 && copyError.None?))
      && openError.None?
    ensures !p.reply.Crashed?
  {
    match GetReport(s, rid)
    case None => Plan([], Refused(REPORT_NOT_FOUND))
    case Some(rv) =>
      if !Views.CanEdit(rv.report.status) then Plan([], Refused(NotEditable(rv.report.status)))
      else if RecordedWorkbook(rv).Some? && recordedExists then
        (if openError.Some? then Plan([], Refused(OPEN_FAILED + openError.value)) else Plan([], Done))
      else if |templates| == 0 then Plan([], Refused(NO_ACTIVE_TEMPLATE))
      else if copyError.Some? then Plan([], Refused(COPY_OR_OPEN_FAILED + copyError.value))
      else
        var record := [PutField(rid, EXCEL_PATH_FIELD, reportsDir + "/" + Views.ReportFileName(rid, templates[0]))];
        if openError.Some? then Plan(record, Refused(COPY_OR_OPEN_FAILED + openError.value)) else Plan(record, Done)
  }

  /** The discrepancy: where the intended edit copies the template and
      records the copy, the code as written crashes and records nothing;
      everywhere else the two agree. */
  lemma EditReportCrashesAsWritten(s: Store, rid: Id, reportsDir: string, recordedExists: bool, templates: seq<string>,
                                   copyError: Option<string>, openError: Option<string>)
    ensures var written := EditReportAsWritten(s, rid, reportsDir, recordedExists, templates, copyError, openError);
      var intended := EditReport(s, rid, reportsDir, recordedExists, templates, copyError, openError);
      && (intended.writes != [] ==> written == Plan([], Crashed(LIST_INDEX_ERROR)))
      && (!written.reply.Crashed? ==> written == intended)
  {
  }

  /** Recording the copy is what `generate_report_pdf` later looks for: once
      it is recorded and on disk, the next edit opens it and copies nothing,
      whatever the templates and the copy would do. */
  lemma EditReportCopiesOnce(s: Store, rid: Id, reportsDir: string, recordedExists: bool, templates: seq<string>,
                             copyError: Option<string>, openError: Option<string>, at: Stamp,
                             templates2: seq<string>, copyError2: Option<string>, openError2: Option<string>)
    requires EditReport(s, rid, reportsDir, recordedExists, templates, copyError, openError).writes != []
    ensures var s2 := ApplyAll(s, EditReport(s, rid, reportsDir, recordedExists, templates, copyError, openError).writes, at);
      && GetReport(s2, rid).Some?
      && RecordedWorkbook(GetReport(s2, rid).value) == Some(reportsDir + "/" + Views.ReportFileName(rid, templates[0]))
      && EditReport(s2, rid, reportsDir, true, templates2, copyError2, openError2).writes == []
  {
    var path := reportsDir + "/" + Views.ReportFileName(rid, templates[0]);
    var w := PutField(rid, EXCEL_PATH_FIELD, path);
    var s1 := Apply(s, w, at);
    assert ApplyAll(s, [w], at) == ApplyAll(s1, [], at);
    AddReportDataThenRead(s, rid, EXCEL_PATH_FIELD, path);
    assert s1 == s.(fields := s1.fields);
    assert FindReport(s1, rid) == FindReport(s, rid);
    assert path != "" by { assert path[|reportsDir|] == '/'; }
  }

  /** `open_template_for_editing`: with a (non-empty, unstripped) title, a
      draft report is created unless the editor already holds one; the first
      time the per-report copy does not exist yet, the template is copied and
      the title and the copy's path are stored as fields. A failed copy is
      reported after the report was created. */
  function EditorOpen(s: Store, owner: Id, title: string, editing: Option<Id>, reportsDir: string,
                      templatePath: string, fileExists: bool, copyError: Option<string>): (p: Plan)
    ensures title == "" ==> p == Plan([], Refused(TITLE_FIRST))
    ensures title != "" && editing.None? ==> |p.writes| > 0 && p.writes[0] == NewReport(owner, title)
    ensures forall k :: 0 <= k < |p.writes| ==> !p.writes[k].SetStatus? && !p.writes[k].AppendLog?
    ensures p.reply == Done <==> title != "" && (fileExists || copyError.None?)
  {
    if title == "" then Plan([], Refused(TITLE_FIRST))
    else
      var create := if editing.None? then [NewReport(owner, title)] else [];
      var rid := if editing.Some? then editing.value else s.nextReport;
      var path := reportsDir + "/" + Views.ReportFileName(rid, templatePath);
      if fileExists then Plan(create, Done)
      else if copyError.Some? then Plan(create, Refused(COPY_FAILED + copyError.value))
      else Plan(create + [PutField(rid, REPORT_TITLE_FIELD, title), PutField(rid, EXCEL_PATH_FIELD, path)], Done)
  }

  /** `ExcelReportForm.save_as_draft`: the held report is set to `draft`
      whatever its status, and no log is written. */
  function EditorSaveDraft(s: Store, owner: Id, editing: Option<Id>, excelPath: Option<string>,
                           fileExists: bool): (p: Plan)
    ensures p.reply == Done <==> editing.Some? && excelPath.Some? && excelPath.value != "" && fileExists
    ensures p.reply != Done ==> p.writes == []
    ensures p.reply == Done ==> p.writes == [SetStatus(editing.value, DRAFT, owner)]
    ensures WritesOnly(p.writes, {DRAFT})
  {
    if editing.None? || excelPath.None? || excelPath.value == "" then Plan([], Refused(NO_DATA))
    else if !fileExists then Plan([], Refused(FILE_NOT_FOUND))
    else Plan([SetStatus(editing.value, DRAFT, owner)], Done)
  }

  /** `ReportForm.save_as_draft`: with a title that is not blank after strip,
      a draft report under the stripped title and one field write per
      collected value. */
  function FormSave(s: Store, owner: Id, title: string, data: Views.FormData): (p: Plan)
    ensures p.reply == Done <==> Strip(title) != ""
    ensures p.reply != Done ==> p.writes == []
    ensures p.reply == Done ==> p.writes == [NewReport(owner, Strip(title))] + PutFields(s.nextReport, data)
  {
    if Strip(title) == "" then Plan([], Refused(MISSING_TITLE))
    else Plan([NewReport(owner, Strip(title))] + PutFields(s.nextReport, data), Done)
  }

  /** The writes of a form submission, in the order the form makes them. */
  function FormSubmitWrites(s: Store, owner: Id, title: string, data: Views.FormData): seq<Write>
  {
    [NewReport(owner, title)] + PutFields(s.nextReport, data) +
    [SetStatus(s.nextReport, SUBMITTED, owner), AppendLog(s.nextReport, owner, SUBMIT, Some(INITIAL_SUBMISSION))]
  }

  /** `ReportForm.submit_report`: after the title check, every required field
      of the form (a name mentioning "date" or "supervisor") must hold a
      non-empty value, or nothing is created. No signature check is made. */
  function FormSubmit(s: Store, owner: Id, title: string, fieldNames: seq<string>, data: Views.FormData): (p: Plan)
    ensures p.reply == Done <==> Strip(title) != "" && Views.MissingFields(fieldNames, data) == []
    ensures p.reply != Done ==> p.writes == []
    ensures p.reply.MissingInformation? ==>
      p.reply.fields != [] &&
      forall n :: n in p.reply.fields <==> n in fieldNames && Views.IsRequiredName(n) && Views.IsBlank(Views.FormValue(data, n))
    ensures p.reply == Done ==> p.writes == FormSubmitWrites(s, owner, Strip(title), data)
  {
    if Strip(title) == "" then Plan([], Refused(MISSING_TITLE))
    else
      var missing := Views.MissingFields(fieldNames, data);
      if missing != [] then Plan([], MissingInformation(missing))
      else Plan(FormSubmitWrites(s, owner, Strip(title), data), Done)
  }

  /** `UnitLeaderDashboard.approve_report`: on confirmation, `approved_leader`
      and one `approve_leader` log. The status is not checked here; the
      e-mail to the admins is not modelled. */
  function LeaderApprove(s: Store, leader: Id, rid: Id, confirmed: bool): (p: Plan)
    ensures p.reply == Done <==> confirmed
    ensures !confirmed ==> p == Plan([], Cancelled)
    ensures confirmed ==>
      p.writes == [SetStatus(rid, APPROVED_LEADER, leader), AppendLog(rid, leader, APPROVE_LEADER, Some(LEADER_NOTE))]
    ensures WritesOnly(p.writes, {APPROVED_LEADER})
  {
    if !confirmed then Plan([], Cancelled)
    else Plan([SetStatus(rid, APPROVED_LEADER, leader), AppendLog(rid, leader, APPROVE_LEADER, Some(LEADER_NOTE))], Done)
  }

  /** `UnitLeaderDashboard.send_back_report`: `None` is a cancelled dialog;
      empty comments are refused, but whitespace is accepted as it is (no
      strip) and stored in the `send_back` log. */
  function LeaderSendBack(s: Store, leader: Id, rid: Id, comments: Option<string>): (p: Plan)
    ensures p.reply == Done <==> comments.Some? && comments.value != ""
    ensures p.reply != Done ==> p.writes == []
    ensures p.reply == Done ==>
      p.writes == [SetStatus(rid, NEEDS_REVISION, leader), AppendLog(rid, leader, SEND_BACK, comments)]
    ensures WritesOnly(p.writes, {NEEDS_REVISION})
  {
    match comments
    case None => Plan([], Cancelled)
    case Some(c) =>
      if c == "" then Plan([], Refused(MISSING_COMMENTS))
      else Plan([SetStatus(rid, NEEDS_REVISION, leader), AppendLog(rid, leader, SEND_BACK, Some(c))], Done)
  }

  /** The final-approval log comment: the admin's signature after
      "Digital Signature: ", preceded by the comments and a newline when there
      are comments. The blank-signature branch of the source cannot be taken. */
  function AdminLogComment(comments: string, empCode: string, designation: string): (r: string)
    ensures EndsWith(r, SIGNATURE_NOTE + Signature(empCode, designation))
    ensures comments != "" ==> StartsWith(r, comments + "\n")
    ensures comments == "" ==> r == SIGNATURE_NOTE + Signature(empCode, designation)
  {
    var sig := Signature(empCode, designation);
    SignatureNeverBlank(empCode, designation);
    ConcatEnds(comments + "\n", SIGNATURE_NOTE + sig);
    if Strip(sig) != "" then
      if comments != "" then (comments + "\n") + (SIGNATURE_NOTE + sig) else SIGNATURE_NOTE + sig
    else comments
  }

  /** The notification to the unit leader whose approval is the latest, sent
      only for a report in `leader_approved` (a status no write sets). The two
      writes before it add no `approve_leader` row, so the lookup may use the
      store as the action found it. */
  function LeaderNotice(s: Store, rid: Id, title: string, adminName: string): seq<Write>
  {
    match GetLeaderApproval(s, rid)
    case None => []
    case Some(v) =>
      [SendNotice(v.log.actor, "Report '" + title + "' Final Approval",
                  "A report you approved has received final approval from " + adminName + ".")]
  }

  /** The notification to a report's author, when its `user_id` is truthy:
      "Report '{title}" then `subjectEnd`. */
  function AuthorNotice(report: Report, subjectEnd: string, message: string): (ws: seq<Write>)
    ensures |ws| <= 1 && (|ws| == 1 <==> report.owner != 0)
    ensures forall k :: 0 <= k < |ws| ==> ws[k].SendNotice? && ws[k].user == report.owner
  {
    if report.owner != 0 then [SendNotice(report.owner, "Report '" + report.title + subjectEnd, message)] else []
  }

  /** The notifications of a final approval: the author's, then, for a
      `leader_approved` report only, the approving leader's. */
  function ApprovalNotices(s: Store, report: Report, adminName: string): (ws: seq<Write>)
    ensures forall k :: 0 <= k < |ws| ==> ws[k].SendNotice?
    ensures report.status != Views.LEADER_APPROVED ==>
      |ws| == (if report.owner != 0 then 1 else 0) && forall k :: 0 <= k < |ws| ==> ws[k].user == report.owner
  {
    var author := AuthorNotice(report, "' Approved", "Your report has received final approval from " + adminName + ".");
    var leader := if report.status == Views.LEADER_APPROVED then LeaderNotice(s, report.id, report.title, adminName) else [];
    author + leader
  }

  /** `AdminDashboard.approve_report`: a report that is not found is refused;
      a cancelled dialog shows "Failed to approve report."; otherwise the
      status write (its result unchecked), the log with the composed comment,
      and the author's notification. PDF generation writes nothing here. */
  function AdminApprove(s: Store, admin: Auth.Account, rid: Id, comments: Option<string>): (p: Plan)
    ensures p.reply == Done <==> GetReport(s, rid).Some? && comments.Some?
    ensures p.reply != Done ==> p.writes == []
    ensures GetReport(s, rid).Some? && comments.None? ==> p.reply == Refused(FAILED_TO_APPROVE)
    ensures p.reply == Done ==>
      |p.writes| >= 2 && p.writes[0] == SetStatus(rid, APPROVED_ADMIN, admin.id) &&
      p.writes[1] == AppendLog(rid, admin.id, APPROVE_ADMIN, Some(AdminLogComment(comments.value, admin.empCode, admin.designation))) &&
      forall k :: 2 <= k < |p.writes| ==> p.writes[k].SendNotice?
  {
    match GetReport(s, rid)
    case None => Plan([], Refused(REPORT_NOT_FOUND))
    case Some(view) =>
      match comments
      case None => Plan([], Refused(FAILED_TO_APPROVE))
      case Some(c) =>
        Plan([SetStatus(rid, APPROVED_ADMIN, admin.id),
              AppendLog(rid, admin.id, APPROVE_ADMIN, Some(AdminLogComment(c, admin.empCode, admin.designation)))]
             + ApprovalNotices(s, view.report, admin.username), Done)
  }

  /** `AdminDashboard.send_back_report`: the dialog only accepts comments that
      are not blank after strip (they are stored unstripped); the log and
      the author's notification follow only when the status write matched a
      row. */
  function AdminSendBack(s: Store, admin: Id, rid: Id, comments: Option<string>): (p: Plan)
    ensures GetReport(s, rid).None? ==> p == Plan([], Refused(REPORT_NOT_FOUND))
    ensures comments.None? || Strip(comments.value) == "" ==> p.writes == []
    ensures p.reply == Done ==>
      && comments.Some? && Strip(comments.value) != ""
      && |p.writes| >= 2 && p.writes[..2] == [SetStatus(rid, NEEDS_REVISION, admin), AppendLog(rid, admin, SEND_BACK, comments)]
    ensures p.reply != Done ==> forall k :: 0 <= k < |p.writes| ==> !p.writes[k].AppendLog?
    ensures |p.writes| > 0 ==> p.writes[0] == SetStatus(rid, NEEDS_REVISION, admin)
    ensures forall k :: 2 <= k < |p.writes| ==> p.writes[k].SendNotice?
    ensures forall k :: 0 < k < |p.writes| ==> !p.writes[k].SetStatus?
    ensures WritesOnly(p.writes, {NEEDS_REVISION})
  {
    match GetReport(s, rid)
    case None => Plan([], Refused(REPORT_NOT_FOUND))
    case Some(view) =>
      match comments
      case None => Plan([], Cancelled)
      case Some(c) =>
        if Strip(c) == "" then Plan([], Refused(REVISION_COMMENTS))
        else
          var report := view.report;
          var status := SetStatus(rid, NEEDS_REVISION, admin);
          if FindReport(s, rid).Some? then
            var author := AuthorNotice(report, "' Needs Revision", "Your report requires revision. Comments: " + c);
            Plan([status, AppendLog(rid, admin, SEND_BACK, Some(c))] + author, Done)
          else Plan([status], Refused(STATUS_NOT_UPDATED))
  }

  /** The endpoint's output file name. */
  function FinalPdfName(rid: Id): (r: string)
    ensures StartsWith(r, Views.PdfPrefix(rid)) && EndsWith(r, "final.pdf")
  {
    var r := Views.PdfPrefix(rid) + "final.pdf";
    assert r[..|Views.PdfPrefix(rid)|] == Views.PdfPrefix(rid);
    assert r[|r| - |"final.pdf"|..] == "final.pdf";
    r
  }

  /** The two writes `/api/report/approve` makes before anything else. */
  function RemoteHead(rid: Id, admin: Id): seq<Write>
  {
    [SetStatus(rid, APPROVED_ADMIN, admin), AppendLog(rid, admin, APPROVE_ADMIN, None)]
  }

  /** `/api/report/approve`: missing arguments are a 400 and nothing else.
      Otherwise the status and a comment-less log are written first, from any
      status; the report is then looked up (404 after the writes). `send` is
      what the sender gives: `Raised` is the `EmailSender()` construction at
      line 54 raising, which happens before the connectivity probe, so it is
      a 500 online or offline (the send itself reports failure as a value,
      `Refused`). Otherwise, offline the mail is queued; online a delivered
      mail is a 200 and a refused one is queued and still a 200. The PDF
      generator's result is discarded, so it is no input here. */
  function RemoteApprove(s: Store, report: Option<Id>, admin: Option<Id>, outputDir: string,
                         probe: Delivery.ProbeOutcome, send: Delivery.SendResult, at: Stamp): (p: Plan)
    ensures p.reply.Http? && (p.reply.success <==> p.reply.code == 200)
    ensures p.reply.code == 400 <==> report.None? || admin.None?
    ensures report.None? || admin.None? ==> p.writes == []
    ensures report.Some? && admin.Some? ==> |p.writes| >= 2 && p.writes[..2] == RemoteHead(report.value, admin.value)
  {
    if report.None? || admin.None? then Plan([], Http(400, false, MISSING_ARGS))
    else
      var rid := report.value;
      var aid := admin.value;
      var head := RemoteHead(rid, aid);
      if GetReport(ApplyAll(s, head, at), rid).None? then Plan(head, Http(404, false, HTTP_NOT_FOUND))
      else
        var queued := head + [Enqueue(rid, aid, outputDir + "/" + FinalPdfName(rid))];
        if send.Raised? then Plan(head, Http(500, false, PDF_OR_EMAIL_ERROR + send.message))
        else if !Delivery.IsOnline(probe) then Plan(queued, Http(200, true, OFFLINE_QUEUED))
        else if send.Refused? then Plan(queued, Http(200, true, EMAIL_QUEUED + send.message))
        else Plan(head, Http(200, true, EMAIL_SENT))
  }

  /** `/api/report/send_back`: `needs_revision` with no log and no comment. */
  function RemoteSendBack(s: Store, report: Option<Id>, admin: Option<Id>): (p: Plan)
    ensures p.reply.Http? && (p.reply.code == 400 <==> report.None? || admin.None?)
    ensures forall k :: 0 <= k < |p.writes| ==> !p.writes[k].AppendLog?
    ensures report.Some? && admin.Some? ==> p.writes == [SetStatus(report.value, NEEDS_REVISION, admin.value)]
    ensures report.None? || admin.None? ==> p.writes == []
    ensures WritesOnly(p.writes, {NEEDS_REVISION})
  {
    if report.None? || admin.None? then Plan([], Http(400, false, MISSING_ARGS))
    else Plan([SetStatus(report.value, NEEDS_REVISION, admin.value)], Http(200, true, SENT_BACK))
  }

  // ---------------------------------------------------------------------------
  // What the actions do to the store

  lemma ApplyOne(s: Store, w: Write, at: Stamp)
    ensures ApplyAll(s, [w], at) == Apply(s, w, at)
  {
    assert [w][1..] == [];
  }

  /** A status write followed by a log write (every workflow step but the
      remote send-back): the rows of that id get the status and the
      last-modified columns, one log row follows the old ones, and nothing
      else changes. */
  lemma StatusThenLog(s: Store, rid: Id, status: string, actor: Id, action: string, comments: Option<string>, at: Stamp)
    ensures var r := ApplyAll(s, [SetStatus(rid, status, actor), AppendLog(rid, actor, action, comments)], at);
      && r.logs == s.logs + [LogRow(s.nextLog, rid, actor, action, comments, at)]
      && r.nextLog == s.nextLog + 1
      && r.queue == s.queue && r.nextJob == s.nextJob && r.fields == s.fields && r.users == s.users
      && |r.reports| == |s.reports|
      && forall i :: 0 <= i < |s.reports| ==>
           r.reports[i] == (if s.reports[i].id == rid
                            then s.reports[i].(status := status, lastModifiedBy := actor, lastModifiedAt := at)
                            else s.reports[i])
  {
    var a := SetStatus(rid, status, actor);
    var b := AppendLog(rid, actor, action, comments);
    ApplyTwo(s, a, b, at);
    var s1 := Apply(s, a, at);
    ApplyLogs(s, a, at);
    ApplyQueue(s, a, at);
    ApplyReports(s, a, at);
    ApplyLogs(s1, b, at);
    ApplyQueue(s1, b, at);
    ApplyReports(s1, b, at);
  }

  /** The status write alone, as a crash between the two commits leaves the
      store: the new status is there, its log row is not. */
  lemma StatusWithoutLog(s: Store, rid: Id, status: string, actor: Id, action: string, comments: Option<string>, at: Stamp)
    ensures var r := ApplyAll(s, [SetStatus(rid, status, actor), AppendLog(rid, actor, action, comments)][..1], at);
      && r.logs == s.logs && |r.reports| == |s.reports|
      && forall i :: 0 <= i < |s.reports| && s.reports[i].id == rid ==> r.reports[i].status == status
  {
    var a := SetStatus(rid, status, actor);
    assert [a, AppendLog(rid, actor, action, comments)][..1] == [a];
    ApplyOne(s, a, at);
    ApplyLogs(s, a, at);
    ApplyReports(s, a, at);
  }

  /** A signed submission: the report is `submitted`, which keeps it
      editable, and one `submit` row signed "{emp_code} - {designation}"
      follows the old log rows. */
  lemma SubmitOutcome(s: Store, rid: Id, u: User, at: Stamp)
    ensures var r := ApplyAll(s, SubmitWrites(rid, u), at);
      && r.logs == s.logs + [LogRow(s.nextLog, rid, u.id, SUBMIT, Some(SUBMISSION + Signature(u.empCode, u.designation)), at)]
      && |r.reports| == |s.reports|
      && (forall i :: 0 <= i < |s.reports| && s.reports[i].id == rid ==>
            r.reports[i].status == SUBMITTED && Views.CanEdit(r.reports[i].status) &&
            r.reports[i].version == s.reports[i].version)
      && (forall i :: 0 <= i < |s.reports| && s.reports[i].id != rid ==> r.reports[i] == s.reports[i])
  {
    StatusThenLog(s, rid, SUBMITTED, u.id, SUBMIT, Some(SUBMISSION + Signature(u.empCode, u.designation)), at);
  }

  /** Interrupted between its two commits, a submission leaves a `submitted`
      report with no `submit` row, so no "Prepared By" signature. */
  lemma SubmitInterrupted(s: Store, rid: Id, u: User, at: Stamp)
    ensures var r := ApplyAll(s, SubmitWrites(rid, u)[..1], at);
      && r.logs == s.logs && |r.reports| == |s.reports|
      && forall i :: 0 <= i < |s.reports| && s.reports[i].id == rid ==> r.reports[i].status == SUBMITTED
  {
    StatusWithoutLog(s, rid, SUBMITTED, u.id, SUBMIT, Some(SUBMISSION + Signature(u.empCode, u.designation)), at);
  }

  /** A new report followed by field writes: one draft row is appended and
      the log is untouched. */
  lemma CreateThenFields(s: Store, owner: Id, title: string, data: Views.FormData, at: Stamp)
    ensures var r := ApplyAll(s, [NewReport(owner, title)] + PutFields(s.nextReport, data), at);
      && r.reports == s.reports + [Report(s.nextReport, owner, title, DRAFT, 1, owner, at, None)]
      && r.logs == s.logs && r.nextLog == s.nextLog
  {
    var create := [NewReport(owner, title)];
    var puts := PutFields(s.nextReport, data);
    ApplyAllAppend(s, create, puts, at);
    ApplyOne(s, create[0], at);
    var s1 := Apply(s, create[0], at);
    ApplyReports(s, create[0], at);
    ApplyLogs(s, create[0], at);
    ApplyAllQuiet(s1, puts, at);
  }

  /** The writes of a form submission create one report, `submitted` at
      version 1, and append one "Initial submission" row; the values the
      form collected are stored for the new report. */
  lemma FormSubmitWritesOutcome(s: Store, owner: Id, title: string, data: Views.FormData, at: Stamp)
    requires forall i :: 0 <= i < |s.reports| ==> s.reports[i].id < s.nextReport
    ensures var r := ApplyAll(s, FormSubmitWrites(s, owner, title, data), at);
      var rid := s.nextReport;
      && |r.reports| == |s.reports| + 1
      && r.reports[..|s.reports|] == s.reports
      && r.reports[|s.reports|] == Report(rid, owner, title, SUBMITTED, 1, owner, at, None)
      && r.logs == s.logs + [LogRow(s.nextLog, rid, owner, SUBMIT, Some(INITIAL_SUBMISSION), at)]
      && forall n :: Views.FormValue(data, n).Some? ==>
           n in FieldMap(r.fields, rid) && FieldMap(r.fields, rid)[n] == Views.FormValue(data, n).value
  {
    var rid := s.nextReport;
    var head := [NewReport(owner, title)] + PutFields(rid, data);
    var tail := [SetStatus(rid, SUBMITTED, owner), AppendLog(rid, owner, SUBMIT, Some(INITIAL_SUBMISSION))];
    assert FormSubmitWrites(s, owner, title, data) == head + tail;
    ApplyAllAppend(s, head, tail, at);
    var s2 := ApplyAll(s, head, at);
    CreateThenFields(s, owner, title, data, at);
    StatusThenLog(s2, rid, SUBMITTED, owner, SUBMIT, Some(INITIAL_SUBMISSION), at);
    var r := ApplyAll(s2, tail, at);
    assert r.reports[..|s.reports|] == s.reports by {
      forall i | 0 <= i < |s.reports| ensures r.reports[i] == s.reports[i] {
        assert s2.reports[i] == s.reports[i] && s2.reports[i].id != rid;
      }
    }
    FormFieldsReadBack(s, owner, title, data, tail, at);
  }

  /** The form's values survive the status and log writes that follow. */
  lemma FormFieldsReadBack(s: Store, owner: Id, title: string, data: Views.FormData, tail: seq<Write>, at: Stamp)
    requires forall k :: 0 <= k < |tail| ==> !tail[k].PutField?
    ensures var rid := s.nextReport;
      var r := ApplyAll(ApplyAll(s, [NewReport(owner, title)] + PutFields(rid, data), at), tail, at);
      forall n :: Views.FormValue(data, n).Some? ==>
        n in FieldMap(r.fields, rid) && FieldMap(r.fields, rid)[n] == Views.FormValue(data, n).value
  {
    var rid := s.nextReport;
    var create := [NewReport(owner, title)];
    var puts := PutFields(rid, data);
    ApplyAllAppend(s, create, puts, at);
    ApplyOne(s, create[0], at);
    var s1 := Apply(s, create[0], at);
    forall n | Views.FormValue(data, n).Some?
      ensures var r := ApplyAll(ApplyAll(s1, puts, at), tail, at);
        n in FieldMap(r.fields, rid) && FieldMap(r.fields, rid)[n] == Views.FormValue(data, n).value
    {
      FieldsReadBack(s1, rid, data, tail, at, n);
    }
  }

  /** A successful form submission creates one `submitted` report under the
      stripped title, with every required field of the form stored non-empty,
      and appends one "Initial submission" row. */
  lemma FormSubmitOutcome(s: Store, owner: Id, title: string, fieldNames: seq<string>, data: Views.FormData, at: Stamp)
    requires forall i :: 0 <= i < |s.reports| ==> s.reports[i].id < s.nextReport
    requires FormSubmit(s, owner, title, fieldNames, data).reply == Done
    ensures var r := ApplyAll(s, FormSubmit(s, owner, title, fieldNames, data).writes, at);
      var rid := s.nextReport;
      && |r.reports| == |s.reports| + 1
      && r.reports[|s.reports|] == Report(rid, owner, Strip(title), SUBMITTED, 1, owner, at, None)
      && r.logs == s.logs + [LogRow(s.nextLog, rid, owner, SUBMIT, Some(INITIAL_SUBMISSION), at)]
      && forall n :: n in fieldNames && Views.IsRequiredName(n) ==>
           n in FieldMap(r.fields, rid) && FieldMap(r.fields, rid)[n] != ""
  {
    var p := FormSubmit(s, owner, title, fieldNames, data);
    assert p.writes == FormSubmitWrites(s, owner, Strip(title), data);
    FormSubmitWritesOutcome(s, owner, Strip(title), data, at);
    assert Views.MissingFields(fieldNames, data) == [];
    forall n | n in fieldNames && Views.IsRequiredName(n)
      ensures Views.FormValue(data, n).Some? && Views.FormValue(data, n).value != ""
    {
      Views.NothingMissing(fieldNames, data, n);
    }
  }

  /** Saving the form as a draft creates one `draft` report and stores every
      value the form collected, the last one for a name repeated. */
  lemma FormSaveOutcome(s: Store, owner: Id, title: string, data: Views.FormData, at: Stamp)
    requires FormSave(s, owner, title, data).reply == Done
    ensures var r := ApplyAll(s, FormSave(s, owner, title, data).writes, at);
      var rid := s.nextReport;
      && |r.reports| == |s.reports| + 1
      && r.reports[|s.reports|] == Report(rid, owner, Strip(title), DRAFT, 1, owner, at, None)
      && r.logs == s.logs
      && forall n :: Views.FormValue(data, n).Some? ==>
           n in FieldMap(r.fields, rid) && FieldMap(r.fields, rid)[n] == Views.FormValue(data, n).value
  {
    var rid := s.nextReport;
    var create := [NewReport(owner, Strip(title))];
    var puts := PutFields(rid, data);
    ApplyAllAppend(s, create, puts, at);
    ApplyOne(s, create[0], at);
    var s1 := Apply(s, create[0], at);
    ApplyReports(s, create[0], at);
    ApplyLogs(s, create[0], at);
    ApplyAllQuiet(s1, puts, at);
    forall n | Views.FormValue(data, n).Some?
      ensures var r := ApplyAll(s1, puts, at);
        n in FieldMap(r.fields, rid) && FieldMap(r.fields, rid)[n] == Views.FormValue(data, n).value
    {
      FieldsReadBack(s1, rid, data, [], at, n);
      assert ApplyAll(ApplyAll(s1, puts, at), [], at) == ApplyAll(s1, puts, at);
    }
  }

  /** The effect of a status write and its log row as the dashboards see it:
      the rows of `rid` carry `status`, every other row is as it was, `row`
      follows the old log rows and the queue is untouched. */
  predicate Transitioned(s: Store, r: Store, rid: Id, status: string, row: LogRow)
  {
    && r.logs == s.logs + [row]
    && r.queue == s.queue
    && |r.reports| == |s.reports|
    && (forall i :: 0 <= i < |s.reports| && s.reports[i].id == rid ==> r.reports[i].status == status)
    && (forall i :: 0 <= i < |s.reports| && s.reports[i].id != rid ==> r.reports[i] == s.reports[i])
  }

  /** After a transition the author may edit the report exactly when they
      may edit a report in the new status. */
  lemma TransitionedEditable(s: Store, r: Store, rid: Id, status: string, row: LogRow)
    requires Transitioned(s, r, rid, status, row)
    ensures forall i :: 0 <= i < |s.reports| && s.reports[i].id == rid ==>
      (Views.CanEdit(r.reports[i].status) <==> Views.CanEdit(status))
  {
  }

  /** A confirmed leader approval: the report leaves the author's hands and
      enters the admin's review list, with an "Approved by Unit Leader" row. */
  lemma LeaderApproveOutcome(s: Store, leader: Id, rid: Id, at: Stamp)
    ensures var r := ApplyAll(s, LeaderApprove(s, leader, rid, true).writes, at);
      && Transitioned(s, r, rid, APPROVED_LEADER, LogRow(s.nextLog, rid, leader, APPROVE_LEADER, Some(LEADER_NOTE), at))
      && forall i :: 0 <= i < |s.reports| && s.reports[i].id == rid ==>
           !Views.CanEdit(r.reports[i].status) && Views.AdminOffersReview(r.reports[i].status)
  {
    StatusThenLog(s, rid, APPROVED_LEADER, leader, APPROVE_LEADER, Some(LEADER_NOTE), at);
    Views.EditableStatuses();
  }

  /** A leader send-back with any non-empty comments, blank ones included:
      the report is editable again and the comments are in the log. */
  lemma LeaderSendBackOutcome(s: Store, leader: Id, rid: Id, comments: string, at: Stamp)
    requires comments != ""
    ensures var r := ApplyAll(s, LeaderSendBack(s, leader, rid, Some(comments)).writes, at);
      && Transitioned(s, r, rid, NEEDS_REVISION, LogRow(s.nextLog, rid, leader, SEND_BACK, Some(comments), at))
      && forall i :: 0 <= i < |s.reports| && s.reports[i].id == rid ==> Views.CanEdit(r.reports[i].status)
  {
    StatusThenLog(s, rid, NEEDS_REVISION, leader, SEND_BACK, Some(comments), at);
    Views.EditableStatuses();
  }

  /** A plan of a status write, a log write and notifications has the effect
      of its first two writes. */
  lemma {:induction false} HeadThenNotices(s: Store, ws: seq<Write>, rid: Id, status: string, actor: Id,
                                           action: string, comments: Option<string>, at: Stamp)
    requires |ws| >= 2 && ws[0] == SetStatus(rid, status, actor) && ws[1] == AppendLog(rid, actor, action, comments)
    requires forall k :: 2 <= k < |ws| ==> ws[k].SendNotice?
    ensures Transitioned(s, ApplyAll(s, ws, at), rid, status, LogRow(s.nextLog, rid, actor, action, comments, at))
  {
    var head := [ws[0], ws[1]];
    var rest := ws[2..];
    assert ws == head + rest;
    ApplyAllAppend(s, head, rest, at);
    StatusThenLog(s, rid, status, actor, action, comments, at);
    ApplyAllQuiet(ApplyAll(s, head, at), rest, at);
  }

  /** A final approval: the report is `approved_admin`, no longer editable,
      and the log row holds the comments and the admin's signature. */
  lemma AdminApproveOutcome(s: Store, admin: Auth.Account, rid: Id, comments: string, at: Stamp)
    requires GetReport(s, rid).Some?
    ensures var r := ApplyAll(s, AdminApprove(s, admin, rid, Some(comments)).writes, at);
      var note := AdminLogComment(comments, admin.empCode, admin.designation);
      && Transitioned(s, r, rid, APPROVED_ADMIN, LogRow(s.nextLog, rid, admin.id, APPROVE_ADMIN, Some(note), at))
      && forall i :: 0 <= i < |s.reports| && s.reports[i].id == rid ==> !Views.CanEdit(r.reports[i].status)
  {
    var note := AdminLogComment(comments, admin.empCode, admin.designation);
    var ws := AdminApprove(s, admin, rid, Some(comments)).writes;
    HeadThenNotices(s, ws, rid, APPROVED_ADMIN, admin.id, APPROVE_ADMIN, Some(note), at);
    TransitionedEditable(s, ApplyAll(s, ws, at), rid, APPROVED_ADMIN, LogRow(s.nextLog, rid, admin.id, APPROVE_ADMIN, Some(note), at));
    Views.EditableStatuses();
  }

  /** Unless the report is `leader_approved`, a final approval notifies its
      author (when `user_id` is truthy) and no one else. */
  lemma AdminApproveNotices(s: Store, admin: Auth.Account, rid: Id, comments: string)
    requires GetReport(s, rid).Some? && GetReport(s, rid).value.report.status != Views.LEADER_APPROVED
    ensures var ws := AdminApprove(s, admin, rid, Some(comments)).writes;
      var owner := GetReport(s, rid).value.report.owner;
      && |ws| == (if owner != 0 then 3 else 2)
      && forall k :: 2 <= k < |ws| ==> ws[k].SendNotice? && ws[k].user == owner
  {
  }

  /** An admin send-back with comments that are not blank: the status write
      always matches (the report was just found), so the failure branch is
      never taken; the report is editable again and the log holds the
      comments as typed. */
  lemma AdminSendBackOutcome(s: Store, admin: Id, rid: Id, comments: string, at: Stamp)
    requires GetReport(s, rid).Some? && Strip(comments) != ""
    ensures AdminSendBack(s, admin, rid, Some(comments)).reply == Done
    ensures var r := ApplyAll(s, AdminSendBack(s, admin, rid, Some(comments)).writes, at);
      && Transitioned(s, r, rid, NEEDS_REVISION, LogRow(s.nextLog, rid, admin, SEND_BACK, Some(comments), at))
      && forall i :: 0 <= i < |s.reports| && s.reports[i].id == rid ==> Views.CanEdit(r.reports[i].status)
  {
    var p := AdminSendBack(s, admin, rid, Some(comments));
    assert FindReport(s, rid).Some?;
    assert p.reply == Done;
    var row := LogRow(s.nextLog, rid, admin, SEND_BACK, Some(comments), at);
    HeadThenNotices(s, p.writes, rid, NEEDS_REVISION, admin, SEND_BACK, Some(comments), at);
    TransitionedEditable(s, ApplyAll(s, p.writes, at), rid, NEEDS_REVISION, row);
    Views.EditableStatuses();
  }

  /** Rows that keep their ids and owners keep every lookup's outcome. */
  lemma {:induction false} ReportWhereKept(a: seq<Report>, b: seq<Report>, rid: Id)
    requires |a| == |b| && forall i :: 0 <= i < |a| ==> Kept(a[i], b[i])
    ensures ReportWhere(a, rid).None? <==> ReportWhere(b, rid).None?
    ensures ReportWhere(a, rid).Some? ==> Kept(ReportWhere(a, rid).value, ReportWhere(b, rid).value)
    decreases |a|
  {
    if |a| > 0 {
      assert a[0].id == b[0].id;
      ReportWhereKept(a[1..], b[1..], rid);
    }
  }

  /** Status writes do not change whether `get_report` finds a report. */
  lemma GetReportKept(s: Store, r: Store, rid: Id)
    requires r.users == s.users && |r.reports| == |s.reports|
    requires forall i :: 0 <= i < |s.reports| ==> Kept(s.reports[i], r.reports[i])
    ensures GetReport(s, rid).None? <==> GetReport(r, rid).None?
  {
    ReportWhereKept(s.reports, r.reports, rid);
  }

  /** The endpoint's two leading writes: the log row is appended, the queue
      is untouched, and the report is found afterwards iff it was before. */
  lemma RemoteHeadOutcome(s: Store, rid: Id, aid: Id, at: Stamp)
    ensures var s1 := ApplyAll(s, RemoteHead(rid, aid), at);
      && s1.logs == s.logs + [LogRow(s.nextLog, rid, aid, APPROVE_ADMIN, None, at)]
      && s1.queue == s.queue && s1.nextJob == s.nextJob
      && (GetReport(s1, rid).None? <==> GetReport(s, rid).None?)
      && |s1.reports| == |s.reports|
      && forall i :: 0 <= i < |s.reports| && s.reports[i].id == rid ==> s1.reports[i].status == APPROVED_ADMIN
  {
    var s1 := ApplyAll(s, RemoteHead(rid, aid), at);
    StatusThenLog(s, rid, APPROVED_ADMIN, aid, APPROVE_ADMIN, None, at);
    GetReportKept(s, s1, rid);
  }

  /** The enqueue write appends one pending job and nothing else. */
  lemma EnqueueOutcome(s: Store, ws: seq<Write>, rid: Id, aid: Id, path: string, at: Stamp)
    ensures var s1 := ApplyAll(s, ws, at);
      var r := ApplyAll(s, ws + [Enqueue(rid, aid, path)], at);
      && r.logs == s1.logs && r.reports == s1.reports
      && r.queue == s1.queue + [Job(s1.nextJob, rid, aid, path, at, PENDING, None)]
  {
    var w := Enqueue(rid, aid, path);
    var s1 := ApplyAll(s, ws, at);
    ApplyAllAppend(s, ws, [w], at);
    ApplyOne(s1, w, at);
    ApplyLogs(s1, w, at);
    ApplyQueue(s1, w, at);
    ApplyReports(s1, w, at);
  }

  /** `/api/report/approve` with both arguments answers 404 exactly when the
      report is missing, and succeeds unless it is missing or the sender's
      construction raised, whether or not the host is online. */
  lemma RemoteApproveReply(s: Store, rid: Id, aid: Id, outputDir: string,
                           probe: Delivery.ProbeOutcome, send: Delivery.SendResult, at: Stamp)
    ensures var p := RemoteApprove(s, Some(rid), Some(aid), outputDir, probe, send, at);
      var found := GetReport(s, rid).Some?;
      && (p.reply.code == 404 <==> !found)
      && (p.reply.success <==> found && !send.Raised?)
  {
    RemoteHeadOutcome(s, rid, aid, at);
  }

  /** A sender whose construction raises makes a found report's approval a
      500 with only the status and log written, even offline: nothing is
      queued. */
  lemma RemoteApproveRaisedOffline(s: Store, rid: Id, aid: Id, outputDir: string,
                                   probe: Delivery.ProbeOutcome, m: string, at: Stamp)
    requires GetReport(s, rid).Some? && !Delivery.IsOnline(probe)
    ensures RemoteApprove(s, Some(rid), Some(aid), outputDir, probe, Delivery.Raised(m), at)
      == Plan(RemoteHead(rid, aid), Http(500, false, PDF_OR_EMAIL_ERROR + m))
  {
    RemoteHeadOutcome(s, rid, aid, at);
  }

  /** The writes of `/api/report/approve` happen whatever the status and
      whether or not the report exists. A found report's mail is queued, as
      one pending job for the final PDF, exactly when the sender was built and
      the host is offline or the send was refused. */
  lemma RemoteApproveOutcome(s: Store, rid: Id, aid: Id, outputDir: string,
                             probe: Delivery.ProbeOutcome, send: Delivery.SendResult, at: Stamp)
    ensures var p := RemoteApprove(s, Some(rid), Some(aid), outputDir, probe, send, at);
      var r := ApplyAll(s, p.writes, at);
      var queued := GetReport(s, rid).Some? && !send.Raised? && (!Delivery.IsOnline(probe) || send.Refused?);
      && r.logs == s.logs + [LogRow(s.nextLog, rid, aid, APPROVE_ADMIN, None, at)]
      && r.queue == s.queue + (if queued then [Job(s.nextJob, rid, aid, outputDir + "/" + FinalPdfName(rid), at, PENDING, None)] else [])
      && |r.reports| == |s.reports|
      && forall i :: 0 <= i < |s.reports| && s.reports[i].id == rid ==> r.reports[i].status == APPROVED_ADMIN
  {
    var head := RemoteHead(rid, aid);
    var job := Enqueue(rid, aid, outputDir + "/" + FinalPdfName(rid));
    var p := RemoteApprove(s, Some(rid), Some(aid), outputDir, probe, send, at);
    RemoteHeadOutcome(s, rid, aid, at);
    if GetReport(s, rid).Some? && !send.Raised? && (!Delivery.IsOnline(probe) || send.Refused?) {
      assert p.writes == head + [job];
      EnqueueOutcome(s, head, rid, aid, outputDir + "/" + FinalPdfName(rid), at);
    } else {
      assert p.writes == head;
    }
  }

  /** `/api/report/send_back`: the report is editable again, and neither the
      log nor the queue changes. */
  lemma RemoteSendBackOutcome(s: Store, rid: Id, aid: Id, at: Stamp)
    ensures var r := ApplyAll(s, RemoteSendBack(s, Some(rid), Some(aid)).writes, at);
      && r.logs == s.logs && r.queue == s.queue && |r.reports| == |s.reports|
      && (forall i :: 0 <= i < |s.reports| && s.reports[i].id == rid ==>
            r.reports[i].status == NEEDS_REVISION && Views.CanEdit(r.reports[i].status))
      && (forall i :: 0 <= i < |s.reports| && s.reports[i].id != rid ==> r.reports[i] == s.reports[i])
  {
    var w := SetStatus(rid, NEEDS_REVISION, aid);
    ApplyOne(s, w, at);
    ApplyLogs(s, w, at);
    ApplyQueue(s, w, at);
    ApplyReports(s, w, at);
    Views.EditableStatuses();
  }

  /** The editor's draft save puts the held report back to `draft` from any
      status, a final approval included, and logs nothing. */
  lemma EditorSaveDraftOutcome(s: Store, owner: Id, rid: Id, excelPath: string, at: Stamp)
    requires excelPath != ""
    ensures var r := ApplyAll(s, EditorSaveDraft(s, owner, Some(rid), Some(excelPath), true).writes, at);
      && r.logs == s.logs && |r.reports| == |s.reports|
      && (forall i :: 0 <= i < |s.reports| && s.reports[i].id == rid ==>
            r.reports[i] == s.reports[i].(status := DRAFT, lastModifiedBy := owner, lastModifiedAt := at))
      && (forall i :: 0 <= i < |s.reports| && s.reports[i].id != rid ==> r.reports[i] == s.reports[i])
  {
    var w := SetStatus(rid, DRAFT, owner);
    ApplyOne(s, w, at);
    ApplyLogs(s, w, at);
    ApplyReports(s, w, at);
  }

  // ---------------------------------------------------------------------------
  // Runs

  /** Every workflow action, with the answers and oracle outcomes it reads. */
  datatype Action =
    | OpenInEditor(owner: Id, title: string, editing: Option<Id>, reportsDir: string, templatePath: string,
                   fileExists: bool, copyError: Option<string>)
    | SaveEditorDraft(owner: Id, editing: Option<Id>, excelPath: Option<string>, fileExists: bool)
    | SubmitFromEditor(editing: Option<Id>, excelPath: Option<string>, fileExists: bool,
                       current: Option<Id>, confirmed: bool)
    | SubmitFromDashboard(report: Id, current: Option<Id>, confirmed: bool)
    | EditFromDashboard(report: Id, reportsDir: string, recordedExists: bool, templates: seq<string>,
                        copyError: Option<string>, openError: Option<string>)
    | SaveForm(owner: Id, title: string, data: Views.FormData)
    | SubmitForm(owner: Id, title: string, fieldNames: seq<string>, data: Views.FormData)
    | LeaderApproval(leader: Id, report: Id, confirmed: bool)
    | LeaderReturn(leader: Id, report: Id, comments: Option<string>)
    | AdminApproval(account: Auth.Account, report: Id, comments: Option<string>)
    | AdminReturn(admin: Id, report: Id, comments: Option<string>)
    | RemoteApproval(remoteReport: Option<Id>, remoteAdmin: Option<Id>, outputDir: string,
                     probe: Delivery.ProbeOutcome, send: Delivery.SendResult)
    | RemoteReturn(remoteReport: Option<Id>, remoteAdmin: Option<Id>)

  function Step(s: Store, a: Action, at: Stamp): Plan
  {
    match a
    case OpenInEditor(owner, title, editing, dir, template, exists_, err) =>
      EditorOpen(s, owner, title, editing, dir, template, exists_, err)
    case SaveEditorDraft(owner, editing, path, exists_) => EditorSaveDraft(s, owner, editing, path, exists_)
    case SubmitFromEditor(editing, path, exists_, current, ok) => EditorSubmit(s, editing, path, exists_, current, ok)
    case SubmitFromDashboard(rid, current, ok) => DashboardSubmit(s, rid, current, ok)
    case EditFromDashboard(rid, dir, exists_, templates, copyErr, openErr) =>
      EditReport(s, rid, dir, exists_, templates, copyErr, openErr)
    case SaveForm(owner, title, data) => FormSave(s, owner, title, data)
    case SubmitForm(owner, title, names, data) => FormSubmit(s, owner, title, names, data)
    case LeaderApproval(leader, rid, ok) => LeaderApprove(s, leader, rid, ok)
    case LeaderReturn(leader, rid, comments) => LeaderSendBack(s, leader, rid, comments)
    case AdminApproval(admin, rid, comments) => AdminApprove(s, admin, rid, comments)
    case AdminReturn(admin, rid, comments) => AdminSendBack(s, admin, rid, comments)
    case RemoteApproval(rid, aid, dir, probe, send) => RemoteApprove(s, rid, aid, dir, probe, send, at)
    case RemoteReturn(rid, aid) => RemoteSendBack(s, rid, aid)
  }

  /** The store after one action. */
  function Run(s: Store, a: Action, at: Stamp): Store
  {
    ApplyAll(s, Step(s, a, at).writes, at)
  }

  /** The store after a sequence of actions, each at its own time. */
  function RunAll(s: Store, trace: seq<(Action, Stamp)>): Store
    decreases |trace|
  {
    if |trace| == 0 then s else RunAll(Run(s, trace[0].0, trace[0].1), trace[1..])
  }

  /** Every report holds one of the five statuses the dashboards know. */
  predicate AllKnown(s: Store)
  {
    forall i :: 0 <= i < |s.reports| ==> s.reports[i].status in Views.KNOWN_STATUSES
  }

  /** No write ever changes a report's version from its default. */
  predicate AllFirstVersion(s: Store)
  {
    forall i :: 0 <= i < |s.reports| ==> s.reports[i].version == 1
  }

  lemma WritesOnlyAppend(a: seq<Write>, b: seq<Write>, allowed: set<string>)
    requires WritesOnly(a, allowed) && WritesOnly(b, allowed)
    ensures WritesOnly(a + b, allowed)
  {
    forall k | 0 <= k < |a + b| && (a + b)[k].SetStatus? ensures (a + b)[k].status in allowed {
      if k >= |a| {
        assert (a + b)[k] == b[k - |a|];
      }
    }
  }

  lemma FormSaveWrites(s: Store, owner: Id, title: string, data: Views.FormData)
    ensures WritesOnly(FormSave(s, owner, title, data).writes, {})
  {
    if Strip(title) != "" {
      WritesOnlyAppend([NewReport(owner, Strip(title))], PutFields(s.nextReport, data), {});
    }
  }

  lemma FormSubmitWritesKnown(s: Store, owner: Id, title: string, data: Views.FormData)
    ensures WritesOnly(FormSubmitWrites(s, owner, title, data), {SUBMITTED})
  {
    var create := [NewReport(owner, title)];
    var puts := PutFields(s.nextReport, data);
    var tail := [SetStatus(s.nextReport, SUBMITTED, owner), AppendLog(s.nextReport, owner, SUBMIT, Some(INITIAL_SUBMISSION))];
    WritesOnlyAppend(create, puts, {SUBMITTED});
    WritesOnlyAppend(create + puts, tail, {SUBMITTED});
  }

  lemma SubmitWritesKnown(rid: Id, u: User)
    ensures WritesOnly(SubmitWrites(rid, u), {SUBMITTED})
  {
  }

  lemma AdminApproveWrites(s: Store, admin: Auth.Account, rid: Id, comments: Option<string>)
    ensures WritesOnly(AdminApprove(s, admin, rid, comments).writes, {APPROVED_ADMIN})
  {
    var ws := AdminApprove(s, admin, rid, comments).writes;
    forall k | 0 <= k < |ws| && ws[k].SetStatus? ensures ws[k].status in {APPROVED_ADMIN} {
      assert k == 0;
    }
  }

  lemma RemoteApproveWrites(s: Store, report: Option<Id>, admin: Option<Id>, outputDir: string,
                            probe: Delivery.ProbeOutcome, send: Delivery.SendResult, at: Stamp)
    ensures WritesOnly(RemoteApprove(s, report, admin, outputDir, probe, send, at).writes, {APPROVED_ADMIN})
  {
    var ws := RemoteApprove(s, report, admin, outputDir, probe, send, at).writes;
    forall k | 0 <= k < |ws| && ws[k].SetStatus? ensures ws[k].status in {APPROVED_ADMIN} {
      assert k == 0;
    }
  }

  lemma WritesOnlyWiden(ws: seq<Write>, a: set<string>, b: set<string>)
    requires WritesOnly(ws, a) && a <= b
    ensures WritesOnly(ws, b)
  {
  }

  /** Whatever the action and its answers, every status it writes is one of
      the five; in particular no action writes `pending_approval` or
      `leader_approved`. */
  lemma StepWritesKnown(s: Store, a: Action, at: Stamp)
    ensures WritesOnly(Step(s, a, at).writes, Views.KNOWN_STATUSES)
  {
    if a.LeaderApproval? || a.LeaderReturn? || a.AdminApproval? || a.AdminReturn? || a.RemoteApproval? || a.RemoteReturn? {
      ReviewWritesKnown(s, a, at);
    } else {
      AuthorWritesKnown(s, a, at);
    }
  }

  /** The five statuses, one at a time, as subsets of the known ones. */
  lemma KnownSingletons()
    ensures {} <= Views.KNOWN_STATUSES && {DRAFT} <= Views.KNOWN_STATUSES && {SUBMITTED} <= Views.KNOWN_STATUSES
    ensures {APPROVED_LEADER} <= Views.KNOWN_STATUSES && {APPROVED_ADMIN} <= Views.KNOWN_STATUSES
    ensures {NEEDS_REVISION} <= Views.KNOWN_STATUSES
  {
  }

  /** The author's actions write drafts and submissions only. */
  lemma AuthorWritesKnown(s: Store, a: Action, at: Stamp)
    requires !(a.LeaderApproval? || a.LeaderReturn? || a.AdminApproval? || a.AdminReturn? || a.RemoteApproval? || a.RemoteReturn?)
    ensures WritesOnly(Step(s, a, at).writes, Views.KNOWN_STATUSES)
  {
    var ws := Step(s, a, at).writes;
    var known := Views.KNOWN_STATUSES;
    KnownSingletons();
    match a
    case OpenInEditor(owner, title, editing, dir, template, exists_, err) =>
    case SaveEditorDraft(owner, editing, path, exists_) =>
      WritesOnlyWiden(ws, {DRAFT}, known);
    case SubmitFromEditor(editing, path, exists_, current, ok) =>
      WritesOnlyWiden(ws, {SUBMITTED}, known);
    case SubmitFromDashboard(rid, current, ok) =>
      WritesOnlyWiden(ws, {SUBMITTED}, known);
    case EditFromDashboard(rid, dir, exists_, templates, copyErr, openErr) =>
    case SaveForm(owner, title, data) =>
      FormSaveWrites(s, owner, title, data);
      WritesOnlyWiden(ws, {}, known);
    case SubmitForm(owner, title, names, data) =>
      if ws != [] {
        FormSubmitWritesKnown(s, owner, Strip(title), data);
      }
      WritesOnlyWiden(ws, {SUBMITTED}, known);
  }

  /** The reviewers' actions write approvals and send-backs only. */
  lemma ReviewWritesKnown(s: Store, a: Action, at: Stamp)
    requires a.LeaderApproval? || a.LeaderReturn? || a.AdminApproval? || a.AdminReturn? || a.RemoteApproval? || a.RemoteReturn?
    ensures WritesOnly(Step(s, a, at).writes, Views.KNOWN_STATUSES)
  {
    var ws := Step(s, a, at).writes;
    var known := Views.KNOWN_STATUSES;
    KnownSingletons();
    match a
    case LeaderApproval(leader, rid, ok) =>
      WritesOnlyWiden(ws, {APPROVED_LEADER}, known);
    case LeaderReturn(leader, rid, comments) =>
      WritesOnlyWiden(ws, {NEEDS_REVISION}, known);
    case AdminApproval(admin, rid, comments) =>
      AdminApproveWrites(s, admin, rid, comments);
      WritesOnlyWiden(ws, {APPROVED_ADMIN}, known);
    case AdminReturn(admin, rid, comments) =>
      WritesOnlyWiden(ws, {NEEDS_REVISION}, known);
    case RemoteApproval(rid, aid, dir, probe, send) =>
      RemoteApproveWrites(s, rid, aid, dir, probe, send, at);
      WritesOnlyWiden(ws, {APPROVED_ADMIN}, known);
    case RemoteReturn(rid, aid) =>
      WritesOnlyWiden(ws, {NEEDS_REVISION}, known);
  }

  /** One action keeps every status known and every version at 1. */
  lemma RunKeeps(s: Store, a: Action, at: Stamp)
    requires AllKnown(s) && AllFirstVersion(s)
    ensures AllKnown(Run(s, a, at)) && AllFirstVersion(Run(s, a, at))
  {
    var ws := Step(s, a, at).writes;
    StepWritesKnown(s, a, at);
    ApplyAllStatuses(s, ws, at, Views.KNOWN_STATUSES);
    ApplyAllReports(s, ws, at);
    var r := Run(s, a, at);
    forall i | 0 <= i < |r.reports| ensures r.reports[i].status in Views.KNOWN_STATUSES && r.reports[i].version == 1 {
      if i < |s.reports| {
        assert Kept(s.reports[i], r.reports[i]);
      }
    }
  }

  /** Any sequence of actions keeps every status known and every version
      at 1. */
  lemma {:induction false} RunAllKeeps(s: Store, trace: seq<(Action, Stamp)>)
    requires AllKnown(s) && AllFirstVersion(s)
    ensures AllKnown(RunAll(s, trace)) && AllFirstVersion(RunAll(s, trace))
    decreases |trace|
  {
    if |trace| > 0 {
      RunKeeps(s, trace[0].0, trace[0].1);
      RunAllKeeps(Run(s, trace[0].0, trace[0].1), trace[1..]);
    }
  }

  /** From a fresh database, whatever happens, no report is ever in
      `pending_approval` or `leader_approved`, so the admin dialog's review
      buttons never show, and `version` stays 1 everywhere. */
  lemma NoReviewStatusReachable(trace: seq<(Action, Stamp)>)
    ensures var r := RunAll(Empty, trace);
      && AllFirstVersion(r)
      && forall i :: 0 <= i < |r.reports| ==>
           !Views.AdminDialogOffersReview(r.reports[i].status) && r.reports[i].status != Views.LEADER_APPROVED
  {
    RunAllKeeps(Empty, trace);
    var r := RunAll(Empty, trace);
    forall i | 0 <= i < |r.reports|
      ensures !Views.AdminDialogOffersReview(r.reports[i].status) && r.reports[i].status != Views.LEADER_APPROVED
    {
      Views.ReviewButtons(r.reports[i].status);
    }
  }

  /** Hence, starting from any store whose statuses are the five known ones
      (an empty database, or one holding the default admin, included),
      whatever actions follow, a final approval notifies the report's author
      and never a unit leader. */
  lemma LeaderNoticeNeverSent(s: Store, trace: seq<(Action, Stamp)>, admin: Auth.Account, rid: Id, comments: string)
    requires AllKnown(s) && AllFirstVersion(s)
    requires GetReport(RunAll(s, trace), rid).Some?
    ensures var r := RunAll(s, trace);
      var ws := AdminApprove(r, admin, rid, Some(comments)).writes;
      forall k :: 2 <= k < |ws| ==> ws[k].SendNotice? && ws[k].user == GetReport(r, rid).value.report.owner
  {
    var r := RunAll(s, trace);
    RunAllKeeps(s, trace);
    KnownReportNotLeaderApproved(r, rid);
    AdminApproveNotices(r, admin, rid, comments);
  }

  /** The premises are met by a database holding the default admin and one
      draft report of theirs, before any action. */
  lemma LeaderNoticePremisesMet()
    ensures var s := Empty.(users := [User(1, "admin", "", Auth.ADMIN, "", "", "")],
                            reports := [Report(1, 1, "t", DRAFT, 1, 1, "", None)]);
      AllKnown(s) && AllFirstVersion(s) && GetReport(RunAll(s, []), 1).Some?
  {
    var s := Empty.(users := [User(1, "admin", "", Auth.ADMIN, "", "", "")],
                    reports := [Report(1, 1, "t", DRAFT, 1, 1, "", None)]);
    assert RunAll(s, []) == s;
    assert FindReport(s, 1).Some?;
    assert GetUserById(s, 1).Some?;
  }

  /** A report of a store whose statuses are all known is never in the
      admin dialog's `leader_approved`. */
  lemma KnownReportNotLeaderApproved(r: Store, rid: Id)
    requires AllKnown(r) && GetReport(r, rid).Some?
    ensures GetReport(r, rid).value.report.status != Views.LEADER_APPROVED
  {
    var rep := GetReport(r, rid).value.report;
    var i :| 0 <= i < |r.reports| && r.reports[i] == rep;
    assert rep.status in Views.KNOWN_STATUSES;
  }

  /** One action only appends to the approval log and the queue, keeps the
      users, and changes no existing report beyond its status and
      last-modified columns. */
  lemma RunAppendOnly(s: Store, a: Action, at: Stamp)
    ensures var r := Run(s, a, at);
      && r.users == s.users
      && |s.logs| <= |r.logs| && r.logs[..|s.logs|] == s.logs
      && |s.queue| <= |r.queue| && r.queue[..|s.queue|] == s.queue
      && |s.reports| <= |r.reports|
      && forall i :: 0 <= i < |s.reports| ==> Kept(s.reports[i], r.reports[i])
  {
    var ws := Step(s, a, at).writes;
    ApplyAllLogs(s, ws, at);
    assert (s.logs + LogRows(ws, s.nextLog, at))[..|s.logs|] == s.logs;
    ApplyAllQueue(s, ws, at);
    ApplyAllReports(s, ws, at);
  }
}
